=== FILE: README.md ===
# Trendella chat intake and chat history, in Dafny

This project models the two parts of the Trendella web client that hold
logic. Everything else in the client is view markup or calls into Firebase
and HTTP.

- **The chat page's profile intake** (`client/src/pages/ChatPage.tsx`):
  - eight questions fill in a gift recipient's profile;
  - each question has a parser that turns free text into one profile field
    (age, gender, relationship, occasion, budget, interests, favourite
    colour, favourite brands);
  - a rejected answer is re-prompted, and an accepted one is confirmed and
    merged into the profile;
  - after the eighth answer the flow closes;
  - free text then refines the recommendation constraints (`deriveConstraints`);
  - the page also resets for a new chat, opens stored sessions, auto-saves,
    and restores the step of a legacy transcript.
- **Chat session persistence** (`client/src/lib/chatHistory.ts`):
  - how a save merges the stored messages with the page's messages (by id,
    the stored copy winning), sorts them by timestamp, keeps the newest 1000
    and normalises their timestamps;
  - `cleanData`, which strips `undefined`;
  - the message conversions;
  - session ids and the date read back from them;
  - the sidebar summaries;
  - loading, renaming and deleting sessions, and the authentication gating
    of each operation.

Modules:

| file | module | what it holds |
|---|---|---|
| `wrappers.dfy` | `Wrappers` | `Option`, `Result` |
| `text.dfy` | `Text` | ASCII `trim`, `toLowerCase`, `\d`/`\s` runs, substring tests, number rendering, `Array.from(new Set(..))` |
| `sorting.dfy` | `Sorting` | a stable sort by a key (`Array.prototype.sort` with a comparator) |
| `chat_types.dfy` | `ChatTypes` | the `ChatMessage` record of `ChatThread.tsx` |
| `profile.dfy` | `Profile` | `RecipientProfile`, one parsed answer, and the local merge after an answer |
| `parsers.dfy` | `Parsers` | `parseNumber`, the gender and verbatim parsers, `parseCommaSeparated`, `clampBudget`, `extractBudget` |
| `question_flow.dfy` | `QuestionFlow` | the eight questions (prompts, reprompts, options, parsers, confirmations) |
| `refine.dfy` | `Refine` | `deriveConstraints` |
| `chat_history.dfy` | `ChatHistory` | `chatHistory.ts` |
| `chat_page.dfy` | `ChatPage` | the page state as a class, and the legacy step restore |

How the environment is modelled:

- **Ids and clocks.** Message ids (`makeId`), the random session-id suffix
  and the current time are parameters. A single `now` stamp stands for both
  `Date.now()` and `Timestamp.now()` within one save.
- **Completeness.** `isComplete` comes from the profile store and is a
  parameter.
- **Firestore.** A read document is passed in (`Option<SessionDoc>`; `None`
  means it does not exist). An operation returns what it would write.
- **Saves.** The page's calls to `saveChatSession` are returned as
  `SaveRequest` values.

## Model

| member | source | states |
|---|---|---|
| Text.Trim | client/src/pages/ChatPage.tsx:98-100 | `trim` drops exactly the leading and trailing white space: the result is a slice of the input, with only white space outside it, and is itself trimmed |
| Text.TrimEmptyIffBlank | client/src/pages/ChatPage.tsx:115-116 | trimming gives the empty string exactly when the input is blank, the rejection test of the verbatim parsers |
| Text.Dedup | client/src/pages/ChatPage.tsx:212-213 | `Array.from(new Set(xs))` has no duplicates, holds exactly the elements of `xs`, and is no longer than `xs` |
| Text.DedupSnoc | client/src/pages/ChatPage.tsx:212-213 | adding an element to the set leaves it as it was when already present, and appends the element otherwise |
| Text.DedupNoDup | client/src/pages/ChatPage.tsx:212-213 | a list without duplicates is unchanged by the set round trip |
| Text.NatToStringRoundTrip | client/src/pages/ChatPage.tsx:89 | reading back the decimal rendering of a number gives the number |
| Sorting.SortBy | client/src/lib/chatHistory.ts:155-156 | the sort by timestamp returns a permutation of its input, ordered by the key |
| Sorting.SortSorted | client/src/lib/chatHistory.ts:155-156 | sorting a list that is already in key order leaves it unchanged |
| Sorting.InsertByStable | client/src/lib/chatHistory.ts:155-156 | inserting an element puts it first among the elements with its key, which keep their order |
| Sorting.SortStable | client/src/lib/chatHistory.ts:155-156 | the sort is stable: for every key, the elements with that key come out in the order they went in |
| Parsers.ParseNumber | client/src/pages/ChatPage.tsx:40-46 | `parseNumber` is null exactly when the text has no digit, and otherwise a value in 0..999 |
| Parsers.ParseNumberAt | client/src/pages/ChatPage.tsx:40-46 | the number read is the first run of digits, cut to its first three digits ("1234" gives 123) |
| Parsers.ParseNumberRoundTrip | client/src/pages/ChatPage.tsx:40-46 | a number below 1000, written after text without digits and before a non-digit, is read back exactly ("she just turned 29" gives 29) |
| Parsers.ParseAge | client/src/pages/ChatPage.tsx:86-90 | the age parser accepts exactly when `parseNumber` finds a non-zero number, and then returns only that number as the age, in 1..999 |
| Parsers.ParseGender | client/src/pages/ChatPage.tsx:98-106 | rejects exactly the blank inputs; an accepted gender is non-empty and trimmed |
| Parsers.ParseGenderNormalizes | client/src/pages/ChatPage.tsx:98-106 | "male"/"female" in any case become "Male"/"Female"; any other text passes through trimmed |
| Parsers.ParseGenderIdempotent | client/src/pages/ChatPage.tsx:98-106 | parsing an accepted gender again gives the same gender |
| Parsers.ParseText | client/src/pages/ChatPage.tsx:115-118 | the verbatim parsers reject blank input and otherwise return exactly the trimmed text, which is non-empty |
| Parsers.ParseTextIdempotent | client/src/pages/ChatPage.tsx:115-118 | a verbatim answer parses to itself |
| Parsers.Split | client/src/pages/ChatPage.tsx:48-50 | splitting on `,`, `/` and " and " (any case) yields at least one piece, none containing a separator, and keeps lower case |
| Parsers.SplitSeps | client/src/pages/ChatPage.tsx:48-50 | the separators matched, one fewer than the pieces, each a comma, a slash or " and " in any case |
| Parsers.SplitRebuilds | client/src/pages/ChatPage.tsx:48-50 | no text is lost: the pieces, put back together with the separators matched between them, give the input |
| Parsers.ParseCommaSeparated | client/src/pages/ChatPage.tsx:48-53 | every piece is trimmed and non-empty; what the pieces are is stated by `ParseCommaSeparatedClean`, `ParseCommaSeparatedJoin` and `ParseCommaSeparatedRejoin` |
| Parsers.ParseCommaSeparatedClean | client/src/pages/ChatPage.tsx:48-53 | every piece is trimmed and non-empty and contains no `,` or `/`; the pieces of lower-case text are lower case |
| Parsers.SplitJoin | client/src/pages/ChatPage.tsx:48-50 | joining separator-free pieces with "," and splitting again gives back the pieces, in order |
| Parsers.SplitStep | client/src/pages/ChatPage.tsx:48-50 | a separator-free piece followed by a separator is cut off as the first piece, with that separator (unless it ends in " and" before " and ") |
| Parsers.SplitRejoin | client/src/pages/ChatPage.tsx:48-50 | separator-free pieces joined by any mix of ",", "/" and " and " split back into the same pieces and separators, in order, unless a piece ending in " and" comes right before " and " |
| Parsers.ParseCommaSeparatedJoin | client/src/pages/ChatPage.tsx:48-53 | a list of trimmed, non-empty, separator-free pieces joined with "," parses back to exactly that list |
| Parsers.ParseCommaSeparatedRejoin | client/src/pages/ChatPage.tsx:48-53 | trimmed, non-empty, separator-free pieces joined by any mix of ",", "/" and " and " parse back to exactly that list, with the same proviso about " and" |
| Parsers.ParseInterests | client/src/pages/ChatPage.tsx:146-149 | interests are `parseCommaSeparated` of the lower-cased text; rejected exactly when no piece is left |
| Parsers.InterestsAreLoweredBrands | client/src/pages/ChatPage.tsx:146-171 | parsing interests is parsing brands after lower-casing the text |
| Parsers.ParseInterestsClean | client/src/pages/ChatPage.tsx:146-149 | every accepted interest is lower-case, trimmed and non-empty |
| Parsers.ParseBrands | client/src/pages/ChatPage.tsx:168-171 | brands are `parseCommaSeparated` of the text as typed (no lower-casing); rejected exactly when no piece is left |
| Parsers.Numbers | client/src/pages/ChatPage.tsx:66-68 | the numbers `/\d+(?:\.\d{1,2})?/g` finds are non-negative, and there are none exactly when the text has no digit |
| Parsers.ClampBudget | client/src/pages/ChatPage.tsx:55-63 | collapses to [min, min] when max is 0; swaps when min > max > 0; otherwise returns (min, max) unchanged; with max ≥ 0 the result is ordered; with max ≠ 0 the two ends are the two inputs |
| Parsers.ExtractBudget | client/src/pages/ChatPage.tsx:65-79 | null exactly when there is no digit; otherwise 0 ≤ min ≤ max |
| Parsers.ExtractBudgetReads | client/src/pages/ChatPage.tsx:65-79 | currency "USD" when usd, dollars or $ (any case) starts the text or follows white space, otherwise the current currency; one number v gives 0.8·v..v; two or more give a range whose ends are among the numbers and which spans all of them |
| Profile.Merge | client/src/pages/ChatPage.tsx:639-649 | the merged profile holds the answer and agrees with the old one on every other field |
| Profile.MergeKeepsOtherAnswers | client/src/pages/ChatPage.tsx:639-649 | an answer to one question leaves the answers to the other questions in the profile |
| QuestionFlow.QuestionKeysDistinct | client/src/pages/ChatPage.tsx:81-176 | the eight questions fill eight different fields |
| QuestionFlow.ParseAnswer | client/src/pages/ChatPage.tsx:81-176 | an accepted answer fills exactly the field its question is about |
| QuestionFlow.ParseAnswerRejects | client/src/pages/ChatPage.tsx:81-176 | when each question re-prompts: age without a non-zero number, budget without a digit, interests and brands without a piece, the others on blank input |
| QuestionFlow.Confirmation | client/src/pages/ChatPage.tsx:81-176 | each question's confirmation is one sentence ending in a full stop; `AgeConfirmationReadsBack` states what the age one quotes |
| QuestionFlow.AgeConfirmationReadsBack | client/src/pages/ChatPage.tsx:91 | the age confirmation quotes the age so that the age parser reads the same age back from it |
| QuestionFlow.PromptIndex | client/src/pages/ChatPage.tsx:313-315 | `findIndex` over the prompts: a found index has that prompt, and "not found" means no prompt matches |
| QuestionFlow.PromptIndexOfPrompt | client/src/pages/ChatPage.tsx:313-315 | the eight prompts are distinct, so each prompt is recognised as its own question |
| Refine.ShippingFrom | client/src/pages/ChatPage.tsx:182-185 | the scan for `/(\d+)\s*(?:day\|days)/` yields a non-negative number of days |
| Refine.ShippingDaysReadsWindow | client/src/pages/ChatPage.tsx:182-185 | "… 3 day…" after text without digits sets the shipping window to exactly 3 |
| Refine.RequestedCategories | client/src/pages/ChatPage.tsx:187-210 | the text asks for "eco_friendly" exactly when eco, sustain or planet occurs, and for a hint's category exactly when one of its keywords occurs |
| Refine.Refined | client/src/pages/ChatPage.tsx:178-218 | the refined inclusion and exclusion lists are duplicate-free and keep every earlier entry |
| Refine.DeriveConstraints | client/src/pages/ChatPage.tsx:178-218 | the push-and-deduplicate code computes `Refined`: each list grows by what the lower-cased text asks for, duplicates dropped in first-seen order; the shipping window is replaced only by a match |
| Refine.AddRequested | client/src/pages/ChatPage.tsx:187-210 | pushing "eco_friendly" and each matching hint's category only when absent leaves, once deduplicated, the old list followed by the text's requests |
| Refine.NoJewelryIncludesAndExcludes | client/src/pages/ChatPage.tsx:200-214 | "no jewelry" puts "accessories" in the exclusions and, through the jewelry hint, in the inclusions too |
| ChatHistory.ToMillisWithinSecond | client/src/lib/chatHistory.ts:141-142 | `toMillis` of a timestamp with nanoseconds in range lies within its second: from seconds·1000 up to, not including, the next second |
| ChatHistory.TimeMillis | client/src/lib/chatHistory.ts:140-153 | a `Timestamp` gives its `toMillis`, a plain number is read as it is, a `{seconds, nanoseconds}` object gives the same instant as the `Timestamp` with those fields (nanoseconds 0 when absent), and anything unreadable gives the current time; see also `FlattenKeepsTime` |
| ChatHistory.FromMillis | client/src/lib/chatHistory.ts:163-164 | `Timestamp.fromMillis` keeps the instant and gives nanoseconds in range |
| ChatHistory.Normalize | client/src/lib/chatHistory.ts:159-170 | each stored timestamp becomes a `Timestamp` of the same instant `getTimestampMillis` gives it; a `Timestamp` is kept as is |
| ChatHistory.MessageToFirestore | client/src/lib/chatHistory.ts:42-56 | the stored form of a message, read back, is the message without its options (variant absent when it was absent); it is stamped now |
| ChatHistory.HistoryToChat | client/src/lib/chatHistory.ts:60-73 | the chat message keeps the stored id, sender, content and variant and has no options; `StoredRoundTrip` and `ReadBackStored` pair it with `messageToFirestore` |
| ChatHistory.StoredRoundTrip | client/src/lib/chatHistory.ts:42-73 | storing a message read back from storage restores it, up to the new timestamp |
| ChatHistory.MergeSpec | client/src/lib/chatHistory.ts:121-136 | the merged ids are the stored ids followed by the new incoming ids, each once, in first-insertion order |
| ChatHistory.AddStored | client/src/lib/chatHistory.ts:121-126 | after the stored messages the map holds, in first-insertion order, each stored id with its last stored message |
| ChatHistory.AddIncoming | client/src/lib/chatHistory.ts:128-136 | each incoming message whose id is not yet in the map is added, stamped with the save time; taken ids keep their value |
| ChatHistory.MergeMessages | client/src/lib/chatHistory.ts:121-136 | filling the id map from the stored, then the incoming messages and reading it out gives `MergeSpec` |
| ChatHistory.MergeAddsIncoming | client/src/lib/chatHistory.ts:129-136 | every incoming message's id is in the merge |
| ChatHistory.MergeKeepsStored | client/src/lib/chatHistory.ts:124-136 | a stored message (ids distinct) is kept unchanged, content and timestamp, even when its id comes in again |
| ChatHistory.MergeCovered | client/src/lib/chatHistory.ts:124-136 | when every incoming id is already stored, the merge is the stored list itself |
| ChatHistory.MergeIdempotent | client/src/lib/chatHistory.ts:121-136 | merging the same incoming list again adds nothing |
| ChatHistory.NormalizeAll | client/src/lib/chatHistory.ts:159-182 | normalising keeps the length and the ids |
| ChatHistory.KeepLast | client/src/lib/chatHistory.ts:157 | `slice(-1000)` keeps the last 1000 elements, or all when fewer; see `TrimDropsOldest` |
| ChatHistory.NormalizeMessage | client/src/lib/chatHistory.ts:159-182 | a written message keeps its id and gets a `Timestamp` of the instant its stored time stands for |
| ChatHistory.Persisted | client/src/lib/chatHistory.ts:121-182 | the written list holds as many messages as the merge, capped at 1000, no two with the same id, with timestamps in ascending order |
| ChatHistory.PersistedContents | client/src/lib/chatHistory.ts:121-182 | every written message is a merged message with its timestamp normalised, and when the merge fits every merged message is written, normalised |
| ChatHistory.TrimDropsOldest | client/src/lib/chatHistory.ts:155-157 | a merged message that is not written is no newer than any message that is |
| ChatHistory.PersistedHoldsIncoming | client/src/lib/chatHistory.ts:121-157 | when the merge fits, every message of the page is written |
| ChatHistory.PersistWritten | client/src/lib/chatHistory.ts:121-182 | reading back a written list (its timestamps flattened by `cleanData`) and saving again, when its ids cover the page's messages, writes the same list |
| ChatHistory.SaveTwice | client/src/lib/chatHistory.ts:121-182 | saving the same messages twice in a row, the second time over the read-back form of the first write, writes the same list (nothing duplicated, order kept) |
| ChatHistory.Clean | client/src/lib/chatHistory.ts:210-225 | arrays keep their length and objects stay objects |
| ChatHistory.CleanMembersKeys | client/src/lib/chatHistory.ts:216-222 | a cleaned object has exactly the keys whose values were defined, in order |
| ChatHistory.CleanDefined | client/src/lib/chatHistory.ts:210-225 | the result contains no `undefined` anywhere |
| ChatHistory.CleanKeepsDefined | client/src/lib/chatHistory.ts:210-225 | a value without `undefined` is left unchanged |
| ChatHistory.CleanIdempotent | client/src/lib/chatHistory.ts:210-225 | cleaning twice is cleaning once |
| ChatHistory.CleanData | client/src/lib/chatHistory.ts:210-225 | the recursive cleaner with its object loop computes `Clean` |
| ChatHistory.CleanStamp | client/src/lib/chatHistory.ts:206-227 | a timestamp written as `{seconds, nanoseconds}` passes through the cleaner unchanged |
| ChatHistory.Flatten | client/src/lib/chatHistory.ts:210-227 | `cleanData` turns a `Timestamp` into a plain `{seconds, nanoseconds}` object |
| ChatHistory.FlattenKeepsTime | client/src/lib/chatHistory.ts:140-170 | a flattened timestamp is read as the same instant and normalised back to the same `Timestamp` |
| ChatHistory.WrittenMessage | client/src/lib/chatHistory.ts:210-227 | a written message keeps its id and its chat content; its `Timestamp` becomes `{seconds, nanoseconds}` |
| ChatHistory.WrittenAll | client/src/lib/chatHistory.ts:210-227 | the written list is the persisted list with each message flattened, same length and ids |
| ChatHistory.SessionDateOf | client/src/lib/chatHistory.ts:331-345 | an id is read as a legacy date exactly when it does not contain "session_" |
| ChatHistory.CreateSessionId | client/src/lib/chatHistory.ts:78-80 | a new id starts with "session_" and ends with the random suffix, after at least one digit and an underscore; `SessionIdParsesBack` reads its time back |
| ChatHistory.SessionIdParsesBack | client/src/lib/chatHistory.ts:78-80 | the id `createSessionId` makes at time t is dated exactly t by the `session_(\d+)` rule of the listing |
| ChatHistory.Tail | client/src/lib/chatHistory.ts:355 | `slice(-n)` is the last n characters, or the whole string when shorter |
| ChatHistory.LastUserIndex | client/src/lib/chatHistory.ts:350-351 | the index found holds a user message with none after it, and "none" means there is no user message |
| ChatHistory.Preview | client/src/lib/chatHistory.ts:349-356 | the preview is at most 50 characters: the end of the last user message, or of the last message when the user has not written |
| ChatHistory.Summary | client/src/lib/chatHistory.ts:378-385 | a listed session keeps its id, its custom name and its message count, with a preview of at most 50 characters |
| ChatHistory.Summaries | client/src/lib/chatHistory.ts:319-386 | every listed session has a positive message count and a preview of at most 50 characters |
| ChatHistory.SummariesListNonEmpty | client/src/lib/chatHistory.ts:325 | a document with messages is listed, and every listed summary comes from a document with messages |
| ChatHistory.ListChatSessions | client/src/lib/chatHistory.ts:303-390 | the push loop returns the summaries of the non-empty documents in query order when signed in, and nothing otherwise |
| ChatHistory.LoadChatSession | client/src/lib/chatHistory.ts:398-440 | null exactly when signed out, when the document is missing or when it has no messages; otherwise the stored fields, with step 0 when none is stored |
| ChatHistory.ToChatMessages | client/src/lib/chatHistory.ts:60-73 | each stored message becomes its chat message |
| ChatHistory.LoadChatHistory | client/src/lib/chatHistory.ts:242-289 | nothing when signed out; today's document's messages when it exists (empty or not), otherwise those of the most recently updated one, and nothing when there is no document at all |
| ChatHistory.RenameChatSession | client/src/lib/chatHistory.ts:463-476 | "User not authenticated" exactly when signed out; otherwise the trimmed name, or null exactly when the name is blank |
| ChatHistory.DeleteChatSession | client/src/lib/chatHistory.ts:445-458 | "User not authenticated" exactly when signed out; otherwise the given session is deleted |
| ChatHistory.SetMember | client/src/lib/chatHistory.ts:188-197 | an object spread with one field set: that field reads as the new value, every other field as before, and a new field goes at the end |
| ChatHistory.OrEmpty | client/src/lib/chatHistory.ts:189-195 | `?? []` never gives null or undefined, and keeps any other value |
| ChatHistory.ListsDefaulted | client/src/lib/chatHistory.ts:188-192 | `products`, `explanations`, `follow_up_suggestions` and `products_ranked` become their `?? []` defaults; every other field is kept |
| ChatHistory.WithDefaultsFills | client/src/lib/chatHistory.ts:186-198 | the rebuilt recommendation has the four list fields defaulted, a `meta` object, and every other field as given |
| ChatHistory.WithDefaultsMeta | client/src/lib/chatHistory.ts:193-196 | inside `meta`, `gemini_links` defaults to `[]` and every other field is kept |
| ChatHistory.SaveChatSession | client/src/lib/chatHistory.ts:92-228 | nothing is written exactly when signed out; otherwise the messages are the `Persisted` merge of the stored messages (none without a document) and the page's, flattened by `cleanData`, at most 1000 with distinct ids; profile and step are the given ones; `lastUpdated` is now, flattened; no recommendation stays none, and a given one is written as `cleanData` returns it after the `?? []` defaults (`WithDefaults`), without `undefined` |
| ChatHistory.SaveSessionTwice | client/src/lib/chatHistory.ts:92-228 | a second save of the same page messages over the document the first one wrote writes the same messages |
| ChatHistory.StoreAll | client/src/lib/chatHistory.ts:128-136 | each page message in its stored form, stamped now |
| ChatHistory.MergeFresh | client/src/lib/chatHistory.ts:121-136 | with no stored document, the merge of page messages with distinct ids is their stored forms in page order |
| ChatHistory.PersistedFresh | client/src/lib/chatHistory.ts:121-182 | with no stored document, at most 1000 page messages with distinct ids are persisted as their stored forms, in page order |
| ChatHistory.SaveWritesPage | client/src/lib/chatHistory.ts:92-228 | the first save of a session writes the page's messages, in page order, in their flattened stored form |
| ChatHistory.StripOptions | client/src/lib/chatHistory.ts:42-73 | each message without its options, the part storage does not keep |
| ChatHistory.ReadBackStored | client/src/lib/chatHistory.ts:42-73 | reading back the written form of the page's messages gives them without their options |
| ChatHistory.SaveLoadRoundTrip | client/src/lib/chatHistory.ts:92-228 | loading the document written by a first save gives back the page's messages without options, the profile and the step |
| Text.LastWhere | client/src/pages/ChatPage.tsx:309-321 | the position found holds a matching element with none after it, and "none" means no element matches |
| ChatPage.LastPromptIndex | client/src/pages/ChatPage.tsx:309-321 | the backward scan returns the question of the last un-varianted assistant message that is one of the eight prompts, and 0 when there is none |
| ChatPage.RestoredStep | client/src/pages/ChatPage.tsx:305-322 | the backward loop with its early exit computes the larger of the last prompt's index and the number of non-blank user messages |
| ChatPage.LegacyStep | client/src/pages/ChatPage.tsx:305-322 | `Math.max(lastQuestionIndex, answeredQuestions)`: at least each of the two, and equal to one of them |
| ChatPage.LegacyStepOvercounts | client/src/pages/ChatPage.tsx:305-322 | after a rejected first answer, the legacy restore resumes at question 1 while the transcript is still at question 0 |
| ChatPage.ResumeStep | client/src/pages/ChatPage.tsx:305-322 | the corrected restore: the step marked by the last prompt or closing line is at most 8 |
| ChatPage.ResumeAfterAccept | client/src/pages/ChatPage.tsx:655-670 | after a confirmation and the next prompt (or the closing line) the transcript resumes at the next step |
| ChatPage.AnswersKept | client/src/pages/ChatPage.tsx:639-649 | merging the answer to the next question keeps every earlier answer, each to its own question |
| ChatPage.ChatController.constructor | client/src/pages/ChatPage.tsx:224-237 | a new page shows the greeting and the first question with its options, at step 0, without recommendation or session |
| ChatPage.ChatController.HandleRefine | client/src/pages/ChatPage.tsx:673-689 | the constraints become `deriveConstraints` of the text, "Refining the list with that detail..." is appended, nothing else changes |
| ChatPage.ChatController.HandleQuestionFlow | client/src/pages/ChatPage.tsx:620-671 | a rejection appends the info-variant reprompt and keeps step and profile; an acceptance merges the answer, appends the info-variant confirmation, advances the step and appends the next prompt with its options or, after the eighth answer, the closing line; a step outside the questions changes nothing |
| ChatPage.ChatController.Accept | client/src/pages/ChatPage.tsx:639-670 | an accepted answer merges, confirms, advances the step by one and asks the next question or closes |
| ChatPage.ChatController.HandleSend | client/src/pages/ChatPage.tsx:691-704 | the user's message is appended first and earlier messages are never altered; then refine with a complete profile, the question flow otherwise; the question-flow invariant (answers held, transcript at the step) is kept |
| ChatPage.ChatController.NewChat | client/src/pages/ChatPage.tsx:427-498 | nothing happens while the chat holds at most two messages and none from the user; otherwise the current session is flushed when signed in with a session id and a user message, and the page is left with exactly the opening lines, step 0, no recommendation, a new session id and the default profile |
| ChatPage.ChatController.Restore | client/src/pages/ChatPage.tsx:528-539 | a loaded session replaces messages, session id, step and recommendation, and the profile when it has one |
| ChatPage.ChatController.OpenSession | client/src/pages/ChatPage.tsx:499-552 | the current session is flushed first when signed in, with a different set session id and more than two messages; a session with messages replaces the page state, anything else leaves it as it was |
| ChatPage.ChatController.AutoSave | client/src/pages/ChatPage.tsx:383-422 | nothing is saved, and nothing changes, unless signed in, not loading, and either a session id is set or there are more than two messages; a missing id is replaced by a fresh one |
| ChatPage.ChatController.ReaskFromWishlist | client/src/pages/ChatPage.tsx:712-730 | with a complete profile, refine with the wish-list request; otherwise append the "finish the profile first" line |
| ChatPage.OpeningSaveEligibility | client/src/pages/ChatPage.tsx:385-392 | the opening lines alone pass the save guard once a session id is set, and fail it without one |
| ChatPage.SaveEligible | client/src/pages/ChatPage.tsx:385-392 | never eligible when signed out or loading; always eligible when signed in, not loading and there are more than two messages; `OpeningSaveEligibility` covers the opening lines |

## Left out

- **Firestore I/O.** `getDoc`, `setDoc`, `getDocs` and `deleteDoc` are not modelled:
  - a read document is a parameter, and the fields to write are the result;
  - the `merge: true` upsert is not modelled;
  - the `orderBy("lastUpdated")` query order is not modelled: the listing takes its documents in the order given.
- **Error handling.** Failures caught and logged by `try`/`catch` are not modelled.
- **Authentication and loading.** The auth subscription, `waitForAuthReady` and the initial-load effect (client/src/pages/ChatPage.tsx:254-381) are not modelled, except for the legacy step restore inside it. Being signed in is a parameter.
- **Timers and cache.** The debounce timer, its cancellation and the `queryClient` invalidation are timing, not state. The save guard and the flushes before switching are modelled as returned `SaveRequest`s.
- **Recommendations.** `requestRecommendations`, the mutation's success and error handling (including the error bubble it appends) and the explanation map are left out. The recommendation is a JSON value; only the defaults `saveChatSession` fills in before cleaning are modelled.
- **ChatHistory.WithDefaults:** a recommendation that is not an object, or whose `meta` is not an object, is written cleaned without defaults. The `RecommendResponse` type rules such values out; the source would throw on a missing `meta`.
- **Profile cleaning.** The profile is a typed record without `undefined`, so `cleanData` leaves it as it is and the model writes it unchanged.
- **The profile store.** `useProfile`/`updateProfile` is not part of this model:
  - the page's own merge (client/src/pages/ChatPage.tsx:639-649) is taken as what `updateProfile` does with an answer;
  - a restored profile replaces the page's profile.
- **Stale closures.** The initial-load effect captures the profile of the first render. The model is not concerned with this because that effect is left out.
- **Dates.** `getSessionId` (today's date), legacy date-id parsing into a `Date`, `lastUpdated` shape sniffing in the listing, and locale formatting are left out. A listed session's date is recorded only as where it would come from (`SessionDate`).
- **Numbers.** Budget and millisecond values are exact `real`s, not IEEE doubles:
  - `0.8·v` and `nanoseconds / 10^6` are exact;
  - `Number.isFinite` always holds;
  - a digit run longer than `Number` can represent exactly is read exactly.
- **Text.** Strings are ASCII. `trim`, `\s` and `toLowerCase` only know ASCII white space and letters.
- **JavaScript object key order.** `cleanData` keeps the member order of the object it is given.
- **Deprecated functions.** `saveChatHistory` and `clearChatHistory` are deprecated and not used by the page.
- **Presentation.** `ChatThread`, `ChatInput`, the sidebar component, the theme and the wish-list button hold no logic of this core.
- **ChatHistory.SessionDateOf:** it reports only where a date comes from, not the calendar date of a legacy id.
- **ChatPage.ChatController.OpenSession:** it does not model the loading flag that the handler sets and clears around the load, because the net effect is "not loading".
- **Saving the opening lines.** The comment at client/src/pages/ChatPage.tsx:389 says a chat holding only the two opening lines is not saved. The guard at client/src/pages/ChatPage.tsx:390-391 refuses them only while no session id is set. A new chat sets a fresh id, so the next auto-save writes the opening lines as a session (`OpeningSaveEligibility`). The model follows the guard.

## Findings

| source | as written | input that shows it | evidently intended | confidence | as-written member | corrected member |
|---|---|---|---|---|---|---|
| client/src/pages/ChatPage.tsx:305-322 | the legacy restore resumes at the larger of the last prompt's index and the number of non-blank user messages, so rejected answers count as answered | greeting, age prompt, user "hello" (rejected: no number), age reprompt: the restore gives step 1, and the next reply is read by the gender question | resume at the question the transcript last asked (8 once the closing line was sent), not counting rejected answers | medium, not executed | ChatPage.LegacyStepOvercounts | ChatPage.ResumeStep |

For the corrected restore, `ChatPage.ChatController.HandleSend` keeps an invariant: on a chat driven by the question flow, `ResumeStep` of the transcript equals the page's step. This holds after every send, refine, re-ask and reset (`ChatController.Intake`). The legacy computation itself is modelled as written by `ChatPage.RestoredStep`.

=== FILE: chat_history.dfy ===
/**
 * The persistence transforms of client/src/lib/chatHistory.ts. Firestore is
 * not modelled: the stored document is passed in, the document to write is
 * returned, and the clock and the random suffix are parameters.
 */
module ChatHistory {
  import opened Wrappers
  import opened Text
  import opened Sorting
  import opened ChatTypes
  import opened Profile

  const MaxMessagesPerSession: nat := 1000

  const NotAuthenticated: string := "User not authenticated"

  // ---------------------------------------------------------------------------
  // Timestamps

  /** A Firestore `Timestamp`: whole seconds and nanoseconds. */
  datatype Timestamp = Timestamp(seconds: int, nanoseconds: int)

  /**
   * The shapes a stored `timestamp` field can take: a `Timestamp` instance,
   * a plain number of milliseconds, a plain object with `seconds` (and maybe
   * `nanoseconds`), or anything else.
   */
  datatype StoredTime =
    | Stamp(ts: Timestamp)
    | Millis(ms: int)
    | Fields(seconds: int, nanoseconds: Option<int>)
    | Missing

  /** `Timestamp.toMillis`, in exact arithmetic. */
  function ToMillis(t: Timestamp): (r: real)
  {
    t.seconds as real * 1000.0 + t.nanoseconds as real / 1000000.0
  }

  /** With nanoseconds in range, a timestamp's milliseconds lie within its second. */
  lemma ToMillisWithinSecond(t: Timestamp)
    requires 0 <= t.nanoseconds < 1000000000
    ensures t.seconds as real * 1000.0 <= ToMillis(t) < (t.seconds + 1) as real * 1000.0
  {
  }

  /**
   * `getTimestampMillis`: the milliseconds a stored time stands for; an
   * unreadable one counts as the current time `now`.
   */
  function TimeMillis(t: StoredTime, now: Timestamp): (r: real)
    ensures t.Stamp? ==> r == ToMillis(t.ts)
    ensures t.Millis? ==> r == t.ms as real
    ensures t.Fields? ==> r == ToMillis(Timestamp(t.seconds, t.nanoseconds.GetOr(0)))
    ensures t.Missing? ==> r == ToMillis(now)
  {
    match t
    case Stamp(ts) => ToMillis(ts)
    case Millis(ms) => ms as real
    case Fields(s, n) => s as real * 1000.0 + n.GetOr(0) as real / 1000000.0
    case Missing => ToMillis(now)
  }

  /** `Timestamp.fromMillis` for a whole number of milliseconds (floor division). */
  function FromMillis(ms: int): (t: Timestamp)
    ensures ToMillis(t) == ms as real
    ensures 0 <= t.nanoseconds < 1000000000
  {
    Timestamp(ms / 1000, (ms % 1000) * 1000000)
  }

  /**
   * The timestamp a message is written with: numbers and plain objects become
   * `Timestamp`s, anything else the current time. The sort key is kept.
   */
  function Normalize(t: StoredTime, now: Timestamp): (r: Timestamp)
    ensures ToMillis(r) == TimeMillis(t, now)
    ensures t.Stamp? ==> r == t.ts
  {
    match t
    case Stamp(ts) => ts
    case Millis(ms) => FromMillis(ms)
    case Fields(s, n) => Timestamp(s, n.GetOr(0))
    case Missing => now
  }

  // ---------------------------------------------------------------------------
  // Stored messages and the conversions

  /** `ChatHistoryMessage`: a chat message as stored, without quick-reply options. */
  datatype HistoryMessage = HistoryMessage(
    id: string,
    sender: Sender,
    content: string,
    variant: Option<Variant>,
    timestamp: StoredTime)

  /** `historyMessageToChatMessage`: drop the timestamp; a message read back has no options. */
  function HistoryToChat(h: HistoryMessage): (r: ChatMessage)
    ensures r.options.None?
    ensures r.id == h.id && r.sender == h.sender && r.content == h.content && r.variant == h.variant
  {
    ChatMessage(h.id, h.sender, h.content, h.variant, None)
  }

  /**
   * `{ ...messageToFirestore(m), timestamp: now }`: the stored form of a chat
   * message. Reading it back gives the message without its options.
   */
  function MessageToFirestore(m: ChatMessage, now: Timestamp): (r: HistoryMessage)
    ensures HistoryToChat(r) == m.(options := None)
    ensures r.timestamp == Stamp(now)
  {
    HistoryMessage(m.id, m.sender, m.content, m.variant, Stamp(now))
  }

  /** Storing a message read back from storage restores it, up to the new timestamp. */
  lemma StoredRoundTrip(h: HistoryMessage, now: Timestamp)
    ensures MessageToFirestore(HistoryToChat(h), now) == h.(timestamp := Stamp(now))
  {
  }

  /** The ids of stored messages, in order. */
  function Ids(hs: seq<HistoryMessage>): (r: seq<string>)
    ensures |r| == |hs| && forall i :: 0 <= i < |hs| ==> r[i] == hs[i].id
  {
    seq(|hs|, i requires 0 <= i < |hs| => hs[i].id)
  }

  /** The ids of the page's chat messages, in order: `Ids` for the other message type. */
  function ChatIds(ms: seq<ChatMessage>): (r: seq<string>)
    ensures |r| == |ms| && forall i :: 0 <= i < |ms| ==> r[i] == ms[i].id
  {
    seq(|ms|, i requires 0 <= i < |ms| => ms[i].id)
  }

  lemma IdsSnoc(hs: seq<HistoryMessage>, h: HistoryMessage)
    ensures Ids(hs + [h]) == Ids(hs) + [h.id]
  {
  }

  lemma ChatIdsSnoc(ms: seq<ChatMessage>, m: ChatMessage)
    ensures ChatIds(ms + [m]) == ChatIds(ms) + [m.id]
  {
  }

  // ---------------------------------------------------------------------------
  // The merge inside saveChatSession

  /** Where a `Map.set` per stored message leaves id `k`: the last stored message with that id. */
  function LastIndexOf(hs: seq<HistoryMessage>, k: string): (i: nat)
    requires k in Ids(hs)
    ensures i < |hs| && hs[i].id == k
    ensures forall j :: i < j < |hs| ==> hs[j].id != k
  {
    var last := |hs| - 1;
    if hs[last].id == k then last
    else
      var init := hs[..last];
      assert Ids(hs) == Ids(init) + [hs[last].id];
      LastIndexOf(init, k)
  }

  /** The incoming message a merge takes for id `k`: the first one, since later ones find `k` taken. */
  function FirstIndexOf(ms: seq<ChatMessage>, k: string): (i: nat)
    requires k in ChatIds(ms)
    ensures i < |ms| && ms[i].id == k
    ensures forall j :: 0 <= j < i ==> ms[j].id != k
  {
    var last := |ms| - 1;
    var init := ms[..last];
    assert ChatIds(ms) == ChatIds(init) + [ms[last].id];
    if k in ChatIds(init) then FirstIndexOf(init, k)
    else
      assert forall j :: 0 <= j < last ==> ChatIds(init)[j] == ms[j].id;
      last
  }

  /** The message the merge keeps under id `k`: the stored one if there is one, else the incoming one. */
  function Entry(existing: seq<HistoryMessage>, incoming: seq<ChatMessage>, k: string, now: Timestamp): (r: HistoryMessage)
    requires k in Ids(existing) || k in ChatIds(incoming)
    ensures r.id == k
  {
    if k in Ids(existing) then existing[LastIndexOf(existing, k)]
    else MessageToFirestore(incoming[FirstIndexOf(incoming, k)], now)
  }

  /**
   * The merged list before sorting: one message per id, in order of first
   * appearance (stored ids first), a stored message winning over an incoming
   * one with the same id.
   */
  function MergeSpec(existing: seq<HistoryMessage>, incoming: seq<ChatMessage>, now: Timestamp): (r: seq<HistoryMessage>)
    ensures Ids(r) == Dedup(Ids(existing) + ChatIds(incoming))
    ensures NoDup(Ids(r))
  {
    var order := Dedup(Ids(existing) + ChatIds(incoming));
    assert forall i :: 0 <= i < |order| ==> order[i] in Ids(existing) + ChatIds(incoming);
    seq(|order|, i requires 0 <= i < |order| => Entry(existing, incoming, order[i], now))
  }

  /**
   * The state of the source's `Map` after the stored messages `existing` and
   * then the incoming messages `incoming` went through it: `keys` in
   * insertion order, `entries` the values.
   */
  ghost predicate Filled(keys: seq<string>, entries: map<string, HistoryMessage>,
                         existing: seq<HistoryMessage>, incoming: seq<ChatMessage>, now: Timestamp)
  {
    && keys == Dedup(Ids(existing) + ChatIds(incoming))
    && (forall k :: k in entries <==> k in keys)
    && EntriesAgree(entries, existing, incoming, now)
  }

  /** Every id in the map carries the message the merge keeps for it. */
  ghost predicate EntriesAgree(entries: map<string, HistoryMessage>,
                               existing: seq<HistoryMessage>, incoming: seq<ChatMessage>, now: Timestamp)
  {
    forall k :: k in entries ==>
      (k in Ids(existing) || k in ChatIds(incoming)) && entries[k] == Entry(existing, incoming, k, now)
  }

  lemma LastIndexOfSnoc(hs: seq<HistoryMessage>, h: HistoryMessage, k: string)
    requires k in Ids(hs + [h])
    ensures k == h.id ==> LastIndexOf(hs + [h], k) == |hs|
    ensures k != h.id ==> k in Ids(hs) && LastIndexOf(hs + [h], k) == LastIndexOf(hs, k)
  {
    IdsSnoc(hs, h);
    assert (hs + [h])[..|hs|] == hs;
  }

  lemma FirstIndexOfSnoc(ms: seq<ChatMessage>, m: ChatMessage, k: string)
    requires k in ChatIds(ms + [m])
    ensures k in ChatIds(ms) ==> FirstIndexOf(ms + [m], k) == FirstIndexOf(ms, k)
    ensures k !in ChatIds(ms) ==> k == m.id && FirstIndexOf(ms + [m], k) == |ms|
  {
    ChatIdsSnoc(ms, m);
    assert (ms + [m])[..|ms|] == ms;
  }

  /** The entries the merge makes after one more stored message. */
  lemma StoredEntrySnoc(existing: seq<HistoryMessage>, h: HistoryMessage, k: string, now: Timestamp)
    requires k == h.id || k in Ids(existing)
    ensures k in Ids(existing + [h])
    ensures Entry(existing + [h], [], k, now) == if k == h.id then h else Entry(existing, [], k, now)
  {
    IdsSnoc(existing, h);
    LastIndexOfSnoc(existing, h, k);
  }

  /** The entries the merge makes after one more incoming message, for the ids it had before. */
  lemma EntrySnoc(existing: seq<HistoryMessage>, incoming: seq<ChatMessage>, m: ChatMessage, k: string, now: Timestamp)
    requires k in Ids(existing) || k in ChatIds(incoming)
    ensures k in Ids(existing) || k in ChatIds(incoming + [m])
    ensures Entry(existing, incoming + [m], k, now) == Entry(existing, incoming, k, now)
  {
    ChatIdsSnoc(incoming, m);
    if k !in Ids(existing) {
      FirstIndexOfSnoc(incoming, m, k);
    }
  }

  /** The entry the merge makes for the id of an incoming message seen for the first time. */
  lemma EntryNew(existing: seq<HistoryMessage>, incoming: seq<ChatMessage>, m: ChatMessage, now: Timestamp)
    requires m.id !in Ids(existing) && m.id !in ChatIds(incoming)
    ensures m.id in ChatIds(incoming + [m])
    ensures Entry(existing, incoming + [m], m.id, now) == MessageToFirestore(m, now)
  {
    ChatIdsSnoc(incoming, m);
    FirstIndexOfSnoc(incoming, m, m.id);
  }

  /** The insertion order after one more incoming message. */
  lemma KeysSnoc(existing: seq<HistoryMessage>, incoming: seq<ChatMessage>, m: ChatMessage)
    ensures var before := Ids(existing) + ChatIds(incoming);
      Dedup(Ids(existing) + ChatIds(incoming + [m]))
      == if m.id in before then Dedup(before) else Dedup(before) + [m.id]
  {
    var before := Ids(existing) + ChatIds(incoming);
    ChatIdsSnoc(incoming, m);
    assert Ids(existing) + ChatIds(incoming + [m]) == before + [m.id];
    DedupSnoc(before, m.id);
  }

  /** The insertion order after one more stored message. */
  lemma StoredKeys(existing: seq<HistoryMessage>, h: HistoryMessage)
    ensures var before := Ids(existing) + ChatIds([]);
      Dedup(Ids(existing + [h]) + ChatIds([]))
      == if h.id in before then Dedup(before) else Dedup(before) + [h.id]
  {
    IdsSnoc(existing, h);
    assert Ids(existing) + ChatIds([]) == Ids(existing);
    assert Ids(existing + [h]) + ChatIds([]) == Ids(existing) + [h.id];
    DedupSnoc(Ids(existing), h.id);
  }

  /** The map's values after one more stored message. */
  lemma StoredEntries(entries: map<string, HistoryMessage>, existing: seq<HistoryMessage>, h: HistoryMessage, now: Timestamp)
    requires EntriesAgree(entries, existing, [], now)
    ensures EntriesAgree(entries[h.id := h], existing + [h], [], now)
  {
    var entries' := entries[h.id := h];
    assert |ChatIds([])| == 0;
    forall k | k in entries'
      ensures (k in Ids(existing + [h]) || k in ChatIds([])) && entries'[k] == Entry(existing + [h], [], k, now)
    {
      StoredEntrySnoc(existing, h, k, now);
    }
  }

  /** The map's values after one more incoming message whose id is taken. */
  lemma EntriesSnoc(entries: map<string, HistoryMessage>, existing: seq<HistoryMessage>,
                    incoming: seq<ChatMessage>, m: ChatMessage, now: Timestamp)
    requires EntriesAgree(entries, existing, incoming, now)
    ensures EntriesAgree(entries, existing, incoming + [m], now)
  {
    forall k | k in entries
      ensures (k in Ids(existing) || k in ChatIds(incoming + [m])) && entries[k] == Entry(existing, incoming + [m], k, now)
    {
      EntrySnoc(existing, incoming, m, k, now);
    }
  }

  /** The map's values after one more incoming message with a new id. */
  lemma EntriesAdd(entries: map<string, HistoryMessage>, existing: seq<HistoryMessage>,
                   incoming: seq<ChatMessage>, m: ChatMessage, now: Timestamp)
    requires EntriesAgree(entries, existing, incoming, now)
    requires m.id !in Ids(existing) && m.id !in ChatIds(incoming)
    ensures EntriesAgree(entries[m.id := MessageToFirestore(m, now)], existing, incoming + [m], now)
  {
    EntriesSnoc(entries, existing, incoming, m, now);
    EntryNew(existing, incoming, m, now);
  }

  /** `messageMap.set(h.id, h)` for one more stored message. */
  lemma StoredStep(keys: seq<string>, entries: map<string, HistoryMessage>,
                   existing: seq<HistoryMessage>, h: HistoryMessage, now: Timestamp)
    requires Filled(keys, entries, existing, [], now)
    ensures Filled(if h.id in entries then keys else keys + [h.id], entries[h.id := h], existing + [h], [], now)
  {
    StoredKeys(existing, h);
    StoredEntries(entries, existing, h, now);
  }

  /** `messageMap.has(m.id)`: an incoming message whose id is taken leaves the map alone. */
  lemma IncomingTaken(keys: seq<string>, entries: map<string, HistoryMessage>,
                      existing: seq<HistoryMessage>, incoming: seq<ChatMessage>, m: ChatMessage, now: Timestamp)
    requires Filled(keys, entries, existing, incoming, now) && m.id in entries
    ensures Filled(keys, entries, existing, incoming + [m], now)
  {
    KeysSnoc(existing, incoming, m);
    EntriesSnoc(entries, existing, incoming, m, now);
  }

  /** `messageMap.set(m.id, stored(m))` for an incoming message with a new id. */
  lemma IncomingAdded(keys: seq<string>, entries: map<string, HistoryMessage>,
                      existing: seq<HistoryMessage>, incoming: seq<ChatMessage>, m: ChatMessage, now: Timestamp)
    requires Filled(keys, entries, existing, incoming, now) && m.id !in entries
    ensures Filled(keys + [m.id], entries[m.id := MessageToFirestore(m, now)], existing, incoming + [m], now)
  {
    KeysSnoc(existing, incoming, m);
    assert m.id !in Ids(existing) + ChatIds(incoming);
    EntriesAdd(entries, existing, incoming, m, now);
  }

  /** One turn of the incoming loop, whichever way its test goes. */
  lemma IncomingStep(keys: seq<string>, entries: map<string, HistoryMessage>,
                     existing: seq<HistoryMessage>, incoming: seq<ChatMessage>, j: nat, now: Timestamp)
    requires j < |incoming| && Filled(keys, entries, existing, incoming[..j], now)
    ensures var m := incoming[j];
      Filled(if m.id in entries then keys else keys + [m.id],
             if m.id in entries then entries else entries[m.id := MessageToFirestore(m, now)],
             existing, incoming[..j + 1], now)
  {
    var m := incoming[j];
    assert incoming[..j + 1] == incoming[..j] + [m];
    if m.id in entries {
      IncomingTaken(keys, entries, existing, incoming[..j], m, now);
    } else {
      IncomingAdded(keys, entries, existing, incoming[..j], m, now);
    }
  }

  /** Reading the filled map out in insertion order gives the merge. */
  lemma ReadOut(keys: seq<string>, entries: map<string, HistoryMessage>,
                existing: seq<HistoryMessage>, incoming: seq<ChatMessage>, now: Timestamp, merged: seq<HistoryMessage>)
    requires Filled(keys, entries, existing, incoming, now)
    requires |merged| == |keys|
    requires forall t :: 0 <= t < |keys| ==> keys[t] in entries && merged[t] == entries[keys[t]]
    ensures merged == MergeSpec(existing, incoming, now)
  {
  }

  /** `existingMessages.forEach((msg) => messageMap.set(msg.id, msg))` */
  method AddStored(existing: seq<HistoryMessage>, ghost now: Timestamp)
    returns (keys: seq<string>, entries: map<string, HistoryMessage>)
    ensures Filled(keys, entries, existing, [], now)
  {
    keys := [];
    entries := map[];
    for i := 0 to |existing|
      invariant Filled(keys, entries, existing[..i], [], now)
    {
      var h := existing[i];
      assert existing[..i + 1] == existing[..i] + [h];
      StoredStep(keys, entries, existing[..i], h, now);
      if h.id !in entries {
        keys := keys + [h.id];
      }
      entries := entries[h.id := h];
    }
    assert existing[..|existing|] == existing;
  }

  /** `messages.forEach(...)`: each incoming message with a new id is stored, stamped `now`. */
  method AddIncoming(keys0: seq<string>, entries0: map<string, HistoryMessage>,
                     ghost existing: seq<HistoryMessage>, incoming: seq<ChatMessage>, now: Timestamp)
    returns (keys: seq<string>, entries: map<string, HistoryMessage>)
    requires Filled(keys0, entries0, existing, [], now)
    ensures Filled(keys, entries, existing, incoming, now)
  {
    keys, entries := keys0, entries0;
    assert incoming[..0] == [];
    for j := 0 to |incoming|
      invariant Filled(keys, entries, existing, incoming[..j], now)
    {
      var m := incoming[j];
      IncomingStep(keys, entries, existing, incoming, j, now);
      if m.id !in entries {
        keys := keys + [m.id];
        entries := entries[m.id := MessageToFirestore(m, now)];
      }
    }
    assert incoming[..|incoming|] == incoming;
  }

  /**
   * The merge as the source performs it: a `Map` filled from the stored
   * messages (a repeated id overwrites the value but keeps its first
   * position), then from the incoming ones whose id is still absent, then
   * read out in insertion order.
   */
  method MergeMessages(existing: seq<HistoryMessage>, incoming: seq<ChatMessage>, now: Timestamp)
    returns (merged: seq<HistoryMessage>)
    ensures merged == MergeSpec(existing, incoming, now)
  {
    var keys, entries := AddStored(existing, now);
    keys, entries := AddIncoming(keys, entries, existing, incoming, now);
    assert forall t :: 0 <= t < |keys| ==> keys[t] in entries;
    merged := seq(|keys|, t requires 0 <= t < |keys| => entries[keys[t]]);
    ReadOut(keys, entries, existing, incoming, now, merged);
  }

  /** Every incoming message ends up in the merge, under its own id. */
  lemma MergeAddsIncoming(existing: seq<HistoryMessage>, incoming: seq<ChatMessage>, now: Timestamp, m: ChatMessage)
    requires m in incoming
    ensures m.id in Ids(MergeSpec(existing, incoming, now))
  {
    var i :| 0 <= i < |incoming| && incoming[i] == m;
    assert ChatIds(incoming)[i] == m.id;
  }

  /**
   * A stored message that is the only one with its id is kept exactly as it
   * was (content and timestamp), even when an incoming message has the same id.
   */
  lemma MergeKeepsStored(existing: seq<HistoryMessage>, incoming: seq<ChatMessage>, now: Timestamp, i: nat)
    requires NoDup(Ids(existing)) && i < |existing|
    ensures existing[i] in MergeSpec(existing, incoming, now)
  {
    var h := existing[i];
    var r := MergeSpec(existing, incoming, now);
    assert Ids(existing)[i] == h.id;
    assert h.id in Ids(r);
    var t :| 0 <= t < |r| && Ids(r)[t] == h.id;
    assert r[t] == Entry(existing, incoming, h.id, now);
    var j := LastIndexOf(existing, h.id);
    assert Ids(existing)[j] == h.id;
  }

  /** A duplicate-free list that already holds every id is its own set. */
  lemma {:induction false} DedupCovered(xs: seq<string>, ys: seq<string>)
    requires NoDup(xs)
    requires forall y :: y in ys ==> y in xs
    ensures Dedup(xs + ys) == xs
  {
    if ys == [] {
      assert xs + ys == xs;
      DedupNoDup(xs);
    } else {
      var init := ys[..|ys| - 1];
      DedupCovered(xs, init);
      assert xs + ys == (xs + init) + [ys[|ys| - 1]];
      DedupSnoc(xs + init, ys[|ys| - 1]);
    }
  }

  /**
   * Merging into a list that has unique ids and already holds every
   * incoming id changes nothing: saving the same messages again adds nothing.
   */
  lemma MergeCovered(stored: seq<HistoryMessage>, incoming: seq<ChatMessage>, now: Timestamp)
    requires NoDup(Ids(stored))
    requires forall m :: m in incoming ==> m.id in Ids(stored)
    ensures MergeSpec(stored, incoming, now) == stored
  {
    forall y | y in ChatIds(incoming) ensures y in Ids(stored) {
      var i :| 0 <= i < |incoming| && ChatIds(incoming)[i] == y;
      assert incoming[i] in incoming;
    }
    DedupCovered(Ids(stored), ChatIds(incoming));
    var order := Dedup(Ids(stored) + ChatIds(incoming));
    var r := MergeSpec(stored, incoming, now);
    assert |r| == |order| == |stored|;
    forall t | 0 <= t < |r| ensures r[t] == stored[t] {
      assert order[t] == stored[t].id;
      assert r[t] == Entry(stored, incoming, order[t], now);
      LastIndexOfUnique(stored, t, order[t]);
    }
  }

  /** In a list with unique ids, the last message with the id at `t` is the one at `t`. */
  lemma LastIndexOfUnique(hs: seq<HistoryMessage>, t: nat, k: string)
    requires NoDup(Ids(hs)) && t < |hs| && k == hs[t].id
    ensures k in Ids(hs)
    ensures LastIndexOf(hs, k) == t
  {
    assert Ids(hs)[t] == k;
    var j := LastIndexOf(hs, k);
    NoDupIndex(Ids(hs), j, t);
  }

  /** In a list without duplicates, equal elements sit at the same index. */
  lemma NoDupIndex<T>(xs: seq<T>, i: nat, j: nat)
    requires NoDup(xs) && i < |xs| && j < |xs| && xs[i] == xs[j]
    ensures i == j
  {
  }

  /** Merging the same incoming messages twice is merging them once. */
  lemma MergeIdempotent(existing: seq<HistoryMessage>, incoming: seq<ChatMessage>, now: Timestamp, later: Timestamp)
    ensures MergeSpec(MergeSpec(existing, incoming, now), incoming, later) == MergeSpec(existing, incoming, now)
  {
    forall m | m in incoming ensures m.id in Ids(MergeSpec(existing, incoming, now)) {
      MergeAddsIncoming(existing, incoming, now, m);
    }
    MergeCovered(MergeSpec(existing, incoming, now), incoming, later);
  }

  // ---------------------------------------------------------------------------
  // Sort by time, keep the last 1000, normalise the timestamps

  /** The comparator key of the sort in `saveChatSession`. */
  function SortKey(now: Timestamp): HistoryMessage -> real
  {
    (h: HistoryMessage) => TimeMillis(h.timestamp, now)
  }

  /** `xs.slice(-n)` for a positive `n`: the last `n` elements, or all of them. */
  function KeepLast<T>(xs: seq<T>, n: nat): (r: seq<T>)
    requires n > 0
    ensures |r| == if |xs| <= n then |xs| else n
    ensures r == xs[|xs| - |r|..]
  {
    if |xs| <= n then xs else xs[|xs| - n..]
  }

  /** The message as written back: same fields, timestamp made a `Timestamp`. */
  function NormalizeMessage(h: HistoryMessage, now: Timestamp): (r: HistoryMessage)
    ensures r.id == h.id && r.timestamp.Stamp?
    ensures ToMillis(r.timestamp.ts) == TimeMillis(h.timestamp, now)
  {
    h.(timestamp := Stamp(Normalize(h.timestamp, now)))
  }

  function NormalizeAll(hs: seq<HistoryMessage>, now: Timestamp): (r: seq<HistoryMessage>)
    ensures |r| == |hs| && Ids(r) == Ids(hs)
    ensures forall i :: 0 <= i < |hs| ==> r[i] == NormalizeMessage(hs[i], now)
  {
    seq(|hs|, i requires 0 <= i < |hs| => NormalizeMessage(hs[i], now))
  }

  /** The stored messages all carry a `Timestamp` and are in ascending time order. */
  predicate StampedInOrder(hs: seq<HistoryMessage>)
  {
    && (forall i :: 0 <= i < |hs| ==> hs[i].timestamp.Stamp?)
    && forall i, j :: 0 <= i < j < |hs| ==> ToMillis(hs[i].timestamp.ts) <= ToMillis(hs[j].timestamp.ts)
  }

  /** Two different messages of a list with unique ids have different ids. */
  lemma DistinctIds(hs: seq<HistoryMessage>, a: HistoryMessage, b: HistoryMessage)
    requires NoDup(Ids(hs)) && a in hs && b in hs && a.id == b.id
    ensures a == b
  {
    var i :| 0 <= i < |hs| && hs[i] == a;
    var j :| 0 <= j < |hs| && hs[j] == b;
    assert Ids(hs)[i] == Ids(hs)[j];
  }

  /** A permutation of a list with unique ids has unique ids. */
  lemma PermutationIds(xs: seq<HistoryMessage>, ys: seq<HistoryMessage>)
    requires NoDup(Ids(xs)) && multiset(xs) == multiset(ys)
    ensures NoDup(Ids(ys))
  {
    NoDupCounts(xs);
    NoDupCounts(ys);
    forall i, j | 0 <= i < j < |ys| ensures Ids(ys)[i] != Ids(ys)[j] {
      assert ys[i] in multiset(xs) && ys[j] in multiset(xs);
      if ys[i].id == ys[j].id {
        DistinctIds(xs, ys[i], ys[j]);
      }
    }
  }

  /**
   * The messages `saveChatSession` writes: the merge, stably sorted by
   * `getTimestampMillis`, cut to the last 1000, with normalised timestamps.
   */
  function Persisted(existing: seq<HistoryMessage>, incoming: seq<ChatMessage>, now: Timestamp): (r: seq<HistoryMessage>)
    ensures |r| == if |MergeSpec(existing, incoming, now)| <= MaxMessagesPerSession
                   then |MergeSpec(existing, incoming, now)| else MaxMessagesPerSession
    ensures NoDup(Ids(r))
    ensures StampedInOrder(r)
  {
    var merged := MergeSpec(existing, incoming, now);
    var sorted := SortBy(merged, SortKey(now));
    var kept := KeepLast(sorted, MaxMessagesPerSession);
    PermutationIds(merged, sorted);
    KeptInOrder(sorted, |sorted| - |kept|, now);
    NormalizeAll(kept, now)
  }

  /**
   * Normalising what is kept of a time-sorted list with unique ids gives
   * stamped messages in time order, still with unique ids.
   */
  lemma KeptInOrder(sorted: seq<HistoryMessage>, cut: nat, now: Timestamp)
    requires cut <= |sorted| && SortedBy(sorted, SortKey(now)) && NoDup(Ids(sorted))
    ensures NoDup(Ids(NormalizeAll(sorted[cut..], now)))
    ensures StampedInOrder(NormalizeAll(sorted[cut..], now))
  {
    var kept := sorted[cut..];
    var r := NormalizeAll(kept, now);
    assert Ids(kept) == Ids(sorted)[cut..];
    forall i, j | 0 <= i < j < |r| ensures ToMillis(r[i].timestamp.ts) <= ToMillis(r[j].timestamp.ts) {
      SortedPair(sorted, SortKey(now), cut + i, cut + j);
    }
  }

  lemma SuffixIds(hs: seq<HistoryMessage>, cut: nat)
    requires cut <= |hs|
    ensures forall i :: cut <= i < |hs| ==> hs[i].id in Ids(hs[cut..])
  {
    forall i | cut <= i < |hs| ensures hs[i].id in Ids(hs[cut..]) {
      assert Ids(hs[cut..])[i - cut] == hs[i].id;
    }
  }

  /**
   * Trimming drops the oldest: a merged message that is not written is no
   * newer than any message that is.
   */
  lemma TrimDropsOldest(existing: seq<HistoryMessage>, incoming: seq<ChatMessage>, now: Timestamp, h: HistoryMessage)
    requires h in MergeSpec(existing, incoming, now)
    requires h.id !in Ids(Persisted(existing, incoming, now))
    ensures forall j :: 0 <= j < |Persisted(existing, incoming, now)| ==>
      TimeMillis(h.timestamp, now) <= ToMillis(Persisted(existing, incoming, now)[j].timestamp.ts)
  {
    var merged := MergeSpec(existing, incoming, now);
    var sorted := SortBy(merged, SortKey(now));
    var kept := KeepLast(sorted, MaxMessagesPerSession);
    var r := Persisted(existing, incoming, now);
    var cut := |sorted| - |kept|;
    assert h in multiset(sorted);
    var i := IndexOf(sorted, h);
    assert r == NormalizeAll(kept, now);
    assert Ids(r) == Ids(kept) && kept == sorted[cut..];
    SuffixIds(sorted, cut);
    assert i < cut;
    forall j | 0 <= j < |r| ensures TimeMillis(h.timestamp, now) <= ToMillis(r[j].timestamp.ts) {
      assert r[j] == NormalizeMessage(sorted[cut + j], now);
      NotNewerThanLater(sorted, i, cut + j, now);
    }
  }

  /** In timestamp order, an earlier message is no newer than a later one, normalised. */
  lemma NotNewerThanLater(sorted: seq<HistoryMessage>, i: nat, k: nat, now: Timestamp)
    requires SortedBy(sorted, SortKey(now)) && i < k < |sorted|
    ensures TimeMillis(sorted[i].timestamp, now) <= ToMillis(NormalizeMessage(sorted[k], now).timestamp.ts)
  {
    SortedPair(sorted, SortKey(now), i, k);
  }

  /** When nothing is cut, every incoming message is written. */
  lemma PersistedHoldsIncoming(existing: seq<HistoryMessage>, incoming: seq<ChatMessage>, now: Timestamp, m: ChatMessage)
    requires |MergeSpec(existing, incoming, now)| <= MaxMessagesPerSession
    requires m in incoming
    ensures m.id in Ids(Persisted(existing, incoming, now))
  {
    var merged := MergeSpec(existing, incoming, now);
    var sorted := SortBy(merged, SortKey(now));
    var p := Persisted(existing, incoming, now);
    assert p == NormalizeAll(sorted, now);
    MergeAddsIncoming(existing, incoming, now, m);
    var t :| 0 <= t < |merged| && Ids(merged)[t] == m.id;
    assert merged[t] in multiset(sorted);
    var u :| 0 <= u < |sorted| && sorted[u] == merged[t];
    assert Ids(p)[u] == m.id;
  }

  /**
   * What is written is the merge, normalised: every written message is a
   * merged message with its timestamp made a `Timestamp`, and when nothing
   * has to be cut every merged message is written.
   */
  lemma PersistedContents(existing: seq<HistoryMessage>, incoming: seq<ChatMessage>, now: Timestamp)
    ensures NormalizedFrom(Persisted(existing, incoming, now), MergeSpec(existing, incoming, now), now)
    ensures |MergeSpec(existing, incoming, now)| <= MaxMessagesPerSession ==>
      forall h :: h in MergeSpec(existing, incoming, now) ==> NormalizeMessage(h, now) in Persisted(existing, incoming, now)
  {
    var merged := MergeSpec(existing, incoming, now);
    var sorted := SortBy(merged, SortKey(now));
    var kept := KeepLast(sorted, MaxMessagesPerSession);
    var cut := |sorted| - |kept|;
    assert Persisted(existing, incoming, now) == NormalizeAll(sorted[cut..], now);
    assert |merged| <= MaxMessagesPerSession ==> cut == 0;
    NormalizedSuffix(merged, sorted, cut, now);
  }

  /** Every message of `r` is a message of `merged` with its timestamp normalised. */
  ghost predicate NormalizedFrom(r: seq<HistoryMessage>, merged: seq<HistoryMessage>, now: Timestamp)
  {
    forall i :: 0 <= i < |r| ==> exists h :: h in merged && r[i] == NormalizeMessage(h, now)
  }

  /** The normalised tail of a permutation of `merged` holds only, and when nothing is cut all, of `merged`. */
  lemma NormalizedSuffix(merged: seq<HistoryMessage>, sorted: seq<HistoryMessage>, cut: nat, now: Timestamp)
    requires multiset(sorted) == multiset(merged) && cut <= |sorted|
    ensures NormalizedFrom(NormalizeAll(sorted[cut..], now), merged, now)
    ensures cut == 0 ==> forall h :: h in merged ==> NormalizeMessage(h, now) in NormalizeAll(sorted[cut..], now)
  {
    var r := NormalizeAll(sorted[cut..], now);
    forall i | 0 <= i < |r| ensures exists h :: h in merged && r[i] == NormalizeMessage(h, now) {
      var h := sorted[cut + i];
      assert h in multiset(sorted);
      assert h in merged && r[i] == NormalizeMessage(h, now);
    }
    assert forall i :: 0 <= i < |NormalizeAll(sorted[cut..], now)| ==>
      exists h :: h in merged && NormalizeAll(sorted[cut..], now)[i] == NormalizeMessage(h, now);
    if cut == 0 {
      assert sorted[cut..] == sorted;
      forall h | h in merged ensures NormalizeMessage(h, now) in r {
        assert h in multiset(merged);
        var k := IndexOf(sorted, h);
        assert r[k] == NormalizeMessage(h, now);
      }
    }
  }

  /**
   * Saving into a written list that already holds every incoming id writes
   * it back unchanged; the list is read back as written, with flattened
   * timestamps.
   */
  lemma PersistWritten(p: seq<HistoryMessage>, incoming: seq<ChatMessage>, later: Timestamp)
    requires NoDup(Ids(p)) && StampedInOrder(p) && |p| <= MaxMessagesPerSession
    requires forall m :: m in incoming ==> m.id in Ids(p)
    ensures Persisted(WrittenAll(p), incoming, later) == p
  {
    var w := WrittenAll(p);
    forall m | m in incoming ensures m.id in Ids(w) { }
    MergeCovered(w, incoming, later);
    forall i, j | 0 <= i < j < |w| ensures SortKey(later)(w[i]) <= SortKey(later)(w[j]) {
      FlattenKeepsTime(p[i].timestamp.ts, later);
      FlattenKeepsTime(p[j].timestamp.ts, later);
    }
    SortSorted(w, SortKey(later));
    forall i | 0 <= i < |w| ensures NormalizeMessage(w[i], later) == p[i] {
      FlattenKeepsTime(p[i].timestamp.ts, later);
    }
    assert NormalizeAll(w, later) == p;
  }

  /**
   * Saving the same messages twice writes the same list as saving them once,
   * as long as nothing had to be cut: the second save reads the first one's
   * list back with flattened timestamps.
   */
  lemma SaveTwice(existing: seq<HistoryMessage>, incoming: seq<ChatMessage>, now: Timestamp, later: Timestamp)
    requires |MergeSpec(existing, incoming, now)| <= MaxMessagesPerSession
    ensures Persisted(WrittenAll(Persisted(existing, incoming, now)), incoming, later) == Persisted(existing, incoming, now)
  {
    forall m | m in incoming ensures m.id in Ids(Persisted(existing, incoming, now)) {
      PersistedHoldsIncoming(existing, incoming, now, m);
    }
    PersistWritten(Persisted(existing, incoming, now), incoming, later);
  }

  // ---------------------------------------------------------------------------
  // cleanData

  /** A JavaScript value as `cleanData` sees it; an object is its own-key list. */
  datatype Json =
    | Undefined
    | Null
    | Bool(b: bool)
    | Num(n: real)
    | Str(s: string)
    | Arr(items: seq<Json>)
    | Obj(members: seq<(string, Json)>)

  /** No `undefined` anywhere inside. */
  predicate Defined(v: Json)
  {
    match v
    case Undefined => false
    case Arr(items) => forall i | 0 <= i < |items| :: Defined(items[i])
    case Obj(ms) => forall i | 0 <= i < |ms| :: Defined(ms[i].1)
    case _ => true
  }

  /**
   * `cleanData`: `undefined` and `null` become `null`, arrays are cleaned
   * element by element, object members whose value is `undefined` are dropped
   * and the others cleaned.
   */
  function Clean(v: Json): (r: Json)
    ensures v.Arr? ==> r.Arr? && |r.items| == |v.items|
    ensures v.Obj? ==> r.Obj?
    decreases v, 1
  {
    match v
    case Undefined => Null
    case Arr(items) => Arr(CleanItems(items))
    case Obj(ms) => Obj(CleanMembers(ms))
    case _ => v
  }

  function CleanItems(items: seq<Json>): (r: seq<Json>)
    ensures |r| == |items|
    decreases items, 0
  {
    if items == [] then [] else CleanItems(items[..|items| - 1]) + [Clean(items[|items| - 1])]
  }

  function CleanMembers(ms: seq<(string, Json)>): (r: seq<(string, Json)>)
    decreases ms, 0
  {
    if ms == [] then []
    else
      var last := ms[|ms| - 1];
      assert last.1 < last;
      CleanMembers(ms[..|ms| - 1]) + (if last.1 == Undefined then [] else [(last.0, Clean(last.1))])
  }

  function Keys(ms: seq<(string, Json)>): seq<string>
  {
    if ms == [] then [] else Keys(ms[..|ms| - 1]) + [ms[|ms| - 1].0]
  }

  /** The keys whose value is not `undefined`, in order. */
  function DefinedKeys(ms: seq<(string, Json)>): seq<string>
  {
    if ms == [] then []
    else DefinedKeys(ms[..|ms| - 1]) + (if ms[|ms| - 1].1 == Undefined then [] else [ms[|ms| - 1].0])
  }

  /** A cleaned object keeps exactly the keys whose value was not `undefined`, in order. */
  lemma {:induction false} CleanMembersKeys(ms: seq<(string, Json)>)
    ensures Keys(CleanMembers(ms)) == DefinedKeys(ms)
  {
    if ms != [] {
      var init := ms[..|ms| - 1];
      CleanMembersKeys(init);
      KeysAppend(CleanMembers(init), if ms[|ms| - 1].1 == Undefined then [] else [(ms[|ms| - 1].0, Clean(ms[|ms| - 1].1))]);
    }
  }

  lemma {:induction false} KeysAppend(a: seq<(string, Json)>, b: seq<(string, Json)>)
    requires |b| <= 1
    ensures Keys(a + b) == Keys(a) + Keys(b)
  {
    if b != [] {
      assert (a + b)[..|a + b| - 1] == a;
    } else {
      assert a + b == a;
    }
  }

  /** The result of `cleanData` holds no `undefined` anywhere. */
  lemma {:induction false} CleanDefined(v: Json)
    ensures Defined(Clean(v))
    decreases v, 1
  {
    match v
    case Arr(items) => CleanItemsDefined(items);
    case Obj(ms) => CleanMembersDefined(ms);
    case _ =>
  }

  lemma {:induction false} CleanItemsDefined(items: seq<Json>)
    ensures forall i | 0 <= i < |CleanItems(items)| :: Defined(CleanItems(items)[i])
    decreases items, 0
  {
    if items != [] {
      CleanItemsDefined(items[..|items| - 1]);
      CleanDefined(items[|items| - 1]);
    }
  }

  lemma {:induction false} CleanMembersDefined(ms: seq<(string, Json)>)
    ensures forall i | 0 <= i < |CleanMembers(ms)| :: Defined(CleanMembers(ms)[i].1)
    decreases ms, 0
  {
    if ms != [] {
      CleanMembersDefined(ms[..|ms| - 1]);
      var last := ms[|ms| - 1];
      assert last.1 < last;
      CleanDefined(last.1);
    }
  }

  /** A value without `undefined` comes back unchanged, except that nothing else changes either. */
  lemma {:induction false} CleanKeepsDefined(v: Json)
    requires Defined(v)
    ensures Clean(v) == v
    decreases v, 1
  {
    match v
    case Arr(items) => CleanItemsKeep(items);
    case Obj(ms) => CleanMembersKeep(ms);
    case _ =>
  }

  lemma {:induction false} CleanItemsKeep(items: seq<Json>)
    requires forall i | 0 <= i < |items| :: Defined(items[i])
    ensures CleanItems(items) == items
    decreases items, 0
  {
    if items != [] {
      var init := items[..|items| - 1];
      CleanItemsKeep(init);
      CleanKeepsDefined(items[|items| - 1]);
      assert items == init + [items[|items| - 1]];
    }
  }

  lemma {:induction false} CleanMembersKeep(ms: seq<(string, Json)>)
    requires forall i | 0 <= i < |ms| :: Defined(ms[i].1)
    ensures CleanMembers(ms) == ms
    decreases ms, 0
  {
    if ms != [] {
      var init := ms[..|ms| - 1];
      var last := ms[|ms| - 1];
      CleanMembersKeep(init);
      assert Defined(last.1) && last.1 < last;
      CleanKeepsDefined(last.1);
      assert ms == init + [last];
    }
  }

  /** Applying `cleanData` twice is applying it once. */
  lemma CleanIdempotent(v: Json)
    ensures Clean(Clean(v)) == Clean(v)
  {
    CleanDefined(v);
    CleanKeepsDefined(Clean(v));
  }

  /**
   * `cleanData` as the source runs it: recursive, with a loop over the
   * members of an object (`for…in`) and over the elements of an array (`map`).
   */
  method CleanData(v: Json) returns (r: Json)
    ensures r == Clean(v)
    decreases v
  {
    match v {
      case Undefined => r := Null;
      case Null => r := Null;
      case Arr(items) =>
        var cleaned: seq<Json> := [];
        for i := 0 to |items|
          invariant cleaned == CleanItems(items[..i])
        {
          assert items[i] < v;
          var c := CleanData(items[i]);
          assert items[..i + 1][..i] == items[..i];
          cleaned := cleaned + [c];
        }
        assert items[..|items|] == items;
        r := Arr(cleaned);
      case Obj(ms) =>
        var cleaned: seq<(string, Json)> := [];
        for i := 0 to |ms|
          invariant cleaned == CleanMembers(ms[..i])
        {
          assert ms[..i + 1][..i] == ms[..i];
          var (key, value) := ms[i];
          if value != Undefined {
            assert value < v;
            var c := CleanData(value);
            cleaned := cleaned + [(key, c)];
          }
        }
        assert ms[..|ms|] == ms;
        r := Obj(cleaned);
      case _ => r := v;
    }
  }

  /**
   * A `Timestamp` written through `cleanData` is walked as a plain object and
   * keeps its two fields.
   */
  function StampJson(t: Timestamp): Json
  {
    Obj([("seconds", Num(t.seconds as real)), ("nanoseconds", Num(t.nanoseconds as real))])
  }

  lemma CleanStamp(t: Timestamp)
    ensures Clean(StampJson(t)) == StampJson(t)
  {
    CleanKeepsDefined(StampJson(t));
  }

  /**
   * A `Timestamp` as a written document holds it: `cleanData` walks the
   * instance into the plain object `StampJson(t)`, which it then keeps
   * (`CleanStamp`), and a plain object with `seconds` reads back in the
   * `Fields` shape.
   */
  function Flatten(t: Timestamp): (r: StoredTime)
    ensures r.Fields?
  {
    Fields(t.seconds, Some(t.nanoseconds))
  }

  /** A flattened time stands for the same instant and normalises back to the `Timestamp`. */
  lemma FlattenKeepsTime(t: Timestamp, now: Timestamp)
    ensures TimeMillis(Flatten(t), now) == ToMillis(t)
    ensures Normalize(Flatten(t), now) == t
  {
  }

  /** A written message as it reads back: its `Timestamp` flattened by `cleanData`, all else kept. */
  function WrittenMessage(h: HistoryMessage): (r: HistoryMessage)
    ensures r.id == h.id && HistoryToChat(r) == HistoryToChat(h)
    ensures h.timestamp.Stamp? ==> r.timestamp.Fields?
  {
    if h.timestamp.Stamp? then h.(timestamp := Flatten(h.timestamp.ts)) else h
  }

  function WrittenAll(hs: seq<HistoryMessage>): (r: seq<HistoryMessage>)
    ensures |r| == |hs| && Ids(r) == Ids(hs)
    ensures forall i :: 0 <= i < |hs| ==> r[i] == WrittenMessage(hs[i])
  {
    seq(|hs|, i requires 0 <= i < |hs| => WrittenMessage(hs[i]))
  }

  // ---------------------------------------------------------------------------
  // Session ids

  /**
   * `createSessionId`: "session_", the current time in milliseconds, "_" and
   * a random base-36 suffix (both passed in).
   */
  function CreateSessionId(nowMillis: nat, suffix: string): (r: string)
    ensures |r| >= 10 + |suffix| && r[..8] == "session_"
    ensures r[|r| - |suffix|..] == suffix
  {
    var r := "session_" + NatToString(nowMillis) + "_";
    assert (r + suffix)[|r|..] == suffix;
    r + suffix
  }

  /** Where `listChatSessions` takes a session's date from. */
  datatype SessionDate =
    | FromId(millis: nat)   // the number after "session_"
    | FromLastUpdated       // an id with "session_" but no digits after it
    | LegacyDate            // a "YYYY-MM-DD" id

  /** The leftmost match of `/session_(\d+)/` at or after `p`, as its captured number. */
  function SessionMatchFrom(id: string, p: nat): (r: Option<nat>)
    requires p <= |id|
    decreases |id| - p
  {
    if p + 8 >= |id| then None
    else if Occurs(id, p, "session_") && IsDigit(id[p + 8]) then
      Some(DigitsValue(id[p + 8..DigitRunEnd(id, p + 8)]))
    else SessionMatchFrom(id, p + 1)
  }

  /** The date rule of `listChatSessions` for a session id. */
  function SessionDateOf(id: string): (r: SessionDate)
    ensures r.LegacyDate? <==> !Contains(id, "session_")
  {
    if !Contains(id, "session_") then LegacyDate
    else match SessionMatchFrom(id, 0)
      case Some(t) => FromId(t)
      case None => FromLastUpdated
  }

  /** An id made by `createSessionId` at time `t` is dated `t` when listed. */
  lemma SessionIdParsesBack(t: nat, suffix: string)
    ensures SessionDateOf(CreateSessionId(t, suffix)) == FromId(t)
  {
    var ds := NatToString(t);
    var id := CreateSessionId(t, suffix);
    var m := 8 + |ds|;
    assert id[..8] == "session_";
    assert Occurs(id, 0, "session_");
    forall k | 8 <= k < m ensures IsDigit(id[k]) { assert id[k] == ds[k - 8]; }
    assert id[m] == '_';
    DigitRunEndIs(id, 8, m);
    assert id[8..m] == ds;
    NatToStringRoundTrip(t);
  }

  // ---------------------------------------------------------------------------
  // Stored documents, listing, loading, renaming, deleting, saving

  /** A `users/{uid}/chatHistory/{sessionId}` document as read; absent fields are `None`. */
  datatype SessionDoc = SessionDoc(
    messages: seq<HistoryMessage>,
    recommendation: Option<Json>,
    profile: Option<RecipientProfile>,
    currentStep: Option<int>,
    lastUpdated: Option<StoredTime>,
    customName: Option<string>)

  datatype StoredSession = StoredSession(id: string, doc: SessionDoc)

  /** `ChatSession` as listed in the sidebar (the display dates are not modelled). */
  datatype SessionSummary = SessionSummary(
    id: string,
    date: SessionDate,
    messageCount: nat,
    preview: string,
    customName: Option<string>)

  /** `s.slice(-n)` for a positive `n`: the last `n` characters, or all of them. */
  function Tail(s: string, n: nat): (r: string)
    requires n > 0
    ensures |r| == if |s| <= n then |s| else n
    ensures r == s[|s| - |r|..]
  {
    KeepLast(s, n)
  }

  /** The index of the last message sent by the user. */
  function LastUserIndex(ms: seq<HistoryMessage>): (r: Option<nat>)
    ensures r.Some? ==> r.value < |ms| && ms[r.value].sender == User
    ensures r.Some? ==> forall j :: r.value < j < |ms| ==> ms[j].sender != User
    ensures r.None? ==> forall j :: 0 <= j < |ms| ==> ms[j].sender != User
  {
    if ms == [] then None
    else if ms[|ms| - 1].sender == User then Some(|ms| - 1)
    else LastUserIndex(ms[..|ms| - 1])
  }

  /**
   * The preview of a session: the last 50 characters of the last user
   * message, or of the last message when the user has not written.
   */
  function Preview(ms: seq<HistoryMessage>): (r: string)
    ensures |r| <= 50
    ensures ms == [] ==> r == []
    ensures ms != [] ==>
      var i := if LastUserIndex(ms).Some? then LastUserIndex(ms).value else |ms| - 1;
      r == Tail(ms[i].content, 50)
  {
    if ms == [] then ""
    else
      var i := if LastUserIndex(ms).Some? then LastUserIndex(ms).value else |ms| - 1;
      Tail(ms[i].content, 50)
  }

  /** The summary `listChatSessions` pushes for one document. */
  function Summary(s: StoredSession): (r: SessionSummary)
    ensures r.id == s.id && r.messageCount == |s.doc.messages| && r.customName == s.doc.customName
    ensures |r.preview| <= 50
  {
    SessionSummary(s.id, SessionDateOf(s.id), |s.doc.messages|, Preview(s.doc.messages), s.doc.customName)
  }

  /** The summaries of the non-empty sessions, in query order. */
  function Summaries(docs: seq<StoredSession>): (r: seq<SessionSummary>)
    ensures |r| <= |docs|
    ensures forall i :: 0 <= i < |r| ==> r[i].messageCount > 0 && |r[i].preview| <= 50
  {
    if docs == [] then []
    else
      var d := docs[|docs| - 1];
      Summaries(docs[..|docs| - 1]) + (if |d.doc.messages| == 0 then [] else [Summary(d)])
  }

  /** A session is listed exactly when it has messages, with its message count. */
  lemma {:induction false} SummariesListNonEmpty(docs: seq<StoredSession>, d: StoredSession)
    ensures d in docs && |d.doc.messages| > 0 ==> Summary(d) in Summaries(docs)
    ensures forall s :: s in Summaries(docs) ==>
      exists e :: e in docs && |e.doc.messages| > 0 && s == Summary(e)
  {
    if docs != [] {
      var init := docs[..|docs| - 1];
      var last := docs[|docs| - 1];
      SummariesListNonEmpty(init, d);
      assert docs == init + [last];
    }
  }

  /**
   * `listChatSessions`: nothing without a user; otherwise one summary per
   * non-empty document, pushed in query order.
   */
  method ListChatSessions(authenticated: bool, docs: seq<StoredSession>) returns (sessions: seq<SessionSummary>)
    ensures sessions == if authenticated then Summaries(docs) else []
  {
    sessions := [];
    if !authenticated {
      return;
    }
    for i := 0 to |docs|
      invariant sessions == Summaries(docs[..i])
    {
      assert docs[..i + 1][..i] == docs[..i];
      var d := docs[i];
      if |d.doc.messages| == 0 {
        continue;
      }
      sessions := sessions + [Summary(d)];
    }
    assert docs[..|docs|] == docs;
  }

  /** `ChatSessionState` as `loadChatSession` returns it. */
  datatype SessionState = SessionState(
    messages: seq<HistoryMessage>,
    recommendation: Option<Json>,
    profile: Option<RecipientProfile>,
    currentStep: int,
    sessionId: string,
    lastUpdated: StoredTime)

  /**
   * `loadChatSession`: null without a user, for a missing document and for a
   * document without messages; otherwise the stored state with defaults for
   * absent fields (`now` for a missing `lastUpdated`).
   */
  function LoadChatSession(authenticated: bool, sessionId: string, doc: Option<SessionDoc>, now: Timestamp)
    : (r: Option<SessionState>)
    ensures r.None? <==> !authenticated || doc.None? || doc.value.messages == []
    ensures r.Some? ==>
      && r.value.messages == doc.value.messages && r.value.sessionId == sessionId
      && r.value.profile == doc.value.profile && r.value.recommendation == doc.value.recommendation
      && r.value.currentStep == doc.value.currentStep.GetOr(0)
  {
    if !authenticated || doc.None? || doc.value.messages == [] then None
    else
      var d := doc.value;
      Some(SessionState(d.messages, d.recommendation, d.profile, d.currentStep.GetOr(0), sessionId,
                        d.lastUpdated.GetOr(Stamp(now))))
  }

  function ToChatMessages(hs: seq<HistoryMessage>): (r: seq<ChatMessage>)
    ensures |r| == |hs| && forall i :: 0 <= i < |hs| ==> r[i] == HistoryToChat(hs[i])
  {
    seq(|hs|, i requires 0 <= i < |hs| => HistoryToChat(hs[i]))
  }

  /**
   * `loadChatHistory`: today's document if it exists (even when empty),
   * otherwise the most recently updated one, as chat messages.
   */
  function LoadChatHistory(authenticated: bool, today: Option<SessionDoc>, mostRecent: Option<SessionDoc>)
    : (r: seq<ChatMessage>)
    ensures !authenticated ==> r == []
    ensures authenticated && today.Some? ==> r == ToChatMessages(today.value.messages)
    ensures authenticated && today.None? && mostRecent.Some? ==> r == ToChatMessages(mostRecent.value.messages)
    ensures authenticated && today.None? && mostRecent.None? ==> r == []
    ensures |r| > 0 ==> authenticated
  {
    if !authenticated then []
    else if today.Some? then ToChatMessages(today.value.messages)
    else if mostRecent.Some? then ToChatMessages(mostRecent.value.messages)
    else []
  }

  /**
   * `renameChatSession`: without a user, the "User not authenticated" error;
   * otherwise the `customName` to write, the trimmed name or null when blank.
   */
  function RenameChatSession(authenticated: bool, customName: string): (r: Result<Option<string>, string>)
    ensures r.Err? <==> !authenticated
    ensures r.Err? ==> r.error == NotAuthenticated
    ensures r.Ok? ==> (r.value.None? <==> Blank(customName))
    ensures r.Ok? && r.value.Some? ==> r.value.value == Trim(customName) && r.value.value != [] && IsTrimmed(r.value.value)
  {
    TrimEmptyIffBlank(customName);
    if !authenticated then Err(NotAuthenticated)
    else if Trim(customName) == [] then Ok(None)
    else Ok(Some(Trim(customName)))
  }

  /** `deleteChatSession`: without a user, the "User not authenticated" error; otherwise the id to delete. */
  function DeleteChatSession(authenticated: bool, sessionId: string): (r: Result<string, string>)
    ensures r.Err? <==> !authenticated
    ensures r.Err? ==> r.error == NotAuthenticated
    ensures r.Ok? ==> r.value == sessionId
  {
    if !authenticated then Err(NotAuthenticated) else Ok(sessionId)
  }

  /** The fields `saveChatSession` writes (merged into the document). */
  datatype SessionWrite = SessionWrite(
    messages: seq<HistoryMessage>,
    recommendation: Option<Json>,
    profile: RecipientProfile,
    currentStep: int,
    lastUpdated: StoredTime)

  // ---------------------------------------------------------------------------
  // The recommendation's defaults before saving

  /** `obj[key]`: the value of the first member with that key, or `undefined`. */
  function Member(ms: seq<(string, Json)>, key: string): Json
  {
    if ms == [] then Undefined else if ms[0].0 == key then ms[0].1 else Member(ms[1..], key)
  }

  /** `{ ...obj, [key]: v }`: the member keeps its place when present and is appended otherwise. */
  function SetMember(ms: seq<(string, Json)>, key: string, v: Json): (r: seq<(string, Json)>)
    ensures Member(r, key) == v
    ensures forall k :: k != key ==> Member(r, k) == Member(ms, k)
    ensures (forall i :: 0 <= i < |ms| ==> ms[i].0 != key) ==> r == ms + [(key, v)]
  {
    if ms == [] then [(key, v)]
    else if ms[0].0 == key then
      assert ([(key, v)] + ms[1..])[1..] == ms[1..];
      [(key, v)] + ms[1..]
    else
      var t := SetMember(ms[1..], key, v);
      assert ([ms[0]] + t)[1..] == t;
      assert forall i :: 0 <= i < |ms[1..]| ==> ms[1..][i] == ms[i + 1];
      assert ms == [ms[0]] + ms[1..];
      [ms[0]] + t
  }

  /** `v ?? []` */
  function OrEmpty(v: Json): (r: Json)
    ensures r != Null && r != Undefined
    ensures v != Null && v != Undefined ==> r == v
  {
    if v == Null || v == Undefined then Arr([]) else v
  }

  /** The list fields a saved recommendation always holds. */
  const ListFields: seq<string> := ["products", "explanations", "follow_up_suggestions", "products_ranked"]

  /**
   * The recommendation as `saveChatSession` rebuilds it before cleaning: the
   * four list fields and `meta.gemini_links` default to `[]` when null or
   * absent. A value that is not an object with an object `meta` is kept.
   */
  function WithDefaults(rec: Json): Json
  {
    if rec.Obj? && Member(rec.members, "meta").Obj? then
      var ms := rec.members;
      var meta := Member(ms, "meta").members;
      Obj(SetMember(ListsDefaulted(ms), "meta", Obj(SetMember(meta, "gemini_links", OrEmpty(Member(meta, "gemini_links"))))))
    else rec
  }

  /** The object `WithDefaults` builds around `meta`, before `meta` itself is set. */
  function ListsDefaulted(ms: seq<(string, Json)>): (r: seq<(string, Json)>)
    ensures forall k :: k in ListFields ==> Member(r, k) == OrEmpty(Member(ms, k))
    ensures forall k :: k !in ListFields ==> Member(r, k) == Member(ms, k)
  {
    var m1 := SetMember(ms, "products", OrEmpty(Member(ms, "products")));
    var m2 := SetMember(m1, "explanations", OrEmpty(Member(ms, "explanations")));
    var m3 := SetMember(m2, "follow_up_suggestions", OrEmpty(Member(ms, "follow_up_suggestions")));
    var m4 := SetMember(m3, "products_ranked", OrEmpty(Member(ms, "products_ranked")));
    assert forall k :: k in ListFields <==> k == "products" || k == "explanations" || k == "follow_up_suggestions" || k == "products_ranked";
    m4
  }

  /**
   * The defaults: each list field and `meta.gemini_links` is the stored value,
   * or `[]` when that is null or absent, and no other field changes.
   */
  lemma WithDefaultsFills(rec: Json)
    requires rec.Obj? && Member(rec.members, "meta").Obj?
    ensures var r := WithDefaults(rec);
      && r.Obj?
      && (forall k :: k in ListFields ==> Member(r.members, k) == OrEmpty(Member(rec.members, k)))
      && (forall k :: k !in ListFields && k != "meta" ==> Member(r.members, k) == Member(rec.members, k))
      && Member(r.members, "meta").Obj?
  {
    assert "meta" !in ListFields;
  }

  /** Inside `meta`, `gemini_links` defaults to `[]` and every other field is kept. */
  lemma WithDefaultsMeta(rec: Json)
    requires rec.Obj? && Member(rec.members, "meta").Obj?
    ensures var meta := Member(rec.members, "meta").members;
      var written := Member(WithDefaults(rec).members, "meta");
      && written.Obj?
      && Member(written.members, "gemini_links") == OrEmpty(Member(meta, "gemini_links"))
      && (forall k :: k != "gemini_links" ==> Member(written.members, k) == Member(meta, k))
  {
  }

  /**
   * `saveChatSession`: nothing without a user (no error); otherwise the
   * persisted messages from the stored document's messages and the page's,
   * and the page state, stamped `now`, all passed through `cleanData`, which
   * flattens every `Timestamp` and drops `undefined` from the recommendation.
   */
  function SaveChatSession(authenticated: bool, stored: Option<SessionDoc>, messages: seq<ChatMessage>,
                           recommendation: Option<Json>, profile: RecipientProfile, currentStep: int, now: Timestamp)
    : (r: Option<SessionWrite>)
    ensures r.None? <==> !authenticated
    ensures r.Some? ==>
      && r.value.messages == WrittenAll(Persisted(if stored.Some? then stored.value.messages else [], messages, now))
      && |r.value.messages| <= MaxMessagesPerSession
      && NoDup(Ids(r.value.messages))
      && r.value.profile == profile && r.value.currentStep == currentStep
      && r.value.lastUpdated == Flatten(now)
      && (recommendation.None? ==> r.value.recommendation.None?)
      && (recommendation.Some? ==> r.value.recommendation == Some(Clean(WithDefaults(recommendation.value))))
      && (recommendation.Some? ==> r.value.recommendation.Some? && Defined(r.value.recommendation.value))
  {
    if !authenticated then None
    else
      var existing := if stored.Some? then stored.value.messages else [];
      var written := WrittenAll(Persisted(existing, messages, now));
      if recommendation.Some? then
        CleanDefined(WithDefaults(recommendation.value));
        Some(SessionWrite(written, Some(Clean(WithDefaults(recommendation.value))), profile, currentStep, Flatten(now)))
      else Some(SessionWrite(written, None, profile, currentStep, Flatten(now)))
  }

  /** The document a save leaves behind, as the next read returns it. */
  function WrittenDoc(w: SessionWrite, customName: Option<string>): SessionDoc
  {
    SessionDoc(w.messages, w.recommendation, Some(w.profile), Some(w.currentStep), Some(w.lastUpdated), customName)
  }

  /**
   * Saving the same page twice writes the same messages the second time,
   * as long as nothing had to be cut.
   */
  lemma SaveSessionTwice(stored: Option<SessionDoc>, messages: seq<ChatMessage>, recommendation: Option<Json>,
                         profile: RecipientProfile, currentStep: int, now: Timestamp, later: Timestamp)
    requires |MergeSpec(if stored.Some? then stored.value.messages else [], messages, now)| <= MaxMessagesPerSession
    ensures var w := SaveChatSession(true, stored, messages, recommendation, profile, currentStep, now).value;
      SaveChatSession(true, Some(WrittenDoc(w, None)), messages, recommendation, profile, currentStep, later).value.messages
        == w.messages
  {
    var existing := if stored.Some? then stored.value.messages else [];
    SaveTwice(existing, messages, now, later);
  }

  /** `messages.map(messageToFirestore)`, every message stamped `now`. */
  function StoreAll(ms: seq<ChatMessage>, now: Timestamp): (r: seq<HistoryMessage>)
    ensures |r| == |ms| && forall i :: 0 <= i < |ms| ==> r[i] == MessageToFirestore(ms[i], now)
  {
    seq(|ms|, i requires 0 <= i < |ms| => MessageToFirestore(ms[i], now))
  }

  /** A fresh merge stores each page message once, in page order, stamped now. */
  lemma MergeFresh(ms: seq<ChatMessage>, now: Timestamp)
    requires NoDup(ChatIds(ms))
    ensures MergeSpec([], ms, now) == StoreAll(ms, now)
  {
    var order := Dedup(Ids([]) + ChatIds(ms));
    assert Ids([]) + ChatIds(ms) == ChatIds(ms);
    DedupNoDup(ChatIds(ms));
    var r := MergeSpec([], ms, now);
    forall t | 0 <= t < |ms| ensures r[t] == MessageToFirestore(ms[t], now) {
      assert order[t] == ms[t].id;
      assert r[t] == Entry([], ms, order[t], now);
      FirstIndexOfUnique(ms, t, order[t]);
    }
  }

  /** The first save of a page that fits writes its messages in page order, stamped now. */
  lemma PersistedFresh(ms: seq<ChatMessage>, now: Timestamp)
    requires NoDup(ChatIds(ms)) && |ms| <= MaxMessagesPerSession
    ensures Persisted([], ms, now) == StoreAll(ms, now)
  {
    var stamped := StoreAll(ms, now);
    MergeFresh(ms, now);
    assert SortedBy(stamped, SortKey(now));
    SortSorted(stamped, SortKey(now));
    assert NormalizeAll(stamped, now) == stamped;
  }

  /** In a list with unique ids, the first message with the id at `t` is the one at `t`. */
  lemma FirstIndexOfUnique(ms: seq<ChatMessage>, t: nat, k: string)
    requires NoDup(ChatIds(ms)) && t < |ms| && k == ms[t].id
    ensures k in ChatIds(ms)
    ensures FirstIndexOf(ms, k) == t
  {
    assert ChatIds(ms)[t] == k;
    var j := FirstIndexOf(ms, k);
    NoDupIndex(ChatIds(ms), j, t);
  }

  /** The first save of a page that fits writes the page's messages in order, stamped now. */
  lemma SaveWritesPage(ms: seq<ChatMessage>, recommendation: Option<Json>, profile: RecipientProfile,
                       currentStep: int, now: Timestamp)
    requires NoDup(ChatIds(ms)) && |ms| <= MaxMessagesPerSession
    ensures SaveChatSession(true, None, ms, recommendation, profile, currentStep, now).value.messages
      == WrittenAll(StoreAll(ms, now))
  {
    PersistedFresh(ms, now);
  }

  /**
   * Round trip: loading a session right after the first save of a page gives
   * back the page's messages (without their quick replies), profile and step.
   */
  lemma SaveLoadRoundTrip(ms: seq<ChatMessage>, recommendation: Option<Json>, profile: RecipientProfile,
                          currentStep: int, now: Timestamp, sessionId: string, later: Timestamp)
    requires ms != [] && NoDup(ChatIds(ms)) && |ms| <= MaxMessagesPerSession
    ensures var w := SaveChatSession(true, None, ms, recommendation, profile, currentStep, now).value;
      var st := LoadChatSession(true, sessionId, Some(WrittenDoc(w, None)), later);
      && st.Some?
      && ToChatMessages(st.value.messages) == StripOptions(ms)
      && st.value.profile == Some(profile) && st.value.currentStep == currentStep
  {
    SaveWritesPage(ms, recommendation, profile, currentStep, now);
    var w := SaveChatSession(true, None, ms, recommendation, profile, currentStep, now).value;
    assert w.profile == profile && w.currentStep == currentStep;
    assert |w.messages| == |ms| > 0;
    var doc := WrittenDoc(w, None);
    var st := LoadChatSession(true, sessionId, Some(doc), later);
    assert st.Some? && st.value.messages == w.messages;
    ReadBackStored(ms, now);
  }

  /** The page's messages without their quick replies, which are never stored. */
  function StripOptions(ms: seq<ChatMessage>): (r: seq<ChatMessage>)
    ensures |r| == |ms| && forall i :: 0 <= i < |ms| ==> r[i] == ms[i].(options := None)
  {
    seq(|ms|, i requires 0 <= i < |ms| => ms[i].(options := None))
  }

  /** Reading stored page messages back as chat messages drops only their quick replies. */
  lemma ReadBackStored(ms: seq<ChatMessage>, now: Timestamp)
    ensures ToChatMessages(WrittenAll(StoreAll(ms, now))) == StripOptions(ms)
  {
  }
}

=== FILE: chat_page.dfy ===
/**
 * The chat page's conversation state (client/src/pages/ChatPage.tsx): the
 * transcript, the question step, the profile being filled in, the last
 * recommendation and the current session id, and the handlers that update
 * them — sending a message, refining, starting a new chat, opening a stored
 * session, the auto-save guard and the wish-list re-ask. Message ids come
 * from `makeId` and are passed in.
 */
module ChatPage {
  import opened Wrappers
  import opened Text
  import opened ChatTypes
  import opened Profile
  import opened Parsers
  import opened QuestionFlow
  import opened Refine
  import opened ChatHistory

  /** The assistant bubble asking question `i`, with its quick replies. */
  function PromptMessage(i: nat, id: string): ChatMessage
    requires i < QuestionCount
  {
    ChatMessage(id, Assistant, Questions[i].prompt, None, Questions[i].options)
  }

  function AssistantLine(id: string, content: string): ChatMessage
  {
    ChatMessage(id, Assistant, content, None, None)
  }

  function InfoLine(id: string, content: string): ChatMessage
  {
    ChatMessage(id, Assistant, content, Some(Info), None)
  }

  function UserMessage(id: string, input: string): ChatMessage
  {
    ChatMessage(id, User, input, None, None)
  }

  /** The two messages every chat starts with: the greeting and the first question. */
  function Opening(greetingId: string, promptId: string): seq<ChatMessage>
  {
    [AssistantLine(greetingId, Greeting), PromptMessage(0, promptId)]
  }

  /** What follows the confirmation of answer number `next`: the next question, or the closing line. */
  function NextLine(next: nat, id: string): ChatMessage
  {
    if next < QuestionCount then PromptMessage(next, id) else AssistantLine(id, FinalizeText)
  }

  predicate HasUserMessage(ms: seq<ChatMessage>)
  {
    exists i :: 0 <= i < |ms| && ms[i].sender == User
  }

  /** A session id that JavaScript treats as set: present and not the empty string. */
  predicate Present(id: Option<string>)
  {
    id.Some? && id.value != []
  }

  /**
   * The auto-save guard: signed in, not loading, and either a session id or
   * more than the two opening lines.
   */
  predicate SaveEligible(isAuthenticated: bool, isLoadingHistory: bool, sessionId: Option<string>, messages: seq<ChatMessage>)
    ensures !isAuthenticated || isLoadingHistory ==> !SaveEligible(isAuthenticated, isLoadingHistory, sessionId, messages)
    ensures isAuthenticated && !isLoadingHistory && |messages| > 2 ==> SaveEligible(isAuthenticated, isLoadingHistory, sessionId, messages)
  {
    isAuthenticated && !isLoadingHistory && (Present(sessionId) || |messages| > 2)
  }

  /** The arguments of one `saveChatSession` call the page makes. */
  datatype SaveRequest = SaveRequest(
    sessionId: string,
    messages: seq<ChatMessage>,
    recommendation: Option<Json>,
    profile: RecipientProfile,
    currentStep: int)

  // ---------------------------------------------------------------------------
  // Restoring the step from a transcript

  /** The question a message asks, when it is an un-varianted assistant prompt. */
  function AskedQuestion(m: ChatMessage): Option<nat>
  {
    if m.sender == Assistant && m.variant.None? then PromptIndex(m.content) else None
  }

  predicate Asks(m: ChatMessage)
  {
    AskedQuestion(m).Some?
  }

  /** The question asked last, scanning back from the end; 0 when none is found. */
  function LastPromptIndex(ms: seq<ChatMessage>): (r: nat)
    ensures r < QuestionCount
    ensures var at := LastWhere(ms, Asks); r == if at.Some? then AskedQuestion(ms[at.value]).value else 0
  {
    if ms == [] then 0
    else
      var q := AskedQuestion(ms[|ms| - 1]);
      if q.Some? then q.value else LastPromptIndex(ms[..|ms| - 1])
  }

  /** The number of user messages that are not blank. */
  function AnsweredCount(ms: seq<ChatMessage>): (r: nat)
    ensures r <= |ms|
  {
    if ms == [] then 0
    else AnsweredCount(ms[..|ms| - 1]) + (if ms[|ms| - 1].sender == User && !Blank(ms[|ms| - 1].content) then 1 else 0)
  }

  /** The step the legacy restore computes: the larger of the two. */
  function LegacyStep(ms: seq<ChatMessage>): (r: nat)
    ensures LastPromptIndex(ms) <= r && AnsweredCount(ms) <= r
    ensures r == LastPromptIndex(ms) || r == AnsweredCount(ms)
  {
    if LastPromptIndex(ms) < AnsweredCount(ms) then AnsweredCount(ms) else LastPromptIndex(ms)
  }

  /**
   * The legacy step restore: count the non-blank user messages, walk back
   * to the last un-varianted assistant message that is a question prompt,
   * and take the larger of its index and the count.
   */
  method RestoredStep(saved: seq<ChatMessage>) returns (step: int)
    ensures step == LegacyStep(saved)
  {
    var answered := AnsweredCount(saved);
    var lastQuestionIndex := 0;
    var i := |saved|;
    assert saved[..i] == saved;
    while i > 0
      invariant 0 <= i <= |saved|
      invariant lastQuestionIndex == 0
      invariant LastPromptIndex(saved[..i]) == LastPromptIndex(saved)
    {
      var msg := saved[i - 1];
      LastPromptIndexPrefix(saved, i);
      if msg.sender == Assistant && msg.variant.None? {
        var questionIndex := PromptIndex(msg.content);
        if questionIndex.Some? {
          lastQuestionIndex := questionIndex.value;
          break;
        }
      }
      i := i - 1;
    }
    step := if lastQuestionIndex < answered then answered else lastQuestionIndex;
  }

  /** One step of the backward scan over the first `i` messages. */
  lemma LastPromptIndexPrefix(ms: seq<ChatMessage>, i: nat)
    requires 0 < i <= |ms|
    ensures LastPromptIndex(ms[..i])
            == if AskedQuestion(ms[i - 1]).Some? then AskedQuestion(ms[i - 1]).value else LastPromptIndex(ms[..i - 1])
  {
    assert ms[..i][..i - 1] == ms[..i - 1];
  }

  /**
   * The step an assistant line marks: a question prompt marks its question,
   * the closing line marks the end of the questions.
   */
  function StepMarker(m: ChatMessage): (r: Option<nat>)
    ensures r.Some? ==> r.value <= QuestionCount
  {
    if m.sender != Assistant || m.variant.Some? then None
    else if m.content == FinalizeText then Some(QuestionCount)
    else PromptIndex(m.content)
  }

  /**
   * The step a transcript is at: the one marked by the last prompt or
   * closing line, 0 when there is none. Rejected answers do not count.
   */
  function ResumeStep(ms: seq<ChatMessage>): (r: nat)
    ensures r <= QuestionCount
  {
    if ms == [] then 0
    else
      var s := StepMarker(ms[|ms| - 1]);
      if s.Some? then s.value else ResumeStep(ms[..|ms| - 1])
  }

  lemma ResumeStepSnoc(ms: seq<ChatMessage>, m: ChatMessage)
    ensures ResumeStep(ms + [m]) == if StepMarker(m).Some? then StepMarker(m).value else ResumeStep(ms)
  {
    assert (ms + [m])[..|ms|] == ms;
  }

  /** The next question's prompt marks that question; the closing line marks the end. */
  lemma NextLineMarker(next: nat, id: string)
    requires next <= QuestionCount
    ensures StepMarker(NextLine(next, id)) == Some(next)
  {
    if next < QuestionCount {
      PromptIndexOfPrompt(next);
      var q := Questions;
      assert |q[0].prompt| == 35 && |q[1].prompt| == 34 && |q[2].prompt| == 33 && |q[3].prompt| == 25
          && |q[4].prompt| == 59 && |q[5].prompt| == 71 && |q[6].prompt| == 42 && |q[7].prompt| == 54;
      assert |FinalizeText| > 71;
    }
  }

  /** An assistant line that is neither a prompt nor the closing line marks no step, so appending it keeps the resume step. */
  lemma PlainLineMarker(ms: seq<ChatMessage>, id: string, content: string)
    requires |content| !in {35, 34, 33, 25, 59, 71, 42, 54} && content != FinalizeText
    ensures StepMarker(AssistantLine(id, content)).None?
    ensures ResumeStep(ms + [AssistantLine(id, content)]) == ResumeStep(ms)
  {
    NotAPrompt(content);
    ResumeStepSnoc(ms, AssistantLine(id, content));
  }

  /** A fresh transcript is at the first question. */
  lemma OpeningResumes(greetingId: string, promptId: string)
    ensures ResumeStep(Opening(greetingId, promptId)) == 0
  {
    NextLineMarker(0, promptId);
    ResumeStepSnoc([AssistantLine(greetingId, Greeting)], PromptMessage(0, promptId));
  }

  /**
   * A chat whose first answer was rejected: greeting, age prompt, "hello",
   * and the age question's reprompt.
   */
  function RejectedFirstAnswer(): seq<ChatMessage>
  {
    Opening("g", "p") + [UserMessage("u", "hello"), InfoLine("r", Questions[0].reprompt)]
  }

  /** The legacy restore counts the rejected "hello" as an answer. */
  lemma LegacyOnRejected()
    ensures LegacyStep(RejectedFirstAnswer()) == 1
  {
    var t1 := [AssistantLine("g", Greeting)];
    var t2 := t1 + [PromptMessage(0, "p")];
    var t3 := t2 + [UserMessage("u", "hello")];
    var t4 := t3 + [InfoLine("r", Questions[0].reprompt)];
    assert t4 == RejectedFirstAnswer();
    assert t4[..3] == t3 && t3[..2] == t2 && t2[..1] == t1 && t1[..0] == [];
    PromptIndexOfPrompt(0);
    assert !Blank("hello") by { assert !IsSpace("hello"[0]); }
    assert AnsweredCount(t2) == 0;
    assert AnsweredCount(t4) == 1;
    assert LastPromptIndex(t2) == 0;
    assert LastPromptIndex(t4) == 0;
  }

  /** Going by the step markers, the same chat is still at the first question. */
  lemma ResumeOnRejected()
    ensures ResumeStep(RejectedFirstAnswer()) == 0
  {
    var t2 := Opening("g", "p");
    var t3 := t2 + [UserMessage("u", "hello")];
    var t4 := t3 + [InfoLine("r", Questions[0].reprompt)];
    assert t4 == RejectedFirstAnswer();
    OpeningResumes("g", "p");
    ResumeStepSnoc(t2, UserMessage("u", "hello"));
    ResumeStepSnoc(t3, InfoLine("r", Questions[0].reprompt));
  }

  /**
   * The age question rejects "hello", so the chat above stays at question
   * 0, but the legacy restore resumes it at question 1.
   */
  lemma LegacyStepOvercounts()
    ensures ParseAnswer(0, "hello", DefaultProfile).None?
    ensures LegacyStep(RejectedFirstAnswer()) == 1
    ensures ResumeStep(RejectedFirstAnswer()) == 0
  {
    assert NoDigit("hello");
    ParseAnswerRejects(0, "hello", DefaultProfile);
    LegacyOnRejected();
    ResumeOnRejected();
  }

  /** After the confirmation and the next line, the transcript resumes at the next step. */
  lemma ResumeAfterAccept(ms: seq<ChatMessage>, step: nat, replyId: string, confirmation: string, nextId: string)
    requires step < QuestionCount && ResumeStep(ms) == step
    ensures ResumeStep(ms + [InfoLine(replyId, confirmation), NextLine(step + 1, nextId)]) == step + 1
  {
    var c := InfoLine(replyId, confirmation);
    var n := NextLine(step + 1, nextId);
    NextLineMarker(step + 1, nextId);
    ResumeStepSnoc(ms, c);
    ResumeStepSnoc(ms + [c], n);
    assert ms + [c, n] == (ms + [c]) + [n];
  }

  /**
   * Merging the answer to question `|answers|` keeps every earlier answer,
   * each to its own question, in the profile.
   */
  lemma AnswersKept(p: RecipientProfile, answers: seq<Answer>, a: Answer)
    requires |answers| < QuestionCount && a.Key() == QuestionKey(|answers|)
    requires forall i :: 0 <= i < |answers| ==> answers[i].Key() == QuestionKey(i) && Holds(p, answers[i])
    ensures var r := answers + [a];
      forall i :: 0 <= i < |r| ==> r[i].Key() == QuestionKey(i) && Holds(Merge(p, a), r[i])
  {
    var r := answers + [a];
    forall i | 0 <= i < |r|
      ensures r[i].Key() == QuestionKey(i) && Holds(Merge(p, a), r[i])
    {
      if i < |answers| {
        QuestionKeysDistinct(i, |answers|);
        MergeKeepsOtherAnswers(p, a, answers[i]);
      }
    }
  }

  // ---------------------------------------------------------------------------
  // The page state

  class ChatController {
    var messages: seq<ChatMessage>
    var step: int
    var profile: RecipientProfile
    var recommendation: Option<Json>
    var sessionId: Option<string>
    /** The answers accepted since the chat started, one per question so far. */
    ghost var answers: seq<Answer>

    /**
     * The chat is in its question flow: each question before `step` has been
     * answered and its answer is in the profile, and the transcript resumes
     * at `step`.
     */
    ghost predicate Intake()
      reads this
    {
      && 0 <= step <= QuestionCount
      && |answers| == step
      && (forall i :: 0 <= i < step ==> answers[i].Key() == QuestionKey(i) && Holds(profile, answers[i]))
      && ResumeStep(messages) == step
    }

    /** A fresh page: the opening lines, step 0, no recommendation, no session yet. */
    constructor (initial: RecipientProfile, greetingId: string, promptId: string)
      ensures messages == Opening(greetingId, promptId)
      ensures step == 0 && profile == initial && recommendation == None && sessionId == None
      ensures Intake()
    {
      messages := Opening(greetingId, promptId);
      step := 0;
      profile := initial;
      recommendation := None;
      sessionId := None;
      answers := [];
      new;
      OpeningResumes(greetingId, promptId);
    }

    /** `handleRefine`: tighten the constraints with the text and say so. */
    method HandleRefine(input: string, replyId: string)
      modifies this
      ensures messages == old(messages) + [AssistantLine(replyId, RefiningText)]
      ensures profile == old(profile).(constraints := Refined(input, old(profile).constraints))
      ensures step == old(step) && recommendation == old(recommendation) && sessionId == old(sessionId)
      ensures answers == old(answers)
      ensures old(Intake()) ==> Intake()
    {
      var constraints := DeriveConstraints(input, profile.constraints);
      if Intake() {
        ConstraintsKeepAnswers(profile, constraints, answers);
      }
      profile := profile.(constraints := constraints);
      PlainLineMarker(messages, replyId, RefiningText);
      messages := messages + [AssistantLine(replyId, RefiningText)];
    }

    /**
     * `handleQuestionFlow`: the current question's parser reads the text. A
     * rejection appends the info-variant reprompt and keeps the step; an
     * acceptance merges the answer into the profile, appends the
     * info-variant confirmation, advances the step and appends the next
     * prompt, or the closing line after the eighth answer. A step outside
     * the questions does nothing.
     */
    method HandleQuestionFlow(input: string, replyId: string, nextId: string)
      modifies this
      ensures recommendation == old(recommendation) && sessionId == old(sessionId)
      ensures !(0 <= old(step) < QuestionCount) ==> unchanged(this)
      ensures 0 <= old(step) < QuestionCount && ParseAnswer(old(step), input, old(profile)).None? ==>
        && messages == old(messages) + [InfoLine(replyId, Questions[old(step)].reprompt)]
        && profile == old(profile) && step == old(step)
      ensures 0 <= old(step) < QuestionCount && ParseAnswer(old(step), input, old(profile)).Some? ==>
        var a := ParseAnswer(old(step), input, old(profile)).value;
        && profile == Merge(old(profile), a)
        && step == old(step) + 1
        && messages == old(messages) + [InfoLine(replyId, Confirmation(a)), NextLine(step, nextId)]
      ensures old(Intake()) ==> Intake()
    {
      if !(0 <= step < QuestionCount) {
        return;
      }
      var parsed := ParseAnswer(step, input, profile);
      if parsed.None? {
        var reprompt := InfoLine(replyId, Questions[step].reprompt);
        ResumeStepSnoc(messages, reprompt);
        messages := messages + [reprompt];
        return;
      }
      Accept(parsed.value, replyId, nextId);
    }

    /** An accepted answer to the current question: merge, confirm, move on. */
    method Accept(answer: Answer, replyId: string, nextId: string)
      requires 0 <= step < QuestionCount && answer.Key() == QuestionKey(step)
      modifies this
      ensures recommendation == old(recommendation) && sessionId == old(sessionId)
      ensures profile == Merge(old(profile), answer)
      ensures step == old(step) + 1
      ensures messages == old(messages) + [InfoLine(replyId, Confirmation(answer)), NextLine(step, nextId)]
      ensures old(Intake()) ==> Intake()
    {
      if Intake() {
        AnswersKept(profile, answers, answer);
        ResumeAfterAccept(messages, step, replyId, Confirmation(answer), nextId);
      }
      profile := Merge(profile, answer);
      answers := answers + [answer];
      messages := messages + [InfoLine(replyId, Confirmation(answer)), NextLine(step + 1, nextId)];
      step := step + 1;
    }

    /**
     * `handleSend`: the user's message is appended first; then the text
     * refines the constraints when the profile is complete, and answers the
     * current question otherwise.
     */
    method HandleSend(input: string, isComplete: bool, userId: string, replyId: string, nextId: string)
      modifies this
      ensures recommendation == old(recommendation) && sessionId == old(sessionId)
      ensures isComplete ==>
        && messages == old(messages) + [UserMessage(userId, input)] + [AssistantLine(replyId, RefiningText)]
        && profile == old(profile).(constraints := Refined(input, old(profile).constraints))
        && step == old(step)
      ensures !isComplete && !(0 <= old(step) < QuestionCount) ==>
        messages == old(messages) + [UserMessage(userId, input)] && profile == old(profile) && step == old(step)
      ensures !isComplete && 0 <= old(step) < QuestionCount && ParseAnswer(old(step), input, old(profile)).None? ==>
        && messages == old(messages) + [UserMessage(userId, input)] + [InfoLine(replyId, Questions[old(step)].reprompt)]
        && profile == old(profile) && step == old(step)
      ensures !isComplete && 0 <= old(step) < QuestionCount && ParseAnswer(old(step), input, old(profile)).Some? ==>
        var a := ParseAnswer(old(step), input, old(profile)).value;
        && profile == Merge(old(profile), a)
        && step == old(step) + 1
        && messages == old(messages) + [UserMessage(userId, input)] + [InfoLine(replyId, Confirmation(a)), NextLine(step, nextId)]
      ensures old(Intake()) ==> Intake()
    {
      ResumeStepSnoc(messages, UserMessage(userId, input));
      messages := messages + [UserMessage(userId, input)];
      if isComplete {
        HandleRefine(input, replyId);
      } else {
        HandleQuestionFlow(input, replyId, nextId);
      }
    }

    /**
     * The new-chat branch of `handleSelectSession`: refused while the chat
     * holds only its opening lines; otherwise the current session is saved
     * first when signed in with a session id and a user message, then the
     * page is reset to the opening lines, step 0, no recommendation, a new
     * session id and the default profile.
     */
    method NewChat(isAuthenticated: bool, newSessionId: string, greetingId: string, promptId: string)
      returns (save: Option<SaveRequest>)
      modifies this
      ensures |old(messages)| <= 2 && !HasUserMessage(old(messages)) ==> save.None? && unchanged(this)
      ensures !(|old(messages)| <= 2 && !HasUserMessage(old(messages))) ==>
        && messages == Opening(greetingId, promptId)
        && step == 0 && recommendation == None && sessionId == Some(newSessionId)
        && profile == DefaultProfile
        && Intake()
        && save == if isAuthenticated && Present(old(sessionId)) && HasUserMessage(old(messages))
                   then Some(SaveRequest(old(sessionId).value, old(messages), old(recommendation), old(profile), old(step)))
                   else None
      ensures old(Intake()) ==> Intake()
    {
      var hasUserMessages := HasUserMessage(messages);
      if |messages| <= 2 && !hasUserMessages {
        return None;
      }
      save := None;
      if isAuthenticated && Present(sessionId) && hasUserMessages {
        save := Some(SaveRequest(sessionId.value, messages, recommendation, profile, step));
      }
      messages := Opening(greetingId, promptId);
      step := 0;
      recommendation := None;
      sessionId := Some(newSessionId);
      profile := DefaultProfile;
      answers := [];
      OpeningResumes(greetingId, promptId);
    }

    /** Show a loaded session: its messages, id, step and recommendation, and its profile when it has one. */
    method Restore(state: SessionState)
      modifies this
      ensures messages == ToChatMessages(state.messages)
      ensures sessionId == Some(state.sessionId) && step == state.currentStep
      ensures recommendation == state.recommendation
      ensures profile == if state.profile.Some? then state.profile.value else old(profile)
    {
      messages := ToChatMessages(state.messages);
      sessionId := Some(state.sessionId);
      step := state.currentStep;
      recommendation := state.recommendation;
      if state.profile.Some? {
        profile := state.profile.value;
      }
    }

    /**
     * The open-a-session branch of `handleSelectSession`: the current session
     * is saved first when signed in with a different, set session id and more
     * than the opening lines; then the stored document is loaded and shown
     * when it has messages, and the page is left as it was otherwise.
     */
    method OpenSession(isAuthenticated: bool, id: string, stored: Option<SessionDoc>, now: Timestamp)
      returns (save: Option<SaveRequest>)
      modifies this
      ensures save == if isAuthenticated && Present(old(sessionId)) && old(sessionId).value != id && |old(messages)| > 2
                      then Some(SaveRequest(old(sessionId).value, old(messages), old(recommendation), old(profile), old(step)))
                      else None
      ensures var state := LoadChatSession(isAuthenticated, id, stored, now);
        if state.Some? then
          && messages == ToChatMessages(stored.value.messages) && |messages| > 0
          && sessionId == Some(id)
          && step == stored.value.currentStep.GetOr(0)
          && recommendation == stored.value.recommendation
          && profile == (if stored.value.profile.Some? then stored.value.profile.value else old(profile))
        else
          && messages == old(messages) && sessionId == old(sessionId) && step == old(step)
          && recommendation == old(recommendation) && profile == old(profile)
    {
      save := None;
      if isAuthenticated && Present(sessionId) && sessionId.value != id && |messages| > 2 {
        save := Some(SaveRequest(sessionId.value, messages, recommendation, profile, step));
      }
      var state := LoadChatSession(isAuthenticated, id, stored, now);
      if state.Some? && |state.value.messages| > 0 {
        Restore(state.value);
      }
    }

    /**
     * The auto-save effect: nothing while signed out or loading, nor for the
     * opening lines of a chat without a session id; otherwise the session
     * is saved under its id, a fresh one being assigned first when it has
     * none.
     */
    method AutoSave(isAuthenticated: bool, isLoadingHistory: bool, freshId: string)
      returns (save: Option<SaveRequest>)
      modifies this
      ensures !SaveEligible(isAuthenticated, isLoadingHistory, old(sessionId), old(messages)) ==>
        save.None? && unchanged(this)
      ensures SaveEligible(isAuthenticated, isLoadingHistory, old(sessionId), old(messages)) ==>
        && sessionId == (if Present(old(sessionId)) then old(sessionId) else Some(freshId))
        && save == Some(SaveRequest(sessionId.value, messages, recommendation, profile, step))
      ensures messages == old(messages) && step == old(step) && profile == old(profile)
      ensures recommendation == old(recommendation) && answers == old(answers)
    {
      if !isAuthenticated || isLoadingHistory {
        return None;
      }
      if !Present(sessionId) && |messages| <= 2 {
        return None;
      }
      var sessionIdToUse := if Present(sessionId) then sessionId.value else freshId;
      if !Present(sessionId) {
        sessionId := Some(sessionIdToUse);
      }
      save := Some(SaveRequest(sessionIdToUse, messages, recommendation, profile, step));
    }

    /**
     * Coming back from the wish list: with a complete profile, refine with
     * the wish-list request; otherwise say the profile comes first.
     */
    method ReaskFromWishlist(isComplete: bool, replyId: string)
      modifies this
      ensures isComplete ==>
        && messages == old(messages) + [AssistantLine(replyId, RefiningText)]
        && profile == old(profile).(constraints := Refined(WishlistRefineInput, old(profile).constraints))
      ensures !isComplete ==>
        messages == old(messages) + [AssistantLine(replyId, WishlistNotReadyText)] && profile == old(profile)
      ensures step == old(step) && recommendation == old(recommendation) && sessionId == old(sessionId)
      ensures old(Intake()) ==> Intake()
    {
      if isComplete {
        HandleRefine(WishlistRefineInput, replyId);
      } else {
        PlainLineMarker(messages, replyId, WishlistNotReadyText);
        messages := messages + [AssistantLine(replyId, WishlistNotReadyText)];
      }
    }
  }

  /**
   * Right after a reset the page has a session id, so its two opening lines,
   * without any user message, pass the auto-save guard; without a session
   * id they do not.
   */
  lemma OpeningSaveEligibility(greetingId: string, promptId: string, id: string)
    requires id != []
    ensures !HasUserMessage(Opening(greetingId, promptId))
    ensures SaveEligible(true, false, Some(id), Opening(greetingId, promptId))
    ensures !SaveEligible(true, false, None, Opening(greetingId, promptId))
  {
  }
}

=== FILE: chat_types.dfy ===
/** The chat message record shown in the thread (client/src/components/ChatThread.tsx). */
module ChatTypes {
  import opened Wrappers

  datatype Sender = Assistant | User | System

  datatype Variant = Default | Info | Error

  /**
   * One chat bubble. `variant` and `options` are optional fields of the
   * original record; absent is `None`.
   */
  datatype ChatMessage = ChatMessage(
    id: string,
    sender: Sender,
    content: string,
    variant: Option<Variant>,
    options: Option<seq<string>>)
}

=== FILE: parsers.dfy ===
/**
 * The free-text answer parsers of the intake chat (client/src/pages/ChatPage.tsx):
 * `parseNumber`, `parseCommaSeparated`, `clampBudget`, `extractBudget` and the
 * per-question parsers built on them. Each regular expression of the source is
 * replaced by an explicit scanner with the same leftmost-match behaviour.
 */
module Parsers {
  import opened Wrappers
  import opened Text
  import opened Sorting
  import opened Profile

  predicate NoDigit(s: string) { forall i :: 0 <= i < |s| ==> !IsDigit(s[i]) }

  /** Index of the first digit at or after `i`, or `|s|` when there is none. */
  function FirstDigit(s: string, i: nat): (k: nat)
    requires i <= |s|
    ensures i <= k <= |s|
    ensures forall j :: i <= j < k ==> !IsDigit(s[j])
    ensures k < |s| ==> IsDigit(s[k])
    decreases |s| - i
  {
    if i == |s| || IsDigit(s[i]) then i else FirstDigit(s, i + 1)
  }

  /** The first digit is the one at `n` when none comes before it. */
  lemma FirstDigitIs(s: string, n: nat)
    requires n < |s| && IsDigit(s[n])
    requires forall i :: 0 <= i < n ==> !IsDigit(s[i])
    ensures FirstDigit(s, 0) == n
  {
  }

  /**
   * `parseNumber`: the first match of `/(\d{1,3})/`, i.e. the leftmost digit
   * and at most the two digits that follow it, read as a number.
   */
  function ParseNumber(input: string): (r: Option<int>)
    ensures r.None? <==> NoDigit(input)
    ensures r.Some? ==> 0 <= r.value <= 999
  {
    var k := FirstDigit(input, 0);
    if k == |input| then None
    else
      var e := if DigitRunEnd(input, k) < k + 3 then DigitRunEnd(input, k) else k + 3;
      DigitsValueBound(input[k..e]);
      assert Power10(|input[k..e]|) <= 1000 by {
        assert Power10(1) == 10 && Power10(2) == 100 && Power10(3) == 1000;
      }
      Some(DigitsValue(input[k..e]))
  }

  lemma ConcatFacts(prefix: string, ds: string, rest: string)
    requires NoDigit(prefix)
    requires ds != [] && AllDigits(ds)
    requires rest == [] || !IsDigit(rest[0])
    ensures var s := prefix + ds + rest;
      && (forall i :: 0 <= i < |prefix| ==> !IsDigit(s[i]))
      && (forall i :: |prefix| <= i < |prefix| + |ds| ==> IsDigit(s[i]))
      && (|prefix| + |ds| == |s| || !IsDigit(s[|prefix| + |ds|]))
      && s[|prefix|..|prefix| + |ds|] == ds
  {
    var s := prefix + ds + rest;
    forall i | 0 <= i < |prefix| ensures s[i] == prefix[i] { }
    forall i | |prefix| <= i < |prefix| + |ds| ensures s[i] == ds[i - |prefix|] { }
    if |prefix| + |ds| < |s| { assert s[|prefix| + |ds|] == rest[0]; }
  }

  /** When the first digit is at `n` and its run ends at `m`, at most three digits of the run are read. */
  lemma ParseNumberAt(s: string, n: nat, m: nat)
    requires n < m <= |s|
    requires forall i :: 0 <= i < n ==> !IsDigit(s[i])
    requires forall i :: n <= i < m ==> IsDigit(s[i])
    requires m == |s| || !IsDigit(s[m])
    ensures ParseNumber(s) == Some(DigitsValue(s[n..if m < n + 3 then m else n + 3]))
  {
    FirstDigitIs(s, n);
    DigitRunEndIs(s, n, m);
  }

  /**
   * In text whose first digits are the run `ds`, `parseNumber` reads the first
   * three digits of that run ("she just turned 29" gives 29, "1234" gives 123).
   */
  lemma ParseNumberReadsFirstRun(prefix: string, ds: string, rest: string)
    requires NoDigit(prefix)
    requires ds != [] && AllDigits(ds)
    requires rest == [] || !IsDigit(rest[0])
    ensures ParseNumber(prefix + ds + rest)
         == Some(DigitsValue(if |ds| <= 3 then ds else ds[..3]))
  {
    var s := prefix + ds + rest;
    var n := |prefix|;
    var m := |prefix| + |ds|;
    ConcatFacts(prefix, ds, rest);
    FirstThree(s, n, ds);
    ParseNumberAt(s, n, m);
  }

  /** The first three characters of a run found inside a longer text. */
  lemma FirstThree(s: string, n: nat, ds: string)
    requires n + |ds| <= |s| && s[n..n + |ds|] == ds
    ensures s[n..if n + |ds| < n + 3 then n + |ds| else n + 3] == if |ds| <= 3 then ds else ds[..3]
  {
    if |ds| > 3 {
      assert s[n..n + 3] == s[n..n + |ds|][..3];
    }
  }

  /** A number below 1000 written out in a sentence is read back exactly. */
  lemma ParseNumberRoundTrip(prefix: string, n: nat, rest: string)
    requires NoDigit(prefix) && n < 1000
    requires rest == [] || !IsDigit(rest[0])
    ensures ParseNumber(prefix + NatToString(n) + rest) == Some(n)
  {
    NatToStringLength(n);
    NatToStringRoundTrip(n);
    ParseNumberReadsFirstRun(prefix, NatToString(n), rest);
  }

  /** The age question's parser: a number, where a parsed 0 is rejected too (`!age`). */
  function ParseAge(input: string): (r: Option<Answer>)
    ensures r.Some? <==> ParseNumber(input).Some? && ParseNumber(input).value != 0
    ensures r.Some? ==> r.value == AgeAnswer(ParseNumber(input).value) && 1 <= r.value.age <= 999
  {
    match ParseNumber(input)
    case None => None
    case Some(v) => if v == 0 then None else Some(AgeAnswer(v))
  }

  /**
   * The gender question's parser: blank input is rejected, "male" and "female"
   * in any case become "Male" and "Female", and any other text passes through
   * trimmed.
   */
  function ParseGender(input: string): (r: Option<string>)
    ensures r.None? <==> Blank(input)
    ensures r.Some? ==> r.value != [] && IsTrimmed(r.value)
  {
    var gender := Trim(input);
    TrimEmptyIffBlank(input);
    if gender == [] then None
    else if ToLower(gender) == "male" then Some("Male")
    else if ToLower(gender) == "female" then Some("Female")
    else Some(gender)
  }

  /** "male" and "female" in any case are normalised; other answers are only trimmed. */
  lemma ParseGenderNormalizes(input: string)
    requires ParseGender(input).Some?
    ensures ToLower(Trim(input)) == "male" ==> ParseGender(input).value == "Male"
    ensures ToLower(Trim(input)) == "female" ==> ParseGender(input).value == "Female"
    ensures ToLower(Trim(input)) != "male" && ToLower(Trim(input)) != "female"
            ==> ParseGender(input).value == Trim(input)
  {
  }

  /** Normalising a gender answer a second time changes nothing. */
  lemma ParseGenderIdempotent(input: string)
    requires ParseGender(input).Some?
    ensures ParseGender(ParseGender(input).value) == ParseGender(input)
  {
    var g := ParseGender(input).value;
    ParseGenderNormalizes(input);
    TrimTrimmed(g);
    TrimEmptyIffBlank(g);
    var t := ToLower(Trim(input));
    NormalizedGendersLowered();
    if t != "male" && t != "female" {
      assert g == Trim(input);
      assert ToLower(g) == t;
    }
  }

  /** The two normalised genders lower-case to the words they are recognised by. */
  lemma NormalizedGendersLowered()
    ensures ToLower("Male") == "male" && ToLower("Female") == "female"
  {
    assert ToLower("Male") == "male";
    assert ToLower("Female") == "female";
  }

  /**
   * The relationship, occasion and favourite-colour parsers: any input that is
   * not blank, trimmed.
   */
  function ParseText(input: string): (r: Option<string>)
    ensures r.None? <==> Blank(input)
    ensures r.Some? ==> r.value == Trim(input) && r.value != [] && IsTrimmed(r.value)
  {
    TrimEmptyIffBlank(input);
    if Trim(input) == [] then None else Some(Trim(input))
  }

  /** An accepted free-text answer is accepted again unchanged. */
  lemma ParseTextIdempotent(input: string)
    requires ParseText(input).Some?
    ensures ParseText(ParseText(input).value) == ParseText(input)
  {
    TrimTrimmed(ParseText(input).value);
    TrimEmptyIffBlank(ParseText(input).value);
  }

  // ---------------------------------------------------------------------------
  // parseCommaSeparated: split on /[,/]| and /i, trim, drop empty pieces

  /** The word " and " (case-insensitive) starts at index `j`. */
  predicate AndAt(s: string, j: int) {
    0 <= j && j + 5 <= |s|
    && s[j] == ' ' && Lower(s[j + 1]) == 'a' && Lower(s[j + 2]) == 'n'
    && Lower(s[j + 3]) == 'd' && s[j + 4] == ' '
  }

  /** Inside a slice, " and " matches exactly where it matches in the whole text. */
  lemma AndAtSlice(s: string, a: nat, b: nat, j: nat)
    requires a <= b <= |s|
    ensures AndAt(s[a..b], j) ==> AndAt(s, a + j)
    ensures j + 5 <= b - a ==> (AndAt(s[a..b], j) <==> AndAt(s, a + j))
  {
    var t := s[a..b];
    if j + 5 <= b - a {
      assert t[j] == s[a + j] && t[j + 1] == s[a + j + 1] && t[j + 2] == s[a + j + 2];
      assert t[j + 3] == s[a + j + 3] && t[j + 4] == s[a + j + 4];
    }
  }

  /** A separator of `/[,/]| and /i` matches at index `j`. */
  predicate SepAt(s: string, j: int) {
    0 <= j < |s| && (s[j] == ',' || s[j] == '/' || AndAt(s, j))
  }

  /** The text holds no separator. */
  predicate NoSep(s: string) { forall j :: 0 <= j < |s| ==> !SepAt(s, j) }

  function SepLen(s: string, j: int): (n: nat)
    requires SepAt(s, j)
    ensures j + n <= |s|
  {
    if s[j] == ',' || s[j] == '/' then 1 else 5
  }

  /** Index of the leftmost separator at or after `i`, or `|s|`. */
  function FirstSep(s: string, i: nat): (k: nat)
    requires i <= |s|
    ensures i <= k <= |s|
    ensures forall j :: i <= j < k ==> !SepAt(s, j)
    ensures k < |s| ==> SepAt(s, k)
    decreases |s| - i
  {
    if i == |s| || SepAt(s, i) then i else FirstSep(s, i + 1)
  }

  /** A prefix that stops before the first separator holds no separator. */
  lemma NoSepBefore(s: string, k: nat)
    requires k <= |s|
    requires forall j :: 0 <= j < k ==> !SepAt(s, j)
    ensures NoSep(s[..k])
  {
    forall j | 0 <= j < k ensures !SepAt(s[..k], j) {
      assert s[..k] == s[0..k];
      assert s[..k][j] == s[j];
      assert !SepAt(s, j);
      AndAtSlice(s, 0, k, j);
    }
  }

  /** `input.split(/[,/]| and /i)`: the pieces between separator matches, left to right. */
  function Split(s: string): (r: seq<string>)
    ensures |r| >= 1
    ensures forall p :: p in r ==> NoSep(p)
    ensures IsLowerCase(s) ==> forall p :: p in r ==> IsLowerCase(p)
    decreases |s|
  {
    var k := FirstSep(s, 0);
    NoSepBefore(s, k);
    if k == |s| then
      assert s[..k] == s;
      [s]
    else
      var rest := Split(s[k + SepLen(s, k)..]);
      [s[..k]] + rest
  }

  /** The text of each separator match of `Split(s)`, left to right. */
  function SplitSeps(s: string): (r: seq<string>)
    ensures |r| == |Split(s)| - 1
    ensures forall t :: t in r ==> IsSep(t)
    decreases |s|
  {
    var k := FirstSep(s, 0);
    if k == |s| then []
    else
      var n := SepLen(s, k);
      AndAtSlice(s, k, k + n, 0);
      [s[k..k + n]] + SplitSeps(s[k + n..])
  }

  /** One separator's text: a comma, a slash, or " and " in any case. */
  predicate IsSep(t: string) {
    t == "," || t == "/" || (|t| == 5 && AndAt(t, 0))
  }

  /** Pieces put back together with the separators between them. */
  function Rejoin(ps: seq<string>, seps: seq<string>): string
    requires ps != [] && |seps| == |ps| - 1
  {
    if |ps| == 1 then ps[0] else ps[0] + seps[0] + Rejoin(ps[1..], seps[1..])
  }

  /** No text is lost: the pieces, rejoined with the separators matched between them, give the input. */
  lemma {:induction false} SplitRebuilds(s: string)
    ensures Rejoin(Split(s), SplitSeps(s)) == s
    decreases |s|
  {
    var k := FirstSep(s, 0);
    if k == |s| {
      assert s[..k] == s;
    } else {
      var n := SepLen(s, k);
      var rest := s[k + n..];
      SplitCons(s);
      SplitRebuilds(rest);
      ThreeSlices(s, k, k + n);
    }
  }

  /** A text with a separator splits into the piece before it, then the split of what follows. */
  lemma SplitCons(s: string)
    requires FirstSep(s, 0) < |s|
    ensures var k := FirstSep(s, 0); var n := SepLen(s, k);
      && Split(s) == [s[..k]] + Split(s[k + n..])
      && SplitSeps(s) == [s[k..k + n]] + SplitSeps(s[k + n..])
  {
    var k := FirstSep(s, 0);
    var n := SepLen(s, k);
    var rest := s[k + n..];
    assert Split(s) == [s[..k]] + Split(rest);
    assert SplitSeps(s) == [s[k..k + n]] + SplitSeps(rest);
  }

  /** A text is its three consecutive slices. */
  lemma ThreeSlices(s: string, a: nat, b: nat)
    requires a <= b <= |s|
    ensures s == s[..a] + s[a..b] + s[b..]
  {
  }

  /** A slice of text without separators has none either. */
  lemma NoSepSlice(s: string, a: nat, b: nat)
    requires a <= b <= |s| && NoSep(s)
    ensures NoSep(s[a..b])
  {
    forall j | 0 <= j < b - a ensures !SepAt(s[a..b], j) {
      assert s[a..b][j] == s[a + j];
      assert !SepAt(s, a + j);
      AndAtSlice(s, a, b, j);
    }
  }

  /** Trimming keeps a piece free of separators. */
  lemma TrimNoSep(s: string)
    requires NoSep(s)
    ensures NoSep(Trim(s))
  {
    NoSepSlice(s, TrimStartIndex(s), TrimEndIndex(s));
  }

  /** `.map(trim).filter(Boolean)` */
  function TrimNonEmpty(ps: seq<string>): (r: seq<string>)
    requires forall p :: p in ps ==> NoSep(p)
    ensures forall p :: p in r ==> p != [] && IsTrimmed(p) && NoSep(p)
    ensures (forall p :: p in ps ==> IsLowerCase(p)) ==> forall p :: p in r ==> IsLowerCase(p)
  {
    if ps == [] then []
    else
      var t := Trim(ps[0]);
      TrimNoSep(ps[0]);
      TrimKeepsLowerCase(ps[0]);
      (if t == [] then [] else [t]) + TrimNonEmpty(ps[1..])
  }

  /**
   * `parseCommaSeparated`: the non-empty trimmed pieces of the input between
   * commas, slashes and the word " and ".
   */
  function ParseCommaSeparated(input: string): (r: seq<string>)
    ensures forall p :: p in r ==> p != [] && IsTrimmed(p)
  {
    TrimNonEmpty(Split(input))
  }

  /**
   * Every piece is non-empty, trimmed and free of separators, and the pieces
   * of lower-case text are lower case.
   */
  lemma ParseCommaSeparatedClean(input: string)
    ensures var r := ParseCommaSeparated(input);
      && (forall p :: p in r ==> p != [] && IsTrimmed(p))
      && (forall p :: p in r ==> ',' !in p && '/' !in p && NoSep(p))
      && (IsLowerCase(input) ==> forall p :: p in r ==> IsLowerCase(p))
  {
    var r := ParseCommaSeparated(input);
    forall p | p in r ensures ',' !in p && '/' !in p {
      if ',' in p || '/' in p {
        var j :| 0 <= j < |p| && (p[j] == ',' || p[j] == '/');
        assert SepAt(p, j);
      }
    }
  }

  /** Text holding no separator does not contain one either right before a comma. */
  lemma FirstSepBeforeComma(x: string, rest: string)
    requires NoSep(x)
    ensures FirstSep(x + "," + rest, 0) == |x|
  {
    var s := x + "," + rest;
    assert s[0..|x|] == x;
    forall j | 0 <= j < |x| ensures !SepAt(s, j) {
      assert s[j] == x[j];
      assert !SepAt(x, j);
      if j + 5 <= |x| {
        AndAtSlice(s, 0, |x|, j);
      } else {
        var m := |x| - j;
        assert s[j + m] == ',' && Lower(',') == ',';
        assert 1 <= m <= 4;
      }
    }
    assert SepAt(s, |x|);
  }

  /** Splitting pieces joined by commas gives the pieces back. */
  lemma {:induction false} SplitJoin(xs: seq<string>)
    requires xs != []
    requires forall x :: x in xs ==> NoSep(x)
    ensures Split(Join(xs, ",")) == xs
  {
    if |xs| == 1 {
      assert Join(xs, ",") == xs[0];
      assert xs[0] in xs && NoSep(xs[0]);
      assert FirstSep(xs[0], 0) == |xs[0]|;
      assert xs[0][..|xs[0]|] == xs[0];
    } else {
      var rest := Join(xs[1..], ",");
      var s := xs[0] + "," + rest;
      assert Join(xs, ",") == s;
      FirstSepBeforeComma(xs[0], rest);
      assert s[..|xs[0]|] == xs[0];
      assert s[|xs[0]| + 1..] == rest;
      SplitJoin(xs[1..]);
      assert xs == [xs[0]] + xs[1..];
    }
  }

  /** The piece ends with " and" (any case), so a following " and " would be matched one word early. */
  predicate EndsWithAnd(x: string) {
    |x| >= 4 && x[|x| - 4] == ' ' && Lower(x[|x| - 3]) == 'a' && Lower(x[|x| - 2]) == 'n' && Lower(x[|x| - 1]) == 'd'
  }

  /** A separator-free piece followed by a separator: the first match is that separator. */
  lemma FirstSepBefore(x: string, t: string, rest: string)
    requires NoSep(x) && IsSep(t)
    requires |t| == 5 ==> !EndsWithAnd(x)
    ensures FirstSep(x + t + rest, 0) == |x|
    ensures SepAt(x + t + rest, |x|) && SepLen(x + t + rest, |x|) == |t|
  {
    var s := x + t + rest;
    assert s[|x|..|x| + |t|] == t;
    assert s[|x|] == t[0];
    if |t| == 5 {
      assert s[|x| + 1] == t[1] && s[|x| + 2] == t[2] && s[|x| + 3] == t[3] && s[|x| + 4] == t[4];
      assert AndAt(s, |x|);
    }
    assert SepAt(s, |x|);
    forall j | 0 <= j < |x| ensures !SepAt(s, j) {
      assert s[j] == x[j];
      assert !SepAt(x, j);
      if j + 5 <= |x| {
        AndAtSlice(s, 0, |x|, j);
        assert s[0..|x|] == x;
      } else {
        NoAndAcross(x, t, rest, j);
      }
    }
  }

  /** No " and " starts inside the piece and ends inside the separator. */
  lemma NoAndAcross(x: string, t: string, rest: string, j: nat)
    requires IsSep(t) && (|t| == 5 ==> !EndsWithAnd(x))
    requires j < |x| < j + 5
    ensures !AndAt(x + t + rest, j)
  {
    var s := x + t + rest;
    assert s[|x|] == t[0];
    if |x| - j == 4 {
      assert s[j] == x[|x| - 4] && s[j + 1] == x[|x| - 3] && s[j + 2] == x[|x| - 2] && s[j + 3] == x[|x| - 1];
    }
  }

  /** The split of a piece, a separator and the rest: the piece, then the split of the rest. */
  lemma SplitStep(x: string, t: string, rest: string)
    requires NoSep(x) && IsSep(t)
    requires |t| == 5 ==> !EndsWithAnd(x)
    ensures Split(x + t + rest) == [x] + Split(rest)
    ensures SplitSeps(x + t + rest) == [t] + SplitSeps(rest)
  {
    var s := x + t + rest;
    FirstSepBefore(x, t, rest);
    assert s[..|x|] == x;
    assert s[|x|..|x| + |t|] == t;
    assert s[|x| + |t|..] == rest;
  }

  /**
   * Splitting pieces joined by any separators gives back the pieces and the
   * separators, as long as no piece ends in " and" right before an " and ".
   */
  lemma {:induction false} SplitRejoin(xs: seq<string>, seps: seq<string>)
    requires xs != [] && |seps| == |xs| - 1
    requires forall x :: x in xs ==> NoSep(x)
    requires forall i :: 0 <= i < |seps| ==> IsSep(seps[i]) && (|seps[i]| == 5 ==> !EndsWithAnd(xs[i]))
    ensures Split(Rejoin(xs, seps)) == xs
    ensures SplitSeps(Rejoin(xs, seps)) == seps
    decreases |xs|, 2
  {
    if |xs| == 1 {
      assert xs[0] in xs;
      SplitNoSep(xs[0]);
      assert xs == [xs[0]];
    } else {
      SplitRejoinCons(xs, seps);
    }
  }

  /** The inductive step of `SplitRejoin`: split off the first piece, then the rest. */
  lemma {:induction false} SplitRejoinCons(xs: seq<string>, seps: seq<string>)
    requires |xs| >= 2 && |seps| == |xs| - 1
    requires forall x :: x in xs ==> NoSep(x)
    requires forall i :: 0 <= i < |seps| ==> IsSep(seps[i]) && (|seps[i]| == 5 ==> !EndsWithAnd(xs[i]))
    ensures Split(Rejoin(xs, seps)) == xs
    ensures SplitSeps(Rejoin(xs, seps)) == seps
    decreases |xs|, 1
  {
    assert xs[0] in xs;
    RejoinStep(xs, seps);
    SplitRejoinTail(xs, seps);
    assert xs == [xs[0]] + xs[1..];
    assert seps == [seps[0]] + seps[1..];
  }

  /** The tail of a list `SplitRejoin` accepts is accepted too, and splits back. */
  lemma {:induction false} SplitRejoinTail(xs: seq<string>, seps: seq<string>)
    requires |xs| >= 2 && |seps| == |xs| - 1
    requires forall x :: x in xs ==> NoSep(x)
    requires forall i :: 0 <= i < |seps| ==> IsSep(seps[i]) && (|seps[i]| == 5 ==> !EndsWithAnd(xs[i]))
    ensures Split(Rejoin(xs[1..], seps[1..])) == xs[1..]
    ensures SplitSeps(Rejoin(xs[1..], seps[1..])) == seps[1..]
    decreases |xs|, 0
  {
    var ys, ts := xs[1..], seps[1..];
    assert forall x :: x in ys ==> x in xs;
    assert forall i :: 0 <= i < |ts| ==> ts[i] == seps[i + 1] && ys[i] == xs[i + 1];
    SplitRejoin(ys, ts);
  }

  /** A text without separators is one piece. */
  lemma SplitNoSep(x: string)
    requires NoSep(x)
    ensures Split(x) == [x] && SplitSeps(x) == []
  {
    assert FirstSep(x, 0) == |x|;
    assert x[..|x|] == x;
  }

  /** Splitting a rejoined list cuts off its first piece and separator. */
  lemma RejoinStep(xs: seq<string>, seps: seq<string>)
    requires |xs| >= 2 && |seps| == |xs| - 1
    requires NoSep(xs[0]) && IsSep(seps[0]) && (|seps[0]| == 5 ==> !EndsWithAnd(xs[0]))
    ensures Split(Rejoin(xs, seps)) == [xs[0]] + Split(Rejoin(xs[1..], seps[1..]))
    ensures SplitSeps(Rejoin(xs, seps)) == [seps[0]] + SplitSeps(Rejoin(xs[1..], seps[1..]))
  {
    var rest := Rejoin(xs[1..], seps[1..]);
    assert Rejoin(xs, seps) == xs[0] + seps[0] + rest;
    SplitStep(xs[0], seps[0], rest);
  }

  /** Pieces that are already clean come back from trimming unchanged. */
  lemma {:induction false} TrimNonEmptyClean(xs: seq<string>)
    requires forall x :: x in xs ==> x != [] && IsTrimmed(x) && NoSep(x)
    ensures TrimNonEmpty(xs) == xs
  {
    if xs != [] {
      TrimTrimmed(xs[0]);
      assert forall x :: x in xs[1..] ==> x in xs;
      TrimNonEmptyClean(xs[1..]);
      assert xs == [xs[0]] + xs[1..];
    }
  }

  /**
   * Round trip: non-empty trimmed entries without separators, joined by
   * commas, are parsed back into the same list in the same order.
   */
  lemma ParseCommaSeparatedJoin(xs: seq<string>)
    requires forall x :: x in xs ==> x != [] && IsTrimmed(x) && NoSep(x)
    ensures ParseCommaSeparated(Join(xs, ",")) == xs
  {
    if xs == [] {
      assert Join(xs, ",") == "";
      assert FirstSep("", 0) == 0;
      assert Split("") == [""];
      assert Trim("") == "";
    } else {
      SplitJoin(xs);
      TrimNonEmptyClean(xs);
    }
  }

  /**
   * Clean pieces joined by any mix of ",", "/" and " and " are parsed back
   * into the same list, in order.
   */
  lemma ParseCommaSeparatedRejoin(xs: seq<string>, seps: seq<string>)
    requires xs != [] && |seps| == |xs| - 1
    requires forall x :: x in xs ==> x != [] && IsTrimmed(x) && NoSep(x)
    requires forall i :: 0 <= i < |seps| ==> IsSep(seps[i]) && (|seps[i]| == 5 ==> !EndsWithAnd(xs[i]))
    ensures ParseCommaSeparated(Rejoin(xs, seps)) == xs
  {
    SplitRejoin(xs, seps);
    TrimNonEmptyClean(xs);
  }

  /** The interests question's parser: the comma-separated pieces of the lower-cased input. */
  function ParseInterests(input: string): (r: Option<seq<string>>)
    ensures r.None? <==> ParseCommaSeparated(ToLower(input)) == []
    ensures r.Some? ==> r.value == ParseCommaSeparated(ToLower(input))
  {
    var values := ParseCommaSeparated(ToLower(input));
    if values == [] then None else Some(values)
  }

  /** Accepted interests are non-empty, trimmed and lower case. */
  lemma ParseInterestsClean(input: string)
    requires ParseInterests(input).Some?
    ensures forall p :: p in ParseInterests(input).value ==> p != [] && IsTrimmed(p) && IsLowerCase(p)
  {
    ParseCommaSeparatedClean(ToLower(input));
  }

  /** The favourite-brands question's parser: the comma-separated pieces, case kept. */
  function ParseBrands(input: string): (r: Option<seq<string>>)
    ensures r.None? <==> ParseCommaSeparated(input) == []
    ensures r.Some? ==> r.value == ParseCommaSeparated(input)
  {
    var values := ParseCommaSeparated(input);
    if values == [] then None else Some(values)
  }

  /** The two list parsers differ only in lower-casing: interests are the brands parse of the lower-cased text. */
  lemma InterestsAreLoweredBrands(input: string)
    ensures ParseInterests(input) == ParseBrands(ToLower(input))
  {
  }

  // ---------------------------------------------------------------------------
  // Budget: /\d+(?:\.\d{1,2})?/g, the currency test and clampBudget

  /**
   * The number matched at a digit `i`: the whole digit run, then a '.' and one
   * or two more digits when they follow. Returns the value and the end index.
   */
  function NumberAt(s: string, i: nat): (r: (real, nat))
    requires i < |s| && IsDigit(s[i])
    ensures i < r.1 <= |s|
    ensures r.0 >= 0.0
  {
    var j := DigitRunEnd(s, i);
    var whole := DigitsValue(s[i..j]) as real;
    if j + 1 < |s| && s[j] == '.' && IsDigit(s[j + 1]) then
      if j + 2 < |s| && IsDigit(s[j + 2]) then
        (whole + (DigitValue(s[j + 1]) * 10 + DigitValue(s[j + 2])) as real / 100.0, j + 3)
      else
        (whole + DigitValue(s[j + 1]) as real / 10.0, j + 2)
    else (whole, j)
  }

  /** All matches of `/\d+(?:\.\d{1,2})?/g` from index `i` on, as numbers. */
  function NumbersFrom(s: string, i: nat): (r: seq<real>)
    requires i <= |s|
    ensures r == [] <==> forall j :: i <= j < |s| ==> !IsDigit(s[j])
    ensures forall x :: x in r ==> x >= 0.0
    decreases |s| - i
  {
    if i == |s| then []
    else if IsDigit(s[i]) then
      var (v, e) := NumberAt(s, i);
      [v] + NumbersFrom(s, e)
    else NumbersFrom(s, i + 1)
  }

  function Numbers(s: string): (r: seq<real>)
    ensures r == [] <==> NoDigit(s)
    ensures forall x :: x in r ==> x >= 0.0
  {
    NumbersFrom(s, 0)
  }

  /**
   * `/(?<=\s|^)(usd|dollars|\$)/i`: "usd", "dollars" or "$", in any case, at the
   * start of the input or right after white space.
   */
  predicate MentionsUsd(s: string) {
    var t := ToLower(s);
    exists p | 0 <= p < |s| ::
      (p == 0 || IsSpace(s[p - 1]))
      && (Occurs(t, p, "usd") || Occurs(t, p, "dollars") || s[p] == '$')
  }

  /**
   * `clampBudget`: swap a reversed pair when the upper end is positive and
   * collapse to `[min, min]` when the upper end is 0.
   */
  function ClampBudget(min: real, max: real): (r: (real, real))
    ensures max == 0.0 ==> r == (min, min)
    ensures max != 0.0 && min > max && max > 0.0 ==> r == (max, min)
    ensures max >= 0.0 ==> r.0 <= r.1
    ensures max != 0.0 ==> multiset{r.0, r.1} == multiset{min, max}
    ensures !(min > max && max > 0.0) && max != 0.0 ==> r == (min, max)
  {
    if min > max && max > 0.0 then (max, min)
    else if max == 0.0 then (min, min)
    else (min, max)
  }

  /**
   * `extractBudget`: no number gives no budget; one number v gives
   * [0.8·v, v]; two or more give the smallest and the largest after sorting.
   * The currency becomes "USD" when the input mentions it and otherwise stays.
   */
  function ExtractBudget(input: string, current: Budget): (r: Option<Budget>)
    ensures r.None? <==> NoDigit(input)
    ensures r.Some? ==> 0.0 <= r.value.min <= r.value.max
  {
    var numbers := Numbers(input);
    if numbers == [] then None
    else
      var currency := if MentionsUsd(input) then "USD" else current.currency;
      if |numbers| == 1 then
        assert numbers[0] in numbers;
        Some(Budget(numbers[0] * 0.8, numbers[0], currency))
      else
        var sorted := SortBy(numbers, (x: real) => x);
        SortedEnds(numbers, (x: real) => x);
        var bounds := ClampBudget(sorted[0], sorted[|sorted| - 1]);
        Some(Budget(bounds.0, bounds.1, currency))
  }

  /**
   * What `extractBudget` reads: the currency becomes "USD" when the input
   * mentions it and otherwise stays; one number v gives [0.8·v, v]; two or
   * more give a range between two of the numbers that spans all of them.
   */
  lemma ExtractBudgetReads(input: string, current: Budget)
    requires ExtractBudget(input, current).Some?
    ensures var b := ExtractBudget(input, current).value;
      && b.currency == (if MentionsUsd(input) then "USD" else current.currency)
      && (|Numbers(input)| == 1 ==> b.max == Numbers(input)[0] && b.min == 0.8 * Numbers(input)[0])
      && (|Numbers(input)| >= 2 ==>
            && b.min in Numbers(input) && b.max in Numbers(input)
            && forall x :: x in Numbers(input) ==> b.min <= x <= b.max)
  {
    var numbers := Numbers(input);
    if |numbers| >= 2 {
      SortedEnds(numbers, (x: real) => x);
    }
  }
}

=== FILE: profile.dfy ===
/**
 * The recipient profile collected by the intake questions, the partial
 * profile one answer produces, and the merge the chat page applies locally
 * after an accepted answer.
 */
module Profile {
  import opened Wrappers

  /** Budget numbers are exact reals; the source uses IEEE doubles. */
  datatype Budget = Budget(min: real, max: real, currency: string)

  datatype Constraints = Constraints(
    categoryIncludes: seq<string>,
    categoryExcludes: seq<string>,
    shippingDaysMax: Option<int>)

  datatype RecipientProfile = RecipientProfile(
    age: Option<int>,
    gender: Option<string>,
    relationship: Option<string>,
    occasion: Option<string>,
    budget: Budget,
    interests: seq<string>,
    favoriteColor: Option<string>,
    favoriteBrands: seq<string>,
    constraints: Constraints)

  /** The profile a new chat starts from. */
  const DefaultProfile := RecipientProfile(
    None, None, None, None,
    Budget(0.0, 0.0, "USD"),
    [], None, [],
    Constraints([], [], None))

  /** The profile field a question fills in. */
  datatype Key = AgeKey | GenderKey | RelationshipKey | OccasionKey | BudgetKey
               | InterestsKey | FavoriteColorKey | FavoriteBrandsKey

  /** What a question's parser returns on success: a profile with one field set. */
  datatype Answer =
    | AgeAnswer(age: int)
    | GenderAnswer(gender: string)
    | RelationshipAnswer(relationship: string)
    | OccasionAnswer(occasion: string)
    | BudgetAnswer(budget: Budget)
    | InterestsAnswer(interests: seq<string>)
    | FavoriteColorAnswer(favoriteColor: string)
    | FavoriteBrandsAnswer(favoriteBrands: seq<string>)
  {
    function Key(): Key {
      match this
      case AgeAnswer(_) => AgeKey
      case GenderAnswer(_) => GenderKey
      case RelationshipAnswer(_) => RelationshipKey
      case OccasionAnswer(_) => OccasionKey
      case BudgetAnswer(_) => BudgetKey
      case InterestsAnswer(_) => InterestsKey
      case FavoriteColorAnswer(_) => FavoriteColorKey
      case FavoriteBrandsAnswer(_) => FavoriteBrandsKey
    }
  }

  /** Each kind of answer fills its own field. */
  lemma KeyCases(a: Answer)
    ensures a.AgeAnswer? <==> a.Key() == AgeKey
    ensures a.GenderAnswer? <==> a.Key() == GenderKey
    ensures a.RelationshipAnswer? <==> a.Key() == RelationshipKey
    ensures a.OccasionAnswer? <==> a.Key() == OccasionKey
    ensures a.BudgetAnswer? <==> a.Key() == BudgetKey
    ensures a.InterestsAnswer? <==> a.Key() == InterestsKey
    ensures a.FavoriteColorAnswer? <==> a.Key() == FavoriteColorKey
    ensures a.FavoriteBrandsAnswer? <==> a.Key() == FavoriteBrandsKey
  {
  }

  /** The two profiles agree on every field except possibly the one named by `k`. */
  predicate AgreeExcept(p: RecipientProfile, q: RecipientProfile, k: Key) {
    && (k != AgeKey ==> p.age == q.age)
    && (k != GenderKey ==> p.gender == q.gender)
    && (k != RelationshipKey ==> p.relationship == q.relationship)
    && (k != OccasionKey ==> p.occasion == q.occasion)
    && (k != BudgetKey ==> p.budget == q.budget)
    && (k != InterestsKey ==> p.interests == q.interests)
    && (k != FavoriteColorKey ==> p.favoriteColor == q.favoriteColor)
    && (k != FavoriteBrandsKey ==> p.favoriteBrands == q.favoriteBrands)
    && p.constraints == q.constraints
  }

  /** The profile holds the value the answer carries. */
  predicate Holds(p: RecipientProfile, a: Answer) {
    match a
    case AgeAnswer(v) => p.age == Some(v)
    case GenderAnswer(v) => p.gender == Some(v)
    case RelationshipAnswer(v) => p.relationship == Some(v)
    case OccasionAnswer(v) => p.occasion == Some(v)
    case BudgetAnswer(v) => p.budget == v
    case InterestsAnswer(v) => p.interests == v
    case FavoriteColorAnswer(v) => p.favoriteColor == Some(v)
    case FavoriteBrandsAnswer(v) => p.favoriteBrands == v
  }

  /**
   * `{ ...profile, ...parsed }`, with the nested budget spread and the two
   * lists taken from the answer. Every budget answer carries min, max and
   * currency, so the nested spread yields the answer's budget.
   */
  function Merge(p: RecipientProfile, a: Answer): (r: RecipientProfile)
    ensures Holds(r, a)
    ensures AgreeExcept(p, r, a.Key())
  {
    match a
    case AgeAnswer(v) => p.(age := Some(v))
    case GenderAnswer(v) => p.(gender := Some(v))
    case RelationshipAnswer(v) => p.(relationship := Some(v))
    case OccasionAnswer(v) => p.(occasion := Some(v))
    case BudgetAnswer(v) => p.(budget := Budget(v.min, v.max, v.currency))
    case InterestsAnswer(v) => p.(interests := v)
    case FavoriteColorAnswer(v) => p.(favoriteColor := Some(v))
    case FavoriteBrandsAnswer(v) => p.(favoriteBrands := v)
  }

  /** An answer to one question leaves the answers to the other questions in place. */
  lemma MergeKeepsOtherAnswers(p: RecipientProfile, a: Answer, b: Answer)
    requires Holds(p, b) && b.Key() != a.Key()
    ensures Holds(Merge(p, a), b)
  {
    assert AgreeExcept(p, Merge(p, a), a.Key());
  }

  /** The answers a profile holds stay held when only its constraints change. */
  lemma ConstraintsKeepAnswers(p: RecipientProfile, c: Constraints, answers: seq<Answer>)
    requires forall i :: 0 <= i < |answers| ==> Holds(p, answers[i])
    ensures forall i :: 0 <= i < |answers| ==> Holds(p.(constraints := c), answers[i])
  {
    forall i | 0 <= i < |answers| ensures Holds(p.(constraints := c), answers[i]) {
      match answers[i]
      case AgeAnswer(_) =>
      case GenderAnswer(_) =>
      case RelationshipAnswer(_) =>
      case OccasionAnswer(_) =>
      case BudgetAnswer(_) =>
      case InterestsAnswer(_) =>
      case FavoriteColorAnswer(_) =>
      case FavoriteBrandsAnswer(_) =>
    }
  }
}

=== FILE: question_flow.dfy ===
/**
 * The eight intake questions of the chat page (`questionFlow` in
 * client/src/pages/ChatPage.tsx): the profile field each one fills, its
 * prompt, its reprompt, its quick-reply options, its parser and its
 * confirmation text, plus the fixed assistant lines around them.
 */
module QuestionFlow {
  import opened Wrappers
  import opened Text
  import opened Profile
  import opened Parsers

  datatype Question = Question(prompt: string, reprompt: string, options: Option<seq<string>>)

  const Questions: seq<Question> := [
    Question("First up, how old is the recipient?",
      "Could you share their age with a number?", None),
    Question("What gender do they identify with?",
      "Please select Male or Female.", Some(["Male", "Female"])),
    Question("What's your relationship to them?",
      "Let me know how you're connected so I can match the tone.",
      Some(["Partner", "Sibling", "Parent", "Friend", "Coworker", "Other"])),
    Question("What are you celebrating?",
      "Any special occasion details to share?",
      Some(["Birthday", "Anniversary", "Graduation", "Wedding", "Baby Shower", "Holiday", "Thank You", "Other"])),
    Question("What's your budget range in USD? (e.g., 40-80 or up to 120)",
      "Try sharing a range like 30-60 USD so I can match price points.", None),
    Question("List a few of their core interests or hobbies (comma separated works!).",
      "Drop a few interests separated by commas.", None),
    Question("Any favorite colors they gravitate toward?",
      "Mention a color family so I can match the palette.", None),
    Question("Finally, any must-include brands or labels they adore?",
      "Name any brands they love (comma separated works).", None)
  ]

  const QuestionCount: nat := 8

  /** The profile field question `step` asks about. */
  function QuestionKey(step: nat): Key
    requires step < QuestionCount
  {
    [AgeKey, GenderKey, RelationshipKey, OccasionKey, BudgetKey,
     InterestsKey, FavoriteColorKey, FavoriteBrandsKey][step]
  }

  /** Each question fills a different field. */
  lemma QuestionKeysDistinct(i: nat, j: nat)
    requires i < QuestionCount && j < QuestionCount && i != j
    ensures QuestionKey(i) != QuestionKey(j)
  {
  }

  const Greeting: string := "Hi! I'm Trendella. Let's curate the perfect gift together."

  const FinalizeText: string :=
    "Amazing — we have a full profile. Add more details for higher specificity like delivery windows, aesthetics, or must-have categories while I pull curated ideas."

  const RefiningText: string := "Refining the list with that detail..."

  /** What the page says when sent back from the wish list before the profile is complete. */
  const WishlistNotReadyText: string :=
    "Once we finish the profile I’ll happily rework ideas around your wish list favorites."

  /** The refinement request sent when coming back from the wish list with a complete profile. */
  const WishlistRefineInput: string := "Please focus on the items saved to my wish list."

  /** The parser of the question about `key`; only the budget parser reads the profile so far. */
  function ParseFor(key: Key, input: string, profile: RecipientProfile): Option<Answer>
  {
    match key
    case AgeKey => ParseAge(input)
    case GenderKey =>
      var g := ParseGender(input); if g.None? then None else Some(GenderAnswer(g.value))
    case RelationshipKey =>
      var v := ParseText(input); if v.None? then None else Some(RelationshipAnswer(v.value))
    case OccasionKey =>
      var v := ParseText(input); if v.None? then None else Some(OccasionAnswer(v.value))
    case BudgetKey =>
      var b := ExtractBudget(input, profile.budget); if b.None? then None else Some(BudgetAnswer(b.value))
    case InterestsKey =>
      var vs := ParseInterests(input); if vs.None? then None else Some(InterestsAnswer(vs.value))
    case FavoriteColorKey =>
      var v := ParseText(input); if v.None? then None else Some(FavoriteColorAnswer(v.value))
    case FavoriteBrandsKey =>
      var vs := ParseBrands(input); if vs.None? then None else Some(FavoriteBrandsAnswer(vs.value))
  }

  /** An accepted answer always fills the field the question is about. */
  lemma ParseForKey(key: Key, input: string, profile: RecipientProfile)
    ensures ParseFor(key, input, profile).Some? ==> ParseFor(key, input, profile).value.Key() == key
  {
    var r := ParseFor(key, input, profile);
    if r.Some? {
      KeyCases(r.value);
    }
  }

  /** The parser of question `step`. */
  function ParseAnswer(step: nat, input: string, profile: RecipientProfile): (r: Option<Answer>)
    requires step < QuestionCount
    ensures r.Some? ==> r.value.Key() == QuestionKey(step)
  {
    ParseForKey(QuestionKey(step), input, profile);
    ParseFor(QuestionKey(step), input, profile)
  }

  /**
   * When a question re-prompts: the age question when no number (or 0) is
   * found, the budget question when there is no digit, the list questions
   * when no piece survives, the others on blank input.
   */
  lemma ParseAnswerRejects(step: nat, input: string, profile: RecipientProfile)
    requires step < QuestionCount
    ensures var r := ParseAnswer(step, input, profile);
      && (step == 0 ==> (r.None? <==> ParseNumber(input) == None || ParseNumber(input) == Some(0)))
      && (step in {1, 2, 3, 6} ==> (r.None? <==> Blank(input)))
      && (step == 4 ==> (r.None? <==> NoDigit(input)))
      && (step == 5 ==> (r.None? <==> ParseCommaSeparated(ToLower(input)) == []))
      && (step == 7 ==> (r.None? <==> ParseCommaSeparated(input) == []))
  {
    var key := QuestionKey(step);
    assert ParseAnswer(step, input, profile) == ParseFor(key, input, profile);
    if step == 0 {
      assert key == AgeKey;
    } else if step == 4 {
      assert key == BudgetKey;
    } else if step == 5 {
      assert key == InterestsKey;
    } else if step == 7 {
      assert key == FavoriteBrandsKey;
    } else {
      assert key in {GenderKey, RelationshipKey, OccasionKey, FavoriteColorKey};
    }
  }

  /** `Math.round`: the nearest integer, halves rounded up. */
  function Round(x: real): (r: int)
    ensures x - 0.5 < r as real <= x + 0.5
  {
    (x + 0.5).Floor
  }

  /** The confirmation line for an accepted answer: one sentence, ending in a full stop. */
  function Confirmation(a: Answer): (r: string)
    ensures |r| > 0 && r[|r| - 1] == '.'
  {
    match a
    case AgeAnswer(v) => "Got it — " + IntToString(v) + " years young."
    case GenderAnswer(g) => if g != [] then "Noted — " + g + " vibes." else "Skipping gender preference."
    case RelationshipAnswer(v) => "Perfect — relationship set to " + v + "."
    case OccasionAnswer(v) => "Occasion logged: " + v + "."
    case BudgetAnswer(b) =>
      "Budget locked: $" + IntToString(Round(b.min)) + " to $" + IntToString(Round(b.max)) + "."
    case InterestsAnswer(vs) => "Love it — focusing on " + Join(vs, ", ") + "."
    case FavoriteColorAnswer(v) => "Color preference saved: " + v + "."
    case FavoriteBrandsAnswer(vs) => "Brand affinity noted: " + Join(vs, ", ") + "."
  }

  /** The age confirmation quotes the age so that the age parser reads it back. */
  lemma AgeConfirmationReadsBack(input: string)
    requires ParseAge(input).Some?
    ensures ParseAge(Confirmation(ParseAge(input).value)) == ParseAge(input)
  {
    var v := ParseAge(input).value.age;
    var prefix := "Got it — ";
    var rest := " years young.";
    assert NoDigit(prefix);
    assert Confirmation(AgeAnswer(v)) == prefix + NatToString(v) + rest;
    ParseNumberRoundTrip(prefix, v, rest);
  }

  /**
   * `questionFlow.findIndex((q) => q.prompt === content)`: the first
   * question whose prompt is `content`.
   */
  function PromptIndex(content: string): (r: Option<nat>)
    ensures r.Some? ==> r.value < QuestionCount && Questions[r.value].prompt == content
    ensures r.None? ==> forall i :: 0 <= i < QuestionCount ==> Questions[i].prompt != content
  {
    PromptIndexFrom(content, 0)
  }

  function PromptIndexFrom(content: string, i: nat): (r: Option<nat>)
    requires i <= QuestionCount
    ensures r.Some? ==> i <= r.value < QuestionCount && Questions[r.value].prompt == content
    ensures r.None? ==> forall j :: i <= j < QuestionCount ==> Questions[j].prompt != content
    decreases QuestionCount - i
  {
    if i == QuestionCount then None
    else if Questions[i].prompt == content then Some(i)
    else PromptIndexFrom(content, i + 1)
  }

  /** The eight prompts are distinct, so a prompt is recognised as its own question. */
  lemma PromptIndexOfPrompt(i: nat)
    requires i < QuestionCount
    ensures PromptIndex(Questions[i].prompt) == Some(i)
  {
    var q := Questions;
    assert |q[0].prompt| == 35 && |q[1].prompt| == 34 && |q[2].prompt| == 33 && |q[3].prompt| == 25
        && |q[4].prompt| == 59 && |q[5].prompt| == 71 && |q[6].prompt| == 42 && |q[7].prompt| == 54;
  }

  /** Text of a length no prompt has is not recognised as a prompt. */
  lemma NotAPrompt(content: string)
    requires |content| !in {35, 34, 33, 25, 59, 71, 42, 54}
    ensures PromptIndex(content).None?
  {
    var q := Questions;
    assert |q[0].prompt| == 35 && |q[1].prompt| == 34 && |q[2].prompt| == 33 && |q[3].prompt| == 25
        && |q[4].prompt| == 59 && |q[5].prompt| == 71 && |q[6].prompt| == 42 && |q[7].prompt| == 54;
  }
}

=== FILE: refine.dfy ===
/**
 * `deriveConstraints` (client/src/pages/ChatPage.tsx): after the profile is
 * complete, free text refines the recommendation filters. The source copies
 * the current constraints into a local object and reassigns its fields step
 * by step; the method below does the same with local variables.
 */
module Refine {
  import opened Wrappers
  import opened Text
  import opened Profile

  /** `/eco|sustain|planet/` */
  const EcoWords: seq<string> := ["eco", "sustain", "planet"]

  /** The keyword alternatives of each category hint, in the order the source tests them. */
  const Hints: seq<(seq<string>, string)> := [
    (["tech", "gadget", "device"], "tech"),
    (["fitness", "gym", "workout"], "fitness"),
    (["beauty", "skincare", "makeup"], "beauty"),
    (["fashion", "outfit", "style"], "fashion"),
    (["home", "decor", "apartment", "kitchen"], "home"),
    (["travel", "trip", "adventure"], "travel"),
    (["jewelry", "ring", "necklace", "earring"], "accessories"),
    (["plant", "green", "garden", "terrarium"], "plants")
  ]

  /** `/(\d+)\s*(?:day|days)/` matches at `i`: the digit run from `i`, optional white space, "day". */
  predicate ShippingMatchAt(s: string, i: nat)
    requires i <= |s|
  {
    i < |s| && IsDigit(s[i]) && Occurs(s, SpaceRunEnd(s, DigitRunEnd(s, i)), "day")
  }

  /**
   * The captured number of the leftmost match of `/(\d+)\s*(?:day|days)/` at
   * or after `i`. A shorter digit or space run than the longest one is
   * followed by a digit or a space, never by "day", so only the longest runs
   * can match.
   */
  function ShippingFrom(s: string, i: nat): (r: Option<int>)
    requires i <= |s|
    ensures r.Some? ==> r.value >= 0
    decreases |s| - i
  {
    if i == |s| then None
    else if ShippingMatchAt(s, i) then Some(DigitsValue(s[i..DigitRunEnd(s, i)]))
    else ShippingFrom(s, i + 1)
  }

  function ShippingDays(s: string): Option<int> { ShippingFrom(s, 0) }

  /** The scan skips text without digits. */
  lemma {:induction false} ShippingFromSkips(s: string, i: nat, n: nat)
    requires i <= n <= |s|
    requires forall j :: i <= j < n ==> !IsDigit(s[j])
    ensures ShippingFrom(s, i) == ShippingFrom(s, n)
    decreases n - i
  {
    if i < n {
      ShippingFromSkips(s, i + 1, n);
    }
  }

  /** "ship within 3 days" sets the shipping window to 3. */
  lemma ShippingDaysReadsWindow(prefix: string, n: nat, rest: string)
    requires forall j :: 0 <= j < |prefix| ==> !IsDigit(prefix[j])
    ensures ShippingDays(prefix + NatToString(n) + " day" + rest) == Some(n)
  {
    var ds := NatToString(n);
    var s := prefix + ds + " day" + rest;
    var p := |prefix|;
    var m := p + |ds|;
    forall j | 0 <= j < p ensures !IsDigit(s[j]) { assert s[j] == prefix[j]; }
    forall j | p <= j < m ensures IsDigit(s[j]) { assert s[j] == ds[j - p]; }
    assert s[m] == ' ' && s[m + 1] == 'd';
    DigitRunEndIs(s, p, m);
    assert SpaceRunEnd(s, m + 1) == m + 1;
    assert SpaceRunEnd(s, m) == m + 1;
    assert s[m + 1..m + 4] == "day";
    ShippingFromSkips(s, 0, p);
    assert s[p..m] == ds;
    NatToStringRoundTrip(n);
  }

  /** `\s+` followed by "jewelry", from index `j`. */
  predicate JewelryAfterSpaces(s: string, j: nat)
  {
    j < |s| && IsSpace(s[j]) && Occurs(s, SpaceRunEnd(s, j), "jewelry")
  }

  /** `/no\s+jewelry|avoid\s+jewelry/` */
  predicate AvoidsJewelry(s: string)
  {
    exists i | 0 <= i <= |s| ::
      (Occurs(s, i, "no") && JewelryAfterSpaces(s, i + 2))
      || (Occurs(s, i, "avoid") && JewelryAfterSpaces(s, i + 5))
  }

  /** The categories whose hint keywords occur in `s`, in hint order. */
  function MatchedCategories(s: string, hints: seq<(seq<string>, string)>): seq<string>
  {
    if hints == [] then []
    else
      var last := hints[|hints| - 1];
      MatchedCategories(s, hints[..|hints| - 1]) + (if ContainsAny(s, last.0) then [last.1] else [])
  }

  /** A hint whose keyword occurs contributes its category. */
  lemma {:induction false} MatchedCategoriesHas(s: string, hints: seq<(seq<string>, string)>, k: nat)
    requires k < |hints| && ContainsAny(s, hints[k].0)
    ensures hints[k].1 in MatchedCategories(s, hints)
  {
    if k < |hints| - 1 {
      MatchedCategoriesHas(s, hints[..|hints| - 1], k);
    }
  }

  /** Every category contributed comes from a hint whose keyword occurs. */
  lemma {:induction false} MatchedCategoriesFrom(s: string, hints: seq<(seq<string>, string)>, x: string)
    requires x in MatchedCategories(s, hints)
    ensures exists k :: 0 <= k < |hints| && hints[k].1 == x && ContainsAny(s, hints[k].0)
  {
    var init := hints[..|hints| - 1];
    if x in MatchedCategories(s, init) {
      MatchedCategoriesFrom(s, init, x);
      var k :| 0 <= k < |init| && init[k].1 == x && ContainsAny(s, init[k].0);
      assert hints[k] == init[k];
    }
  }

  /** The categories the text asks for: "eco_friendly" first, then the matched hints. */
  function Requested(s: string): seq<string>
  {
    (if ContainsAny(s, EcoWords) then ["eco_friendly"] else []) + MatchedCategories(s, Hints)
  }

  /** What `deriveConstraints` adds to the exclusions. */
  function Excluded(s: string): seq<string>
  {
    if AvoidsJewelry(s) then ["accessories"] else []
  }

  /** One more hint extends the matched categories by at most its own category. */
  lemma MatchedCategoriesSnoc(s: string, hints: seq<(seq<string>, string)>, k: nat)
    requires k < |hints|
    ensures MatchedCategories(s, hints[..k + 1])
            == MatchedCategories(s, hints[..k]) + (if ContainsAny(s, hints[k].0) then [hints[k].1] else [])
  {
    assert hints[..k + 1][..k] == hints[..k];
  }

  /**
   * The source's `if (!includes.includes(x)) includes.push(x)` keeps the list
   * in step with the set of everything asked for so far.
   */
  lemma AddCategory(includes: seq<string>, asked: seq<string>, x: string)
    requires Dedup(includes) == Dedup(asked)
    requires forall y :: y in includes <==> y in asked
    ensures var next := if x in includes then includes else includes + [x];
      && Dedup(next) == Dedup(asked + [x])
      && forall y :: y in next <==> y in asked + [x]
  {
    DedupSnoc(asked, x);
    DedupSnoc(includes, x);
  }

  lemma SnocAssoc(a: seq<string>, b: seq<string>, x: string)
    ensures (a + b) + [x] == a + (b + [x])
  {
  }

  /** The categories asked for, following the order in which the source pushes them. */
  lemma RequestedSplit(s: string, includes: seq<string>)
    ensures includes + Requested(s)
            == (if ContainsAny(s, EcoWords) then includes + ["eco_friendly"] else includes) + MatchedCategories(s, Hints)
  {
  }

  /**
   * The constraints after refining with `input`: the lower-cased text's
   * requests appended to each list, duplicates dropped in first-seen order,
   * and the shipping window replaced when the text names one.
   */
  function Refined(input: string, c: Constraints): (r: Constraints)
    ensures NoDup(r.categoryIncludes) && NoDup(r.categoryExcludes)
    ensures forall x :: x in c.categoryIncludes ==> x in r.categoryIncludes
    ensures forall x :: x in c.categoryExcludes ==> x in r.categoryExcludes
  {
    var lowered := ToLower(input);
    Constraints(
      Dedup(c.categoryIncludes + Requested(lowered)),
      Dedup(c.categoryExcludes + Excluded(lowered)),
      if ShippingDays(lowered).Some? then ShippingDays(lowered) else c.shippingDaysMax)
  }

  /**
   * `deriveConstraints`: includes and excludes grow by what the lower-cased
   * text asks for and come back duplicate-free in first-seen order; the
   * shipping window is replaced by the first "<digits> day" match, if any.
   */
  method DeriveConstraints(input: string, c: Constraints) returns (r: Constraints)
    ensures r == Refined(input, c)
  {
    var lowered := ToLower(input);
    var shipping := c.shippingDaysMax;
    var days := ShippingDays(lowered);
    if days.Some? {
      shipping := days;
    }

    var includes := AddRequested(lowered, c.categoryIncludes);

    var excludes := c.categoryExcludes;
    if AvoidsJewelry(lowered) {
      excludes := excludes + ["accessories"];
    } else {
      assert excludes == c.categoryExcludes + Excluded(lowered);
    }

    r := Constraints(Dedup(includes), Dedup(excludes), shipping);
  }

  /**
   * The inclusion half of `deriveConstraints`: "eco_friendly" when an eco
   * word occurs, then the category of each hint whose keyword occurs, each
   * pushed only when not already listed.
   */
  method AddRequested(lowered: string, current: seq<string>) returns (includes: seq<string>)
    ensures Dedup(includes) == Dedup(current + Requested(lowered))
  {
    includes := current;
    var asked := current;
    if ContainsAny(lowered, EcoWords) {
      AddCategory(includes, asked, "eco_friendly");
      if "eco_friendly" !in includes {
        includes := includes + ["eco_friendly"];
      }
      asked := asked + ["eco_friendly"];
    } else {
      assert asked == current + [];
    }
    ghost var base := asked;
    ghost var matched: seq<string> := [];

    var hints := Hints;
    for k := 0 to |hints|
      invariant matched == MatchedCategories(lowered, hints[..k])
      invariant asked == base + matched
      invariant Dedup(includes) == Dedup(asked)
      invariant forall x :: x in includes <==> x in asked
    {
      MatchedCategoriesSnoc(lowered, hints, k);
      var category := hints[k].1;
      if ContainsAny(lowered, hints[k].0) {
        AddCategory(includes, asked, category);
        if category !in includes {
          includes := includes + [category];
        }
        SnocAssoc(base, matched, category);
        asked := asked + [category];
        matched := matched + [category];
      }
    }
    assert hints[..|hints|] == Hints;
    RequestedSplit(lowered, current);
  }

  /**
   * "no jewelry" puts "accessories" in the exclusions, and since the text
   * also mentions jewelry, the jewelry hint puts it in the inclusions too.
   */
  lemma NoJewelryIncludesAndExcludes(s: string, c: Constraints)
    requires AvoidsJewelry(s)
    ensures "accessories" in Dedup(c.categoryIncludes + Requested(s))
    ensures "accessories" in Dedup(c.categoryExcludes + Excluded(s))
  {
    var i :| 0 <= i <= |s| &&
      ((Occurs(s, i, "no") && JewelryAfterSpaces(s, i + 2))
      || (Occurs(s, i, "avoid") && JewelryAfterSpaces(s, i + 5)));
    var j := if Occurs(s, i, "no") && JewelryAfterSpaces(s, i + 2) then i + 2 else i + 5;
    var at := SpaceRunEnd(s, j);
    assert Occurs(s, at, "jewelry");
    assert Contains(s, Hints[6].0[0]);
    assert ContainsAny(s, Hints[6].0);
    MatchedCategoriesHas(s, Hints, 6);
  }

  /**
   * The text adds to the inclusions exactly "eco_friendly" when an eco word
   * occurs and the category of every hint whose keyword occurs.
   */
  lemma RequestedCategories(s: string, x: string)
    ensures x in Requested(s) <==>
      (x == "eco_friendly" && ContainsAny(s, EcoWords))
      || exists k :: 0 <= k < |Hints| && Hints[k].1 == x && ContainsAny(s, Hints[k].0)
  {
    if x in MatchedCategories(s, Hints) {
      MatchedCategoriesFrom(s, Hints, x);
    }
    if exists k :: 0 <= k < |Hints| && Hints[k].1 == x && ContainsAny(s, Hints[k].0) {
      var k :| 0 <= k < |Hints| && Hints[k].1 == x && ContainsAny(s, Hints[k].0);
      MatchedCategoriesHas(s, Hints, k);
    }
  }
}

=== FILE: sorting.dfy ===
/**
 * `Array.prototype.sort` with a numeric comparator `(a, b) => key(a) - key(b)`.
 * The language guarantees a stable sort, so it is modelled as insertion sort
 * from the back: each element goes in front of the already sorted rest, after
 * the elements with a smaller key and before those with an equal or larger
 * one, which all came after it in the input.
 */
module Sorting {

  predicate SortedBy<T>(xs: seq<T>, key: T -> real) {
    forall i, j :: 0 <= i < j < |xs| ==> key(xs[i]) <= key(xs[j])
  }

  /** Insert `x` in front of the first element whose key is not smaller than its own. */
  function InsertBy<T>(x: T, s: seq<T>, key: T -> real): (r: seq<T>)
    requires SortedBy(s, key)
    ensures SortedBy(r, key)
    ensures multiset(r) == multiset(s) + multiset{x}
    ensures |r| == |s| + 1
  {
    if s == [] then [x]
    else if key(x) <= key(s[0]) then
      SortedCons(x, s, key);
      [x] + s
    else
      var t := InsertBy(x, s[1..], key);
      assert s == [s[0]] + s[1..];
      InsertedAfterHead(x, s, t, key);
      SortedCons(s[0], t, key);
      [s[0]] + t
  }

  /** An element no larger than the head of a sorted sequence can go in front of it. */
  lemma SortedCons<T>(y: T, t: seq<T>, key: T -> real)
    requires SortedBy(t, key) && (t == [] || key(y) <= key(t[0]))
    ensures SortedBy([y] + t, key)
  {
    var r := [y] + t;
    forall i, j | 0 <= i < j < |r| ensures key(r[i]) <= key(r[j]) {
      if i > 0 {
        SortedPair(t, key, i - 1, j - 1);
      } else {
        SortedPair(t, key, 0, j - 1);
      }
    }
  }

  /** Inserting past the head of a sorted sequence leaves the head no larger than what follows. */
  lemma InsertedAfterHead<T>(x: T, s: seq<T>, t: seq<T>, key: T -> real)
    requires s != [] && SortedBy(s, key) && key(s[0]) < key(x)
    requires multiset(t) == multiset(s[1..]) + multiset{x}
    ensures t != [] && key(s[0]) <= key(t[0])
  {
    assert t[0] in multiset(t) by { assert x in multiset(t); }
    if t[0] != x {
      var k := IndexOf(s[1..], t[0]);
      SortedPair(s, key, 0, k + 1);
    }
  }

  /** The stable sort of `xs` by `key`, ascending. */
  function SortBy<T>(xs: seq<T>, key: T -> real): (r: seq<T>)
    ensures SortedBy(r, key)
    ensures multiset(r) == multiset(xs)
    ensures |r| == |xs|
  {
    if xs == [] then []
    else
      assert xs == [xs[0]] + xs[1..];
      InsertBy(xs[0], SortBy(xs[1..], key), key)
  }

  /** The elements of `xs` whose key is `k`, in their order in `xs`. */
  function WithKey<T>(xs: seq<T>, key: T -> real, k: real): seq<T>
  {
    if xs == [] then []
    else (if key(xs[0]) == k then [xs[0]] else []) + WithKey(xs[1..], key, k)
  }

  /** Inserting `x` puts it first among the elements with its key. */
  lemma {:induction false} InsertByStable<T>(x: T, s: seq<T>, key: T -> real, k: real)
    requires SortedBy(s, key)
    ensures WithKey(InsertBy(x, s, key), key, k) == (if key(x) == k then [x] else []) + WithKey(s, key, k)
  {
    if s == [] {
      WithKeyCons(x, s, key, k);
      assert [x] + s == [x];
    } else if key(x) <= key(s[0]) {
      WithKeyCons(x, s, key, k);
    } else {
      InsertByStable(x, s[1..], key, k);
      WithKeyPast(s[0], x, s[1..], InsertBy(x, s[1..], key), key, k);
      assert [s[0]] + s[1..] == s;
    }
  }

  lemma WithKeyCons<T>(y: T, ys: seq<T>, key: T -> real, k: real)
    ensures WithKey([y] + ys, key, k) == (if key(y) == k then [y] else []) + WithKey(ys, key, k)
  {
    assert ([y] + ys)[1..] == ys;
  }

  /** `x` passing an element with a smaller key keeps the order among equal keys. */
  lemma WithKeyPast<T>(y: T, x: T, ys: seq<T>, t: seq<T>, key: T -> real, k: real)
    requires key(y) < key(x)
    requires WithKey(t, key, k) == (if key(x) == k then [x] else []) + WithKey(ys, key, k)
    ensures WithKey([y] + t, key, k) == (if key(x) == k then [x] else []) + WithKey([y] + ys, key, k)
  {
    WithKeyCons(y, t, key, k);
    WithKeyCons(y, ys, key, k);
    if key(x) == k {
      assert WithKey([y] + t, key, k) == [x] + WithKey(ys, key, k);
    }
  }

  /** The sort is stable: elements with equal keys keep their relative order. */
  lemma {:induction false} SortStable<T>(xs: seq<T>, key: T -> real, k: real)
    ensures WithKey(SortBy(xs, key), key, k) == WithKey(xs, key, k)
  {
    if xs != [] {
      SortStable(xs[1..], key, k);
      InsertByStable(xs[0], SortBy(xs[1..], key), key, k);
    }
  }

  /** Sorting a sequence that is already in order changes nothing. */
  lemma {:induction false} SortSorted<T>(xs: seq<T>, key: T -> real)
    requires SortedBy(xs, key)
    ensures SortBy(xs, key) == xs
  {
    if xs != [] {
      SortSorted(xs[1..], key);
      assert xs == [xs[0]] + xs[1..];
    }
  }

  /** The first element of a sorted permutation has the smallest key, the last one the largest. */
  lemma SortedEnds<T>(xs: seq<T>, key: T -> real)
    requires xs != []
    ensures var r := SortBy(xs, key);
      && r[0] in xs && r[|r| - 1] in xs
      && forall x :: x in xs ==> key(r[0]) <= key(x) <= key(r[|r| - 1])
  {
    PermutationEnds(xs, SortBy(xs, key), key);
  }

  lemma PermutationEnds<T>(xs: seq<T>, r: seq<T>, key: T -> real)
    requires xs != [] && SortedBy(r, key) && multiset(r) == multiset(xs)
    ensures |r| == |xs|
    ensures r[0] in xs && r[|r| - 1] in xs
    ensures forall x :: x in xs ==> key(r[0]) <= key(x) <= key(r[|r| - 1])
  {
    assert |r| == |multiset(r)| == |multiset(xs)| == |xs|;
    var last := |r| - 1;
    assert r[0] in multiset(r) && r[last] in multiset(r);
    forall x | x in xs ensures key(r[0]) <= key(x) <= key(r[last]) {
      assert x in multiset(xs);
      var k := IndexOf(r, x);
      SortedPair(r, key, 0, k);
      SortedPair(r, key, k, last);
    }
  }

  /** Keys are in order between any two positions of a sorted sequence. */
  lemma SortedPair<T>(r: seq<T>, key: T -> real, i: nat, j: nat)
    requires SortedBy(r, key) && i <= j < |r|
    ensures key(r[i]) <= key(r[j])
  {
  }

  /** A position at which an element of the multiset of `r` occurs. */
  lemma IndexOf<T>(r: seq<T>, x: T) returns (k: nat)
    requires x in multiset(r)
    ensures k < |r| && r[k] == x
  {
    k :| k < |r| && r[k] == x;
  }
}

=== FILE: text.dfy ===
/**
 * ASCII text helpers standing in for the JavaScript string built-ins and the
 * small regular expressions the client uses: `trim`, `toLowerCase`, `\d`, `\s`,
 * substring tests, number rendering, and the insertion-ordered `Set` used to
 * drop duplicates.
 */
module Text {
  import opened Wrappers

  /** `\d` */
  predicate IsDigit(c: char) { '0' <= c <= '9' }

  /** `\s` and the characters `String.prototype.trim` removes, restricted to ASCII:
      space, tab, line feed, vertical tab, form feed, carriage return. */
  predicate IsSpace(c: char) { c == ' ' || '\t' <= c <= '\r' }

  predicate IsUpper(c: char) { 'A' <= c <= 'Z' }

  /** `toLowerCase` on one ASCII character. */
  function Lower(c: char): (r: char)
    ensures !IsUpper(r)
    ensures !IsUpper(c) ==> r == c
  {
    if IsUpper(c) then (c as int + 32) as char else c
  }

  function ToLower(s: string): (r: string)
    ensures |r| == |s|
    ensures forall i :: 0 <= i < |s| ==> r[i] == Lower(s[i])
  {
    seq(|s|, i requires 0 <= i < |s| => Lower(s[i]))
  }

  predicate IsLowerCase(s: string) { forall i :: 0 <= i < |s| ==> !IsUpper(s[i]) }

  /** A string made only of white space (the empty string included). */
  predicate Blank(s: string) { forall i :: 0 <= i < |s| ==> IsSpace(s[i]) }

  /** Neither starts nor ends with white space. */
  predicate IsTrimmed(s: string) { s == [] || (!IsSpace(s[0]) && !IsSpace(s[|s| - 1])) }

  /** Index of the first character at or after `i` that is not white space, or `|s|`. */
  function SkipSpaces(s: string, i: nat): (a: nat)
    requires i <= |s|
    ensures i <= a <= |s|
    ensures forall k :: i <= k < a ==> IsSpace(s[k])
    ensures a < |s| ==> !IsSpace(s[a])
    decreases |s| - i
  {
    if i < |s| && IsSpace(s[i]) then SkipSpaces(s, i + 1) else i
  }

  /** Index just past the last character at or after `a` that is not white space, or `a`. */
  function SkipSpacesBack(s: string, a: nat, b: nat): (e: nat)
    requires a <= b <= |s|
    ensures a <= e <= b
    ensures forall k :: e <= k < b ==> IsSpace(s[k])
    ensures e > a ==> !IsSpace(s[e - 1])
    decreases b
  {
    if b > a && IsSpace(s[b - 1]) then SkipSpacesBack(s, a, b - 1) else b
  }

  function TrimStartIndex(s: string): nat
    ensures TrimStartIndex(s) <= |s|
  {
    SkipSpaces(s, 0)
  }

  function TrimEndIndex(s: string): nat
    ensures TrimStartIndex(s) <= TrimEndIndex(s) <= |s|
  {
    SkipSpacesBack(s, TrimStartIndex(s), |s|)
  }

  /** `String.prototype.trim`: the input with its leading and trailing white space removed. */
  function Trim(s: string): (r: string)
    ensures IsTrimmed(r)
    ensures r == s[TrimStartIndex(s)..TrimEndIndex(s)]
    ensures forall k :: 0 <= k < TrimStartIndex(s) ==> IsSpace(s[k])
    ensures forall k :: TrimEndIndex(s) <= k < |s| ==> IsSpace(s[k])
  {
    s[TrimStartIndex(s)..TrimEndIndex(s)]
  }

  /** Trimming yields the empty string exactly when the input is blank. */
  lemma TrimEmptyIffBlank(s: string)
    ensures Trim(s) == [] <==> Blank(s)
  {
    var a := TrimStartIndex(s);
    if Trim(s) != [] {
      assert !IsSpace(s[a]);
    }
  }

  /** Trimming lower-case text gives lower-case text. */
  lemma TrimKeepsLowerCase(s: string)
    ensures IsLowerCase(s) ==> IsLowerCase(Trim(s))
  {
  }

  /** Text that is already trimmed is left alone. */
  lemma TrimTrimmed(s: string)
    requires IsTrimmed(s)
    ensures Trim(s) == s
  {
    assert TrimStartIndex(s) == 0;
    assert TrimEndIndex(s) == |s|;
  }

  /** `p` occurs in `s` starting at index `i`. */
  predicate Occurs(s: string, i: int, p: string) {
    0 <= i && i + |p| <= |s| && s[i..i + |p|] == p
  }

  /** `s.includes(p)`, and the regular-expression test `/p/.test(s)` for a literal `p`. */
  predicate Contains(s: string, p: string) {
    exists i | 0 <= i <= |s| - |p| :: Occurs(s, i, p)
  }

  /** `/p1|p2|.../.test(s)` for literal alternatives. */
  predicate ContainsAny(s: string, ps: seq<string>) {
    exists k | 0 <= k < |ps| :: Contains(s, ps[k])
  }

  /** The end of the run of digits that starts at `i` (the greedy `\d+`). */
  function DigitRunEnd(s: string, i: nat): (j: nat)
    requires i <= |s|
    ensures i <= j <= |s|
    ensures forall k :: i <= k < j ==> IsDigit(s[k])
    ensures j == |s| || !IsDigit(s[j])
    decreases |s| - i
  {
    if i < |s| && IsDigit(s[i]) then DigitRunEnd(s, i + 1) else i
  }

  /** The digit run from `i` ends at `m` when all before `m` are digits and `m` is not. */
  lemma DigitRunEndIs(s: string, i: nat, m: nat)
    requires i <= m <= |s|
    requires forall k :: i <= k < m ==> IsDigit(s[k])
    requires m == |s| || !IsDigit(s[m])
    ensures DigitRunEnd(s, i) == m
  {
  }

  /** The end of the run of white space that starts at `i` (the greedy `\s*`). */
  function SpaceRunEnd(s: string, i: nat): (j: nat)
    requires i <= |s|
    ensures i <= j <= |s|
    ensures forall k :: i <= k < j ==> IsSpace(s[k])
    ensures j == |s| || !IsSpace(s[j])
    decreases |s| - i
  {
    if i < |s| && IsSpace(s[i]) then SpaceRunEnd(s, i + 1) else i
  }

  predicate AllDigits(s: string) { forall i :: 0 <= i < |s| ==> IsDigit(s[i]) }

  function DigitValue(c: char): (d: nat)
    ensures d < 10
  {
    if IsDigit(c) then c as int - '0' as int else 0
  }

  function DigitChar(d: nat): (c: char)
    requires d < 10
    ensures IsDigit(c) && DigitValue(c) == d
  {
    ('0' as int + d) as char
  }

  /** `Number(digits)` for a string of decimal digits (leading zeros allowed). */
  function DigitsValue(ds: string): nat
  {
    if ds == [] then 0 else DigitsValue(ds[..|ds| - 1]) * 10 + DigitValue(ds[|ds| - 1])
  }

  /** A value written with at most three digits is below 1000. */
  lemma {:induction false} DigitsValueBound(ds: string)
    ensures DigitsValue(ds) < Power10(|ds|)
  {
    if ds != [] {
      DigitsValueBound(ds[..|ds| - 1]);
    }
  }

  function Power10(n: nat): (p: nat)
    ensures p >= 1
  {
    if n == 0 then 1 else 10 * Power10(n - 1)
  }

  /** The decimal rendering of a natural number, as `${n}` gives it. */
  function NatToString(n: nat): (s: string)
    ensures s != [] && AllDigits(s)
    ensures |s| > 1 ==> s[0] != '0'
  {
    if n < 10 then [DigitChar(n)] else NatToString(n / 10) + [DigitChar(n % 10)]
  }

  /** Reading back a rendered number gives the number. */
  lemma {:induction false} NatToStringRoundTrip(n: nat)
    ensures DigitsValue(NatToString(n)) == n
  {
    if n >= 10 {
      NatToStringRoundTrip(n / 10);
      var s := NatToString(n);
      assert s[..|s| - 1] == NatToString(n / 10);
    }
  }

  /** Numbers below 1000 are rendered with at most three digits. */
  lemma {:induction false} NatToStringLength(n: nat)
    ensures n < 10 ==> |NatToString(n)| == 1
    ensures n < 100 ==> |NatToString(n)| <= 2
    ensures n < 1000 ==> |NatToString(n)| <= 3
  {
    if n >= 10 {
      NatToStringLength(n / 10);
    }
  }

  /** `${i}` for an integer. */
  function IntToString(i: int): string
  {
    if i < 0 then "-" + NatToString(-i) else NatToString(i)
  }

  /** `xs.join(sep)` */
  function Join(xs: seq<string>, sep: string): string
  {
    if xs == [] then "" else if |xs| == 1 then xs[0] else xs[0] + sep + Join(xs[1..], sep)
  }

  /** The position of the last element satisfying `p`, if any. */
  function LastWhere<T>(xs: seq<T>, p: T -> bool): (r: Option<nat>)
    ensures r.Some? ==> r.value < |xs| && p(xs[r.value])
    ensures r.Some? ==> forall j :: r.value < j < |xs| ==> !p(xs[j])
    ensures r.None? ==> forall j :: 0 <= j < |xs| ==> !p(xs[j])
  {
    if xs == [] then None
    else if p(xs[|xs| - 1]) then Some(|xs| - 1)
    else LastWhere(xs[..|xs| - 1], p)
  }

  /** No element appears twice. */
  predicate NoDup<T(==)>(xs: seq<T>) {
    forall i, j :: 0 <= i < j < |xs| ==> xs[i] != xs[j]
  }

  /**
   * `Array.from(new Set(xs))`: the distinct elements of `xs`, each at the
   * position of its first occurrence.
   */
  function Dedup<T(==,!new)>(xs: seq<T>): (r: seq<T>)
    ensures NoDup(r)
    ensures forall x :: x in r <==> x in xs
    ensures |r| <= |xs|
  {
    if xs == [] then []
    else
      var d := Dedup(xs[..|xs| - 1]);
      assert xs == xs[..|xs| - 1] + [xs[|xs| - 1]];
      if xs[|xs| - 1] in d then d else d + [xs[|xs| - 1]]
  }

  /** Adding an element to the set either leaves it as it was or appends the element. */
  lemma DedupSnoc<T(!new)>(xs: seq<T>, y: T)
    ensures Dedup(xs + [y]) == if y in xs then Dedup(xs) else Dedup(xs) + [y]
  {
    assert (xs + [y])[..|xs + [y]| - 1] == xs;
  }

  /** A sequence without duplicates is its own set. */
  lemma {:induction false} DedupNoDup<T(!new)>(xs: seq<T>)
    requires NoDup(xs)
    ensures Dedup(xs) == xs
  {
    if xs != [] {
      var init := xs[..|xs| - 1];
      assert NoDup(init);
      DedupNoDup(init);
      assert xs[|xs| - 1] !in init;
      assert xs == init + [xs[|xs| - 1]];
    }
  }

  /** No element appears twice exactly when every element occurs at most once in the multiset. */
  lemma {:induction false} NoDupCounts<T>(xs: seq<T>)
    ensures NoDup(xs) <==> forall x :: multiset(xs)[x] <= 1
  {
    if xs != [] {
      var init := xs[..|xs| - 1];
      var last := xs[|xs| - 1];
      assert xs == init + [last];
      NoDupCounts(init);
      if NoDup(xs) {
        assert NoDup(init);
        assert last !in init;
      }
      if forall x :: multiset(xs)[x] <= 1 {
        assert forall x :: multiset(init)[x] <= multiset(xs)[x];
        assert multiset(init)[last] == 0;
        assert forall i :: 0 <= i < |init| ==> init[i] in multiset(init);
      }
    }
  }
}

=== FILE: wrappers.dfy ===
/** Optional values (the source's `null` / `undefined`) and error-carrying results. */
module Wrappers {

  datatype Option<+T> = None | Some(value: T) {
    function GetOr(default: T): T {
      match this
      case Some(v) => v
      case None => default
    }
  }

  datatype Result<+T, +E> = Ok(value: T) | Err(error: E)
}
